=== FILE: README.md ===
# JobBridge Africa — a Dafny model of the job board's decision logic

JobBridge Africa is a job board. Employers post jobs, job seekers keep a profile and apply with a resume, and admins manage users and the team page. The backend is Express with Mongoose. The frontend is React.

This project models the pure decisions the program makes once the database, the clock, file uploads, password hashing and the browser are abstracted away. It then proves properties of those decisions. Every handler becomes a function of the form `(request, store, now) → (reply, store')`. A store is a sequence of records. A reply is `Ok(code, body)`, `Fail(code, message)` for an error the handler raises itself, or `Invalid(reason)` for a Mongoose validation error. Times are integer milliseconds, and `now` is always a parameter.

Modules, one file each:

- `Common` (common.dfy): `Option`, `Reply`, `Response`, and JavaScript truthiness. It also holds the two merge disciplines: `OrElse` is `x || old`, and `IfDefined` is `x !== undefined ? x : old`. Finally, `Array.prototype.filter`, first-match lookup, removal at an index, `slice(0, n)` and subsequences.
- `Text` (text.dfy): ASCII lower/upper case, `includes`, `trim` over a fixed whitespace set, the split into words, and first-letter capitalisation.
- `Sorting` (sorting.dfy): a stable insertion sort by a total-preorder comparator, with stability stated per tie class.
- `Schema` (schema.dfy): the user, job, application and team-member documents. It holds their enums, defaults, required fields and length bounds, and the constructors that apply them.
- `Scorer` (scorer.dfy): the AI-match endpoint. It covers the tokenizer, the four sub-scores, the weighted total, four-decimal rounding, the stable descending sort and the top-20 cut.
- `DemoMatcher` (demo.dfy): the integer-valued demo matcher of the AI-matching page and its bundled demo data. It matches by substring, where the scorer matches by whole token.
- `ProfilePage` (profile.dfy):
  - the three copies of the seven-field completion percentage and the checklist;
  - the role and education lines;
  - the apply gate and the `#apply` auto-open;
  - the resume and photo validators;
  - the skill autocomplete, add and remove.
- `Applications` (applications.dfy): submit, list mine, list for a job, status update and withdraw.
- `Jobs` (jobs.dfy):
  - the listing query; create, update and delete with their ownership tests;
  - the post-a-job form: country change, location composition, payload;
  - the job card's preview and apply link.
- `Auth` (auth.dfy): register, login, the profile-update merge, the password re-hash rule and the one-shot admin bootstrap.
- `UserAdmin` (useradmin.dfy): the admin user listing, the role update, and the promote/demote buttons.
- `Team` (team.dfy): the team directory's list, get, create, update and delete. The team and user-admin routes are not mounted by the server, but their controllers are modelled as written.
- `StatusView` (statusview.dfy): the employer dashboard and the applicant's "my applications" page.

Decisions taken where the code leaves room:

- A stored optional string that was never set is `""`, because the code only ever tests it for truthiness. A request body field is `Option<string>`, with `None` meaning undefined, so that `x || old` and `x !== undefined ? x : old` can be told apart.
- Scores are exact reals. `Number(x.toFixed(4))` is modelled as round-half-up to four decimals. `Math.round(x)` is `Floor(x + 1/2)`.
- Document ids stand for ObjectIds. A new document gets an id larger than every id in use.
- The scorer's candidate fetch is modelled as a function over the job store: active jobs, newest first, at most 200.
- The skill table (`ProfilePage.CommonSkills`) is copied in full. The country/city table of the post-a-job page is a parameter, because that data file (`africaLocations`) is not part of this model.

## Model

| member | source | states |
|---|---|---|
| Schema.ParseRole | JOBBRIDGE-AFRICA/backend/models/userModel.js:8-12 | a role string is accepted exactly when it is one of job_seeker, employer, admin |
| Schema.ParseJobType | JOBBRIDGE-AFRICA/backend/models/Job.js:8-12 | a job type is accepted exactly when it is one of the five enum names |
| Schema.ParseStatus | JOBBRIDGE-AFRICA/backend/models/Application.js:24-28 | a status is accepted exactly when it is one of the five enum names |
| Schema.IsExpired | JOBBRIDGE-AFRICA/backend/models/Job.js:25-27 | expired iff an expiry date is set and `now` is strictly after it, so a job expiring exactly now is not expired |
| Schema.NewJob | JOBBRIDGE-AFRICA/backend/models/Job.js:4-22 | creation fails iff a required field is missing, the trimmed title is empty, or the job type is outside the enum; otherwise jobType defaults to Full-Time, salaryRange to "Competitive", isApproved is true, the title is stored trimmed and every other field is stored as given |
| Schema.TrimIdempotent | JOBBRIDGE-AFRICA/backend/models/Job.js:4 | trimming a trimmed title changes nothing, so a stored title is already trimmed |
| Schema.NewApplication | JOBBRIDGE-AFRICA/backend/models/Application.js:4-32 | creation fails iff resumeUrl is empty; the cover letter and resume fields are stored as given; status defaults to pending and appliedAt to the creation time |
| Schema.SaveMember | JOBBRIDGE-AFRICA/backend/models/TeamMember.js:4-18 | a save trims name and role and fails iff either becomes empty or the bio exceeds 500 characters |
| Schema.NewMember | JOBBRIDGE-AFRICA/backend/models/TeamMember.js:14-42 | bio, linkedIn, github and twitter default to "", isActive to true; a created member satisfies the schema |
| Scorer.NormChar | JOBBRIDGE-AFRICA/backend/controllers/aiController.js:17-18 | after lower-casing, a character outside a–z, 0–9, '+', '#', '.', '-' becomes a space; the others are kept |
| Scorer.ExtractTokens | JOBBRIDGE-AFRICA/backend/controllers/aiController.js:14-21 | empty text gives no tokens; every token is non-empty and spelled only over the token alphabet |
| Scorer.TokensSplit | JOBBRIDGE-AFRICA/backend/controllers/aiController.js:13-21 | any character outside the token alphabet (punctuation, space, tab, newline) splits the text: the tokens of `a + [c] + b` are those of `a` followed by those of `b`, so "React,Node.js" gives two tokens |
| Scorer.TokensJoin | JOBBRIDGE-AFRICA/backend/controllers/aiController.js:46-47 | the tokens of `a + " " + b` are the tokens of `a` followed by those of `b`, so the job text's three parts tokenize separately |
| Scorer.TokensOfWord | JOBBRIDGE-AFRICA/backend/controllers/aiController.js:14-21 | a word over the token alphabet is a single token, its lower-cased form |
| Scorer.OnlyWholeTokensMatch | JOBBRIDGE-AFRICA/backend/controllers/aiController.js:17-20 | a skill containing a space or a stripped character (e.g. "react native", "ui/ux design") never matches any text |
| Scorer.MatchCount | JOBBRIDGE-AFRICA/backend/controllers/aiController.js:49 | the number of matched skills is at most the number of skills, equals it iff every skill is a token, and is 0 iff none is |
| Scorer.MatchCountLowered | JOBBRIDGE-AFRICA/backend/controllers/aiController.js:39-50 | lower-casing the skills first, as the handler does, counts the same matches |
| Scorer.SkillScoreMonotone | JOBBRIDGE-AFRICA/backend/controllers/aiController.js:48-50 | a larger token set never lowers the skill score |
| Scorer.SkillScore | JOBBRIDGE-AFRICA/backend/controllers/aiController.js:39-50 | matched over total skills, duplicates counted on both sides, in [0,1], 0 for an empty profile, 1 iff every skill is found |
| Scorer.LocationScore | JOBBRIDGE-AFRICA/backend/controllers/aiController.js:40-53 | 1 iff the country is non-empty, the location is non-empty, and the lower-cased location contains the lower-cased country; else 0 |
| Scorer.Recency | JOBBRIDGE-AFRICA/backend/controllers/aiController.js:56-57 | in [0,1]; 1 for a job created at or after now, 0 at 30 days or more, strictly between in between |
| Scorer.RecencyMonotone | JOBBRIDGE-AFRICA/backend/controllers/aiController.js:56-57 | an older posting never scores higher on recency |
| Scorer.RemoteOnly | JOBBRIDGE-AFRICA/backend/models/Job.js:8-12 | of the five job types only "Remote" contains "remote" once lower-cased |
| Scorer.JobTypeScore | JOBBRIDGE-AFRICA/backend/controllers/aiController.js:60-62 | 1 iff the lower-cased bio contains "remote" and the job type is Remote; else 0 |
| Scorer.Total | JOBBRIDGE-AFRICA/backend/controllers/aiController.js:64-68 | the weighted sum of four unit sub-scores is in [0,1], is 1 iff all are 1, and is 0 iff all are 0 |
| Scorer.TotalMonotone | JOBBRIDGE-AFRICA/backend/controllers/aiController.js:64-68 | raising any sub-score never lowers the total |
| Scorer.Round4 | JOBBRIDGE-AFRICA/backend/controllers/aiController.js:70 | the rounded score has four decimals, lies within half a unit of the last place of the exact score, and stays in [0,1] |
| Scorer.Round4Monotone | JOBBRIDGE-AFRICA/backend/controllers/aiController.js:70-72 | rounding preserves the order of scores |
| Scorer.Score | JOBBRIDGE-AFRICA/backend/controllers/aiController.js:42-68 | the unrounded score of any job for any user is in [0,1] |
| Scorer.AllButRemoteScore | JOBBRIDGE-AFRICA/backend/controllers/aiController.js:46-68 | all skills found, country found, posted now, not remote: the score is exactly 0.95, before and after rounding |
| Scorer.Candidates | JOBBRIDGE-AFRICA/backend/controllers/aiController.js:36 | the candidates are min(200, number of active jobs) active jobs from the store, newest first, and no active job left out is newer than one kept |
| Scorer.ScoreAll | JOBBRIDGE-AFRICA/backend/controllers/aiController.js:42-71 | one match per candidate, in order, carrying its job and its rounded score |
| Scorer.TopMatches | JOBBRIDGE-AFRICA/backend/controllers/aiController.js:72-73 | min(20, n) matches drawn from the input, sorted by descending score, none dropped that beats a kept one |
| Scorer.TopMatchesStable | JOBBRIDGE-AFRICA/backend/controllers/aiController.js:72-73 | matches with equal scores keep their input order |
| Scorer.GetAiMatches | JOBBRIDGE-AFRICA/backend/controllers/aiController.js:24-75 | no user gives 401; a user who is not a job seeker gives 200 with []; a job seeker gets min(20, candidates) scored candidates, best first, and no scored candidate left out scores higher than one returned |
| Scorer.MatchesComeFromStore | JOBBRIDGE-AFRICA/backend/controllers/aiController.js:36-73 | every returned match carries an active job from the store and that job's rounded score |
| DemoMatcher.SkillHits | JOBBRIDGE-AFRICA/frontend/src/pages/AIMatching.jsx:12-17 | the skill hits are at most the number of skills, equal it iff every skill occurs, and are 0 iff none does |
| DemoMatcher.MatchScore | JOBBRIDGE-AFRICA/frontend/src/pages/AIMatching.jsx:11-25 | skill hits (only when skills and requirements exist) plus 1 for a location hit; at most the number of skills plus 1 |
| DemoMatcher.ScoreEach | JOBBRIDGE-AFRICA/frontend/src/pages/AIMatching.jsx:10-27 | every job is kept, in order, with its own matchScore |
| DemoMatcher.MatchJobs | JOBBRIDGE-AFRICA/frontend/src/pages/AIMatching.jsx:9-28 | the output is a permutation of the scored jobs (none dropped), sorted by descending matchScore |
| DemoMatcher.MatchJobsStable | JOBBRIDGE-AFRICA/frontend/src/pages/AIMatching.jsx:28 | jobs with equal scores keep their input order |
| DemoMatcher.FrontendScore | JOBBRIDGE-AFRICA/frontend/src/pages/AIMatching.jsx:32-38 | the demo profile scores 4 on Frontend Developer |
| DemoMatcher.BackendScore | JOBBRIDGE-AFRICA/frontend/src/pages/AIMatching.jsx:39-45 | the demo profile scores 1 on Backend Engineer (only "Node.js") |
| DemoMatcher.FullStackScore | JOBBRIDGE-AFRICA/frontend/src/pages/AIMatching.jsx:46-52 | the demo profile scores 2 on Full Stack Developer ("React", "Node.js") |
| DemoMatcher.DemoRanking | JOBBRIDGE-AFRICA/frontend/src/pages/AIMatching.jsx:31-64 | on the demo data the order is Frontend Developer (4), Full Stack Developer (2), Backend Engineer (1) |
| DemoMatcher.SubstringNotToken | JOBBRIDGE-AFRICA/frontend/src/pages/AIMatching.jsx:14 | "Java" counts against "JavaScript" in the demo matcher but is not a token of it for the scorer |
| ProfilePage.PresentCount | JOBBRIDGE-AFRICA/frontend/src/pages/Profile.jsx:524-533 | the present-field count is at most the number of fields; it equals it iff all are present and is 0 iff none is |
| ProfilePage.Completed | JOBBRIDGE-AFRICA/frontend/src/pages/Profile.jsx:524-533 | at most 7 of the seven fields are present; 7 iff all are |
| ProfilePage.PercentFormula | JOBBRIDGE-AFRICA/frontend/src/pages/Profile.jsx:535 | round(100k/7) equals (100k+3)/7, and for k = 0..7 it is 0, 14, 29, 43, 57, 71, 86, 100 |
| ProfilePage.Completion | JOBBRIDGE-AFRICA/frontend/src/pages/Profile.jsx:521-536 | 100 for any non-job-seeker; for a job seeker round(100k/7), which is 100 iff all seven fields are present |
| ProfilePage.ViewCompletion | JOBBRIDGE-AFRICA/frontend/src/pages/ProfileView.jsx:18-38 | the profile view crashes without a user (the percentage is computed before the guard) and otherwise equals Completion |
| ProfilePage.DashboardCompletion | JOBBRIDGE-AFRICA/frontend/src/pages/Dashboard.jsx:18-33 | 100 with no user or a non-seeker, otherwise Completion |
| ProfilePage.CompletionCopiesAgree | JOBBRIDGE-AFRICA/frontend/src/pages/Dashboard.jsx:18-33 | the three copies of the completion percentage agree on every logged-in user |
| ProfilePage.MissingOf | JOBBRIDGE-AFRICA/frontend/src/pages/ProfileView.jsx:152-163 | the missing fields, in list order: a subsequence of the fields, exactly those absent, and as many as the present count leaves |
| ProfilePage.Missing | JOBBRIDGE-AFRICA/frontend/src/pages/Dashboard.jsx:121-133 | a checklist item appears iff its field is missing or empty |
| ProfilePage.CompletionPanel | JOBBRIDGE-AFRICA/frontend/src/pages/ProfileView.jsx:141-165 | only job seekers get a panel; it is "Your profile is 100% complete! You can now apply for jobs." iff completion is 100, otherwise the heading "Complete your profile to start applying for jobs:" over one checklist line per missing field, in checklist order |
| ProfilePage.DashboardPanel | JOBBRIDGE-AFRICA/frontend/src/pages/Dashboard.jsx:91-133 | the dashboard's card is shown to job seekers only; it carries "Your profile is complete! Start applying for jobs." iff the null-guarded percentage is 100, otherwise the heading "Complete your profile to unlock all features:" over a checklist line exactly for each missing field, 7 minus the completed count of them, in checklist order |
| ProfilePage.PanelsAgree | JOBBRIDGE-AFRICA/frontend/src/pages/Dashboard.jsx:110-133 | the dashboard card and the profile view's panel make the same decision (shown iff job seeker, the complete message iff 100%, the same checklist lines) but never carry the same text: the message and the heading are worded differently |
| ProfilePage.RoleLabel | JOBBRIDGE-AFRICA/frontend/src/pages/ProfileView.jsx:93-97 | job_seeker reads "Job Seeker", employer "Employer", any other value "Administrator" |
| ProfilePage.RoleLabelsDistinct | JOBBRIDGE-AFRICA/frontend/src/pages/ProfileView.jsx:93-97 | the three stored roles get three different labels |
| ProfilePage.RoleLine | JOBBRIDGE-AFRICA/frontend/src/pages/ProfileView.jsx:93-98 | the label, followed by " at <company>" exactly when a company name is set |
| ProfilePage.EducationLine | JOBBRIDGE-AFRICA/frontend/src/pages/ProfileView.jsx:277-278 | the non-empty degree and field joined by " • ", or "Degree / Field" when both are empty |
| ProfilePage.ApplyClick | JOBBRIDGE-AFRICA/frontend/src/pages/JobDetails.jsx:59-106 | logged out goes to login; a job seeker is stopped at the first missing item in the order photo, resume, country/bio; the form opens iff nothing is missing or the user is not a job seeker |
| ProfilePage.CompleteProfileMayApply | JOBBRIDGE-AFRICA/frontend/src/pages/JobDetails.jsx:67-105 | a profile at 100% always opens the form |
| ProfilePage.GateWeakerThanCompletion | JOBBRIDGE-AFRICA/frontend/src/pages/JobDetails.jsx:67-103 | a job seeker with photo, resume, country and bio but no education, experience or skills may apply while below 100% |
| ProfilePage.OnLoad | JOBBRIDGE-AFRICA/frontend/src/pages/JobDetails.jsx:30-50 | "#apply" auto-opens the form only for a logged-in user and, for a job seeker, only with all four gate fields present |
| ProfilePage.Validate | JOBBRIDGE-AFRICA/frontend/src/pages/Profile.jsx:271-285 | a file passes iff its type is allowed and its size is at most the bound; the type is examined before the size |
| ProfilePage.CheckResume | JOBBRIDGE-AFRICA/frontend/src/pages/UploadResume.jsx:23-36 | a resume passes iff it is PDF, DOC or DOCX and at most 5·1024·1024 bytes |
| ProfilePage.CheckPhoto | JOBBRIDGE-AFRICA/frontend/src/pages/Profile.jsx:334-349 | a photo passes iff it is jpeg, jpg, png or webp and at most 2·1024·1024 bytes |
| ProfilePage.ResumeBoundary | JOBBRIDGE-AFRICA/frontend/src/pages/UploadResume.jsx:33-36 | exactly 5 MiB passes and one byte more is too large |
| ProfilePage.ApplicationFileChange | JOBBRIDGE-AFRICA/frontend/src/pages/JobDetails.jsx:108-128 | a rejected or absent file leaves the form unchanged; an accepted one replaces only the resume |
| ProfilePage.SubmitApplication | JOBBRIDGE-AFRICA/frontend/src/pages/JobDetails.jsx:130-136 | submission is refused iff no resume is selected |
| ProfilePage.AcceptedResumeSubmits | JOBBRIDGE-AFRICA/frontend/src/pages/JobDetails.jsx:108-136 | once the picker accepts a resume, submission goes ahead with it |
| ProfilePage.UploadFileChange | JOBBRIDGE-AFRICA/frontend/src/pages/UploadResume.jsx:19-39 | a rejected or absent file leaves the form unchanged; an accepted one changes only `resume` and keeps the other seven fields |
| ProfilePage.Suggestions | JOBBRIDGE-AFRICA/frontend/src/pages/Profile.jsx:396-413 | none for blank input; at most 10, in list order, each containing the lower-cased raw input and not already in the profile; they are the first ones: every qualifying skill left out comes after all of them, and fewer than 10 only when no further skill qualifies |
| ProfilePage.SkillInputChange | JOBBRIDGE-AFRICA/frontend/src/pages/Profile.jsx:396-413 | the suggestions are drawn from the page's own 140-skill list |
| ProfilePage.AddSkill | JOBBRIDGE-AFRICA/frontend/src/pages/Profile.jsx:416-424 | the chosen suggestion or the trimmed input is appended iff it is non-empty and not already present (exact match); otherwise the list is unchanged |
| ProfilePage.AddSkillKeepsDistinct | JOBBRIDGE-AFRICA/frontend/src/pages/Profile.jsx:416-424 | adding never introduces a duplicate |
| ProfilePage.RemoveSkill | JOBBRIDGE-AFRICA/frontend/src/pages/Profile.jsx:426-429 | removing at i deletes exactly position i and keeps the order of the rest; an out-of-range i changes nothing |
| ProfilePage.AddThenRemove | JOBBRIDGE-AFRICA/frontend/src/pages/Profile.jsx:416-429 | removing at the old length after an add restores the list |
| Applications.Submit | JOBBRIDGE-AFRICA/backend/controllers/applicationController.js:9-76 | 400 for no job id, 404 for an unknown job, 400 when expired (strict), once those pass, 400 exactly when the (job, applicant) pair exists, then 400 exactly when no resume is attached, then 500 exactly when the upload or the create fails; success appends one pending application with a new id, coverLetter defaulting to "", and the upload's URL and public id as resumeUrl and resumePublicId |
| Applications.SubmitPreservesValid | JOBBRIDGE-AFRICA/backend/models/Application.js:4-36 | a submit keeps every application valid, ids unique and (job, applicant) unique |
| Applications.NoDoubleApplication | JOBBRIDGE-AFRICA/backend/controllers/applicationController.js:31-39 | repeating a successful submit is refused with "already applied" |
| Applications.ExpiryDayStillOpen | JOBBRIDGE-AFRICA/backend/controllers/applicationController.js:25 | a job whose expiry date is exactly now still accepts applications |
| Applications.MyApplications | JOBBRIDGE-AFRICA/backend/controllers/applicationController.js:81-87 | exactly the caller's applications (as a multiset), newest first |
| Applications.JobApplications | JOBBRIDGE-AFRICA/backend/controllers/applicationController.js:92-112 | 404 for an unknown job, 403 with its message when someone else posted it, otherwise (and only then) that job's applications newest first |
| Applications.UpdateStatus | JOBBRIDGE-AFRICA/backend/controllers/applicationController.js:117-146 | an unknown status gives 400 before any lookup; 404 for an unknown application; 500 when its job is gone; 403 with its message when someone else posted the job; success exactly when none of these holds, and it changes only that application's status |
| Applications.UpdateStatusPreservesValid | JOBBRIDGE-AFRICA/backend/controllers/applicationController.js:139-140 | a status update keeps the collection valid and its size |
| Applications.Withdraw | JOBBRIDGE-AFRICA/backend/controllers/applicationController.js:151-177 | 404 for an unknown id, 403 with its message when the caller is not the applicant; success exactly otherwise, and it removes exactly that application |
| Applications.WithdrawRemovesId | JOBBRIDGE-AFRICA/backend/controllers/applicationController.js:174 | after a withdrawal the id is gone and the collection stays valid |
| Jobs.ListJobs | JOBBRIDGE-AFRICA/backend/controllers/jobController.js:7-39 | the listed jobs are, in store order, exactly the unexpired jobs matching job type, city (or else country) and search |
| Jobs.CityOverridesCountry | JOBBRIDGE-AFRICA/backend/controllers/jobController.js:21-27 | with a city filter, the country filter makes no difference |
| Jobs.ExpiredNeverListed | JOBBRIDGE-AFRICA/backend/controllers/jobController.js:14 | a job past its expiry date is never listed |
| Jobs.JobById | JOBBRIDGE-AFRICA/backend/controllers/jobController.js:44-52 | 404 iff no job has the id, otherwise a job with that id |
| Jobs.CreateJob | JOBBRIDGE-AFRICA/backend/controllers/jobController.js:57-93 | 400 iff title, location, description or expiry date is missing; on success postedBy and company are the caller, companyName is the caller's, applicationEmail defaults to the caller's e-mail; description, expiry date, requirements, responsibilities, benefits, salary range (default "Competitive") and job type (default Full-Time) are the request's; the id is new |
| Jobs.MergeJob | JOBBRIDGE-AFRICA/backend/controllers/jobController.js:111-122 | each of the ten editable fields (title, location, job type, salary range, description, requirements, responsibilities, benefits, expiry date, application e-mail) is replaced only by a truthy value; id, postedBy, company and companyName never change |
| Jobs.MergeNeverClears | JOBBRIDGE-AFRICA/backend/controllers/jobController.js:111-120 | an update can never empty a non-empty field |
| Jobs.EmptyUpdateIsIdentity | JOBBRIDGE-AFRICA/backend/controllers/jobController.js:111-120 | an update with an empty body leaves a valid job unchanged |
| Jobs.Owned | JOBBRIDGE-AFRICA/backend/controllers/jobController.js:99-109 | 404 iff the id is unknown; 403 "Not authorized to <action> this job" when someone else posted it; success iff the caller posted it |
| Jobs.UpdateJob | JOBBRIDGE-AFRICA/backend/controllers/jobController.js:98-124 | the ownership failures come first and leave the store alone; success exactly when the caller owns the job and the merge validates, and it replaces exactly that job by its merge |
| Jobs.DeleteJob | JOBBRIDGE-AFRICA/backend/controllers/jobController.js:129-144 | the ownership failures come first; success removes exactly that job |
| Jobs.InitialForm | JOBBRIDGE-AFRICA/frontend/src/pages/PostJob.jsx:12-26 | the form starts with job type Full-Time and the user's e-mail as application e-mail |
| Jobs.CountryChange | JOBBRIDGE-AFRICA/frontend/src/pages/PostJob.jsx:31-34 | a country change sets the country, clears the city and leaves every other field unchanged |
| Jobs.CitiesOf | JOBBRIDGE-AFRICA/frontend/src/pages/PostJob.jsx:35-37 | the city list is the chosen country's cities, or empty for an unknown country |
| Jobs.ComposeLocation | JOBBRIDGE-AFRICA/frontend/src/pages/PostJob.jsx:50-53 | "City, Country" with a city, the country alone without; either way it contains the country |
| Jobs.ComposedLocationScores | JOBBRIDGE-AFRICA/frontend/src/pages/PostJob.jsx:50-53 | a job posted through the form scores 1 on location for a user of that country |
| Jobs.PayloadOf | JOBBRIDGE-AFRICA/frontend/src/pages/PostJob.jsx:55-67 | the payload carries the composed location and the form's fields unchanged; country and city travel only inside location |
| Jobs.PostedJobKeepsCountry | JOBBRIDGE-AFRICA/frontend/src/pages/PostJob.jsx:50-67 | a job created from the form's payload has a location containing the chosen country |
| Jobs.Preview | JOBBRIDGE-AFRICA/frontend/src/components/JobCard.jsx:32-34 | a description of at most 150 characters is shown unchanged; a longer one as its first 150 characters and "..."; never more than 153 |
| Jobs.ApplyTarget | JOBBRIDGE-AFRICA/frontend/src/components/JobCard.jsx:11-19 | logged out goes to /login, logged in to /jobs/<id>#apply |
| Jobs.ApplyLinkOpensGate | JOBBRIDGE-AFRICA/frontend/src/components/JobCard.jsx:18 | the card's link carries exactly the "#apply" fragment the job page reacts to |
| Auth.StoredPassword | JOBBRIDGE-AFRICA/backend/models/userModel.js:45-50 | the stored password is re-hashed iff it was modified |
| Auth.Register | JOBBRIDGE-AFRICA/backend/controllers/authController.js:6-34 | 400 for a missing name, e-mail, password or role before any lookup; 400 for an e-mail already present (exact string); success appends one user with a new id, the request's name, e-mail, role and company name, the hashed password and the creation time, every profile field (country, bio, photo, resume, education, experience, skills) empty, and returns no password |
| Auth.RegisterPreservesValid | JOBBRIDGE-AFRICA/backend/models/userModel.js:5-23 | registration keeps every user valid and ids and e-mails unique |
| Auth.Login | JOBBRIDGE-AFRICA/backend/controllers/authController.js:36-52 | success iff a user with that exact e-mail exists and the password matches; every failure is the same 401 |
| Auth.LoginFailuresAlike | JOBBRIDGE-AFRICA/backend/controllers/authController.js:48-51 | an unknown e-mail and a wrong password give identical replies |
| Auth.MergeProfile | JOBBRIDGE-AFRICA/backend/controllers/authController.js:86-104 | the seven string fields change only with truthy values; education, experience and skills whenever present; companyName only for employers; role never; the password only when a non-empty one is sent, and then re-hashed |
| Auth.MergeNeverClearsStrings | JOBBRIDGE-AFRICA/backend/controllers/authController.js:86-96 | a non-empty name, e-mail, country, bio, resume or photo URL cannot be cleared, while an empty skills array does clear the skills |
| Auth.UpdateProfile | JOBBRIDGE-AFRICA/backend/controllers/authController.js:82-127 | 404 for a missing user; success exactly when the merged document passes the save (bio within 300, non-empty password, e-mail held by no other user); it stores the merge and answers with the profile projection, which has no password |
| Auth.ProfileHidesPassword | JOBBRIDGE-AFRICA/backend/controllers/authController.js:108-122 | two users give the same profile reply iff they differ at most in password and creation time |
| Auth.UpdateProfilePreservesValid | JOBBRIDGE-AFRICA/backend/models/userModel.js:5-23 | a profile update keeps the user collection valid |
| Auth.Bootstrap | JOBBRIDGE-AFRICA/backend/controllers/authController.js:174-211 | 500 when unconfigured, 403 for an empty or wrong token, 400 without an e-mail, 400 once an admin exists, 404 when no user has the trimmed, lower-cased e-mail; otherwise only that user's role becomes admin |
| Auth.BootstrapOneShot | JOBBRIDGE-AFRICA/backend/controllers/authController.js:191-195 | after one success no bootstrap succeeds again, and one with a good token and e-mail gets "An admin already exists" |
| Auth.MixedCaseCannotBootstrap | JOBBRIDGE-AFRICA/backend/controllers/authController.js:174-201 | a user whose stored e-mail starts with a capital letter (e.g. "Ada@Example.org") gets 404 when bootstrap is asked for that same e-mail, because only the lookup is lower-cased |
| Auth.RegisterCanCreateAdmin | JOBBRIDGE-AFRICA/backend/controllers/authController.js:9-20 | registration accepts the role "admin", after which the bootstrap refuses to run |
| UserAdmin.AllUsers | JOBBRIDGE-AFRICA/backend/controllers/userAdminController.js:7-10 | every user in order, projected to id, name, email, role and createdAt |
| UserAdmin.ListingHidesPasswords | JOBBRIDGE-AFRICA/backend/controllers/userAdminController.js:8 | the listing does not depend on the stored passwords |
| UserAdmin.UpdateRole | JOBBRIDGE-AFRICA/backend/controllers/userAdminController.js:15-29 | 400 for a missing or unknown role before the lookup, 404 for an unknown id; success changes only the role and answers with the user's id, name, e-mail and new role |
| UserAdmin.UpdateRolePreservesValid | JOBBRIDGE-AFRICA/backend/controllers/userAdminController.js:26-27 | a role update keeps the user collection valid |
| UserAdmin.LastAdminDemotable | JOBBRIDGE-AFRICA/backend/controllers/userAdminController.js:26-28 | the only admin can be demoted, leaving no admin at all |
| UserAdmin.RowButtons | JOBBRIDGE-AFRICA/frontend/src/pages/admin/UserAdmin.jsx:70-86 | every row shows exactly one button: Promote (requesting "admin") iff the role is not admin, else Demote (requesting "job_seeker"), disabled only for info@jobbridgeafrica.org |
| UserAdmin.Click | JOBBRIDGE-AFRICA/frontend/src/pages/admin/UserAdmin.jsx:70-86 | a click requests a valid role different from the current one, or nothing for the protected admin |
| UserAdmin.ProtectedDemotableOnServer | JOBBRIDGE-AFRICA/frontend/src/pages/admin/UserAdmin.jsx:82 | the server demotes the protected account like any other admin |
| UserAdmin.PromoteThenDemote | JOBBRIDGE-AFRICA/frontend/src/pages/admin/UserAdmin.jsx:70-86 | promote then demote always ends at job_seeker: it restores a job seeker but not an employer |
| Team.TeamList | JOBBRIDGE-AFRICA/backend/controllers/teamController.js:8-11 | exactly the active members, ascending by (order, createdAt) |
| Team.GetMember | JOBBRIDGE-AFRICA/backend/controllers/teamController.js:16-25 | 404 iff the id is unknown |
| Team.CreateMember | JOBBRIDGE-AFRICA/backend/controllers/teamController.js:30-68 | 400 for a missing name or role before any upload, 500 when the upload fails; success appends one valid member with a new id, `order \|\| 0`, the uploaded photo URL, and the request's bio and links ("" when absent) |
| Team.CreatePreservesUnique | JOBBRIDGE-AFRICA/backend/controllers/teamController.js:56-65 | creation keeps member ids unique |
| Team.MergeMember | JOBBRIDGE-AFRICA/backend/controllers/teamController.js:84-107 | name and role change only with truthy values; bio, links, order and isActive whenever present; the photo when one was uploaded |
| Team.UpdateMember | JOBBRIDGE-AFRICA/backend/controllers/teamController.js:73-111 | 404 for an unknown id, then 500 for a failed upload; success stores the validated merge |
| Team.ClearBioButNotName | JOBBRIDGE-AFRICA/backend/controllers/teamController.js:100-102 | an empty bio clears the bio while an empty name keeps the name |
| Team.EmptyUpdateIsIdentity | JOBBRIDGE-AFRICA/backend/controllers/teamController.js:100-109 | an update sending nothing leaves a valid member and the store unchanged |
| Team.DeactivateHides | JOBBRIDGE-AFRICA/backend/controllers/teamController.js:8-11 | a member updated with isActive false is no longer listed |
| Team.DeleteMember | JOBBRIDGE-AFRICA/backend/controllers/teamController.js:116-126 | 404 for an unknown id; otherwise exactly that member is removed |
| Team.DeleteRemovesOnlyThatId | JOBBRIDGE-AFRICA/backend/controllers/teamController.js:124 | after a delete no member has the id and every other member remains |
| StatusView.StatusLabel | JOBBRIDGE-AFRICA/frontend/src/pages/EmployerDashboard.jsx:200-201 | the label is the status with its first character upper-cased and the rest unchanged |
| StatusView.StatusLabelInjective | JOBBRIDGE-AFRICA/frontend/src/pages/MyJobs.jsx:156-157 | different statuses show different labels |
| StatusView.Badge | JOBBRIDGE-AFRICA/frontend/src/pages/EmployerDashboard.jsx:188-198 | shortlisted green, accepted blue, rejected red, reviewed yellow, anything else (pending included) gray |
| StatusView.EmployerPagesAgree | JOBBRIDGE-AFRICA/frontend/src/pages/EmployerDashboard.jsx:59-69 | the employer dashboard admits exactly the users the post-a-job page admits (signed-in employers); an admin is turned away |
| StatusView.MyJobsAsWritten | JOBBRIDGE-AFRICA/frontend/src/pages/EmployerDashboard.jsx:23 | the dashboard keeps the jobs whose `employer` field is the user |
| StatusView.AsWrittenAlwaysEmpty | JOBBRIDGE-AFRICA/frontend/src/pages/EmployerDashboard.jsx:23 | against any job listing the server sends, that filter keeps nothing |
| StatusView.MyJobs | JOBBRIDGE-AFRICA/frontend/src/pages/EmployerDashboard.jsx:21-24 | the corrected list: a subsequence of the given jobs holding every one the user posted and no other |
| StatusView.MyJobsAreOwned | JOBBRIDGE-AFRICA/backend/controllers/jobController.js:106-109 | a job is on the corrected list iff the server lets this employer manage it |
| StatusView.Disabled | JOBBRIDGE-AFRICA/frontend/src/pages/EmployerDashboard.jsx:234-267 | Mark Reviewed is disabled iff reviewed, Shortlist iff shortlisted or accepted, Accept iff accepted, Reject iff rejected |
| StatusView.EnabledButtonsChangeStatus | JOBBRIDGE-AFRICA/frontend/src/pages/EmployerDashboard.jsx:229-271 | an enabled button always requests a different status that the server accepts, and the badge then takes the button's colour |
| StatusView.DisabledMeansNoChange | JOBBRIDGE-AFRICA/frontend/src/pages/EmployerDashboard.jsx:234-267 | a button is disabled iff it would change nothing, except Shortlist, which also refuses to demote an accepted application |
| StatusView.EnabledActions | JOBBRIDGE-AFRICA/frontend/src/pages/EmployerDashboard.jsx:229-271 | the enabled buttons of a card; all four for a pending application |
| StatusView.EnabledCount | JOBBRIDGE-AFRICA/frontend/src/pages/EmployerDashboard.jsx:229-271 | at least two buttons are always enabled, and only an accepted application is down to two |
| StatusView.Interviews | JOBBRIDGE-AFRICA/frontend/src/pages/MyJobs.jsx:208-228 | the Interviews tab lists exactly the shortlisted and accepted applications, in order |
| StatusView.InterviewLabelAgrees | JOBBRIDGE-AFRICA/frontend/src/pages/MyJobs.jsx:244-246 | an interview entry's "Shortlisted"/"Accepted" line equals its status label |
| StatusView.InterviewsEmptyIff | JOBBRIDGE-AFRICA/frontend/src/pages/MyJobs.jsx:208-220 | the empty message shows iff no application is shortlisted or accepted |
| StatusView.CountsAsWritten | JOBBRIDGE-AFRICA/frontend/src/pages/MyJobs.jsx:91-111 | Applied is the number of applications; Saved is 0 and Interviews is 1 whatever the data |
| StatusView.InterviewsCountWrong | JOBBRIDGE-AFRICA/frontend/src/pages/MyJobs.jsx:111 | with no applications the Interviews caption still says 1 |
| StatusView.Counts | JOBBRIDGE-AFRICA/frontend/src/pages/MyJobs.jsx:91-111 | the corrected Interviews count is the size of the Interviews tab: at most Applied, and 0 iff nothing qualifies |
| StatusView.InterviewsAreMine | JOBBRIDGE-AFRICA/backend/controllers/applicationController.js:81-84 | every interview shown belongs to the caller and is in the store |

## Left out

- Database access is replaced by sequences of records. Mongoose queries, populate, the unique index and ObjectId generation are not modelled; a new id is one larger than every id in use.
- `Jobs.ListJobs`: the `$regex` filters are modelled as literal case-insensitive substring tests. User input is really a regular expression, so metacharacters behave differently.
- Scorer.Round4: `toFixed(4)` on IEEE doubles is modelled as round-half-up on exact reals, so binary representation effects are not modelled.
- Lower-casing and whitespace are ASCII only, over space, tab, newline, carriage return, form feed and vertical tab. String lengths count characters, not UTF-16 code units.
- The clock is the parameter `now`. Date parsing and time zones are left out.
- Uploads (resumes, profile images, team photos) become an input saying whether the upload succeeded and with what URL. Deleting the old file from the file host is left out.
- Auth.Register: bcrypt is an abstract `hash` function, and a hash equal to "" is treated as a failed password validation; bcrypt never returns "". Password comparison in login is an abstract `matches` predicate. JWT cookies (generateToken.js) are left out.
- The `protect`, `admin` and `employer` middleware is not part of this model. Handlers take the authenticated caller as a parameter.
- `logoutUser`, `getUserProfile` and `uploadProfileImage` are left out: they only echo or upload.
- The `africaLocations` data file is not part of this model. The country/city table is a parameter of `Jobs.CitiesOf`.
- React state, effects, `alert`/`confirm`, navigation and the simulated upload of the resume page are left out. Only the decision each handler makes is modelled: `ProfilePage.ApplyClick` returns which prompt or page it leads to.
- JSON bodies are typed. A body field of the wrong JSON type (a number sent as a string) is not modelled.
- Scorer.Candidates: the database's order among active jobs with equal createdAt is unspecified. The model keeps their store order, so Scorer.TopMatchesStable's tie order rests on that choice; the contract itself states only the newest-first order and which jobs are kept.
- Team.TeamList: the database's order among members with equal (order, createdAt) is unspecified. The contract states only the ordering and the membership, not which tie order appears.

## Findings

| source | as written | input that shows it | evidently intended | confidence | as-written member | corrected member |
|---|---|---|---|---|---|---|
| JOBBRIDGE-AFRICA/frontend/src/pages/EmployerDashboard.jsx:23 | the employer's job list keeps jobs whose `job.employer` equals the user's id, but job documents have no `employer` field (they record the poster in `postedBy`) | an employer who posted one job that is listed: the list is empty and the page says "No jobs posted yet" | keep the listed jobs the user posted (`postedBy`) | not executed | StatusView.MyJobsAsWritten (AsWrittenAlwaysEmpty, PostedJobNotShown) | StatusView.MyJobs (MyJobsAreOwned) |
| JOBBRIDGE-AFRICA/frontend/src/pages/MyJobs.jsx:111 | the Interviews tab caption is the constant "Interviews (1)" | an applicant with no applications: the caption says 1 while the tab shows "No interviews scheduled yet" | the number of shortlisted or accepted applications the tab lists | not executed | StatusView.CountsAsWritten (InterviewsCountWrong) | StatusView.Counts |

=== FILE: applications.dfy ===
/** The application handlers over an abstract store of jobs and
    applications: submit, list the caller's own, list a job's (for its
    poster), change the status (for the job's poster), and withdraw (for the
    applicant). A handler is a function from request, store and clock to a
    reply and the new store. */
module Applications {
  import opened Common
  import opened Sorting
  import opened Schema

  /** The collections the handlers read and write. */
  datatype Db = Db(jobs: seq<Job>, apps: seq<Application>)

  /** The result of the resume upload to the file host: its URL and public
      id, or None when the upload failed. */
  datatype Upload = Upload(secureUrl: string, publicId: string)

  /** A submit request: the `jobId` and `coverLetter` body fields (None when
      absent) and whether a resume file came with it. */
  datatype SubmitRequest = SubmitRequest(jobId: Option<Id>, coverLetter: Option<string>, hasFile: bool)

  function JobIndex(jobs: seq<Job>, id: Id): (r: Option<nat>)
    ensures r.Some? ==> r.value < |jobs| && jobs[r.value].id == id
    ensures r.None? <==> forall j :: 0 <= j < |jobs| ==> jobs[j].id != id
  {
    FindIndex(jobs, (j: Job) => j.id == id)
  }

  function AppIndex(apps: seq<Application>, id: Id): (r: Option<nat>)
    ensures r.Some? ==> r.value < |apps| && apps[r.value].id == id
    ensures r.None? <==> forall j :: 0 <= j < |apps| ==> apps[j].id != id
  {
    FindIndex(apps, (a: Application) => a.id == id)
  }

  /** `submitApplication`. The checks run in the order: job id present, job
      exists, job not expired, no earlier application by the caller to the
      job, a resume file attached, the upload succeeded. */
  function Submit(req: SubmitRequest, db: Db, caller: Id, now: int, upload: Option<Upload>)
    : (r: Response<Application, Db>)
    ensures req.jobId.None? ==> r.reply == Fail(400, "Job ID is required")
    ensures req.jobId.Some? && JobIndex(db.jobs, req.jobId.value).None? ==> r.reply == Fail(404, "Job not found")
    ensures r.reply == Fail(400, "This job posting has expired") <==>
              && req.jobId.Some? && JobIndex(db.jobs, req.jobId.value).Some?
              && IsExpired(db.jobs[JobIndex(db.jobs, req.jobId.value).value], now)
    ensures && req.jobId.Some? && JobIndex(db.jobs, req.jobId.value).Some?
            && !IsExpired(db.jobs[JobIndex(db.jobs, req.jobId.value).value], now)
            ==> (r.reply == Fail(400, "You have already applied for this job") <==> HasPair(db.apps, req.jobId.value, caller))
    ensures && req.jobId.Some? && JobIndex(db.jobs, req.jobId.value).Some?
            && !IsExpired(db.jobs[JobIndex(db.jobs, req.jobId.value).value], now)
            && !HasPair(db.apps, req.jobId.value, caller)
            ==> (r.reply == Fail(400, "Resume/CV is required") <==> !req.hasFile)
    ensures && req.jobId.Some? && JobIndex(db.jobs, req.jobId.value).Some?
            && !IsExpired(db.jobs[JobIndex(db.jobs, req.jobId.value).value], now)
            && !HasPair(db.apps, req.jobId.value, caller) && req.hasFile
            ==> (r.reply == Fail(500, "Failed to upload resume. Please try again.")
                 <==> upload.None? || upload.value.secureUrl == "")
    ensures r.reply.Ok? <==>
              && req.jobId.Some? && JobIndex(db.jobs, req.jobId.value).Some?
              && !IsExpired(db.jobs[JobIndex(db.jobs, req.jobId.value).value], now)
              && !HasPair(db.apps, req.jobId.value, caller)
              && req.hasFile && upload.Some? && upload.value.secureUrl != ""
    ensures !r.reply.Ok? ==> r.store == db
    ensures r.reply.Ok? ==>
              && r.reply.code == 201 && r.store == db.(apps := db.apps + [r.reply.body])
              && r.reply.body.job == req.jobId.value && r.reply.body.applicant == caller
              && r.reply.body.coverLetter == OrElse(req.coverLetter, "")
              && r.reply.body.status == Pending && r.reply.body.appliedAt == now
    ensures r.reply.Ok? ==>
              && upload.Some? && r.reply.body.resumeUrl == upload.value.secureUrl
              && r.reply.body.resumePublicId == upload.value.publicId
              && forall i :: 0 <= i < |db.apps| ==> db.apps[i].id != r.reply.body.id
  {
    if req.jobId.None? then Response(Fail(400, "Job ID is required"), db)
    else
      var jobId := req.jobId.value;
      var ji := JobIndex(db.jobs, jobId);
      if ji.None? then Response(Fail(404, "Job not found"), db)
      else if IsExpired(db.jobs[ji.value], now) then Response(Fail(400, "This job posting has expired"), db)
      else if HasPair(db.apps, jobId, caller) then Response(Fail(400, "You have already applied for this job"), db)
      else if !req.hasFile then Response(Fail(400, "Resume/CV is required"), db)
      else if upload.None? then Response(Fail(500, "Failed to upload resume. Please try again."), db)
      else
        var created := NewApplication(FreshId(db.apps, AppIdOf), jobId, caller, OrElse(req.coverLetter, ""),
                                      upload.value.secureUrl, upload.value.publicId, now);
        if created.None? then Response(Fail(500, "Failed to upload resume. Please try again."), db)
        else Response(Ok(201, created.value), db.(apps := db.apps + [created.value]))
  }

  /** Submitting keeps the application collection valid: in particular at
      most one application per (job, applicant). */
  lemma SubmitPreservesValid(req: SubmitRequest, db: Db, caller: Id, now: int, upload: Option<Upload>)
    requires ValidApplications(db.apps)
    ensures ValidApplications(Submit(req, db, caller, now, upload).store.apps)
  {
    var r := Submit(req, db, caller, now, upload);
    if r.reply.Ok? {
      var a := r.reply.body;
      var apps := db.apps + [a];
      assert a.id == FreshId(db.apps, AppIdOf);
      assert forall i :: 0 <= i < |db.apps| ==> apps[i] == db.apps[i];
      assert !HasPair(db.apps, a.job, a.applicant);
      assert forall i :: 0 <= i < |db.apps| ==> (apps[i].job, apps[i].applicant) != (a.job, a.applicant);
    }
  }

  /** A second submission by the same caller to the same job is refused. */
  lemma NoDoubleApplication(req: SubmitRequest, db: Db, caller: Id, now: int, u1: Option<Upload>, u2: Option<Upload>)
    requires Submit(req, db, caller, now, u1).reply.Ok?
    ensures Submit(req, Submit(req, db, caller, now, u1).store, caller, now, u2).reply
         == Fail(400, "You have already applied for this job")
  {
    var db' := Submit(req, db, caller, now, u1).store;
    var a := Submit(req, db, caller, now, u1).reply.body;
    assert db'.apps[|db.apps|] == a;
    assert HasPair(db'.apps, req.jobId.value, caller);
  }

  /** The expiry test is strict: a job whose expiry date is `now` still
      accepts applications. */
  lemma ExpiryDayStillOpen(req: SubmitRequest, db: Db, caller: Id, now: int, upload: Option<Upload>)
    requires req.jobId.Some? && JobIndex(db.jobs, req.jobId.value).Some?
    requires db.jobs[JobIndex(db.jobs, req.jobId.value).value].expiryDate == Some(now)
    ensures Submit(req, db, caller, now, upload).reply != Fail(400, "This job posting has expired")
  {
  }

  function NewestFirst(): (Application, Application) -> bool {
    (a: Application, b: Application) => a.createdAt >= b.createdAt
  }

  /** Newest-first is a total preorder, so sorting by it is defined. */
  lemma NewestFirstTotal()
    ensures TotalPreorder(NewestFirst())
  {
  }

  /** The applications a caller submitted. */
  function ApplicantIs(caller: Id): Application -> bool {
    (a: Application) => a.applicant == caller
  }

  /** `getMyApplications`: exactly the caller's applications, newest first. */
  function MyApplications(db: Db, caller: Id): (r: seq<Application>)
    ensures multiset(r) == multiset(Filter(db.apps, ApplicantIs(caller)))
    ensures forall i :: 0 <= i < |r| ==> r[i].applicant == caller && r[i] in db.apps
    ensures forall i :: 0 <= i < |db.apps| && db.apps[i].applicant == caller ==> db.apps[i] in r
    ensures Sorted(r, NewestFirst())
  {
    NewestFirstTotal();
    var r := Sort(Filter(db.apps, ApplicantIs(caller)), NewestFirst());
    MineMembers(db.apps, caller, r);
    r
  }

  /** Any permutation of the caller's filtered applications holds exactly
      the caller's applications. */
  lemma MineMembers(apps: seq<Application>, caller: Id, r: seq<Application>)
    requires multiset(r) == multiset(Filter(apps, ApplicantIs(caller)))
    ensures forall i :: 0 <= i < |r| ==> r[i].applicant == caller && r[i] in apps
    ensures forall i :: 0 <= i < |apps| && apps[i].applicant == caller ==> apps[i] in r
  {
    var mine := Filter(apps, ApplicantIs(caller));
    forall i | 0 <= i < |r|
      ensures r[i].applicant == caller && r[i] in apps
    {
      assert r[i] in multiset(mine);
      assert r[i] in mine;
    }
    forall i | 0 <= i < |apps| && apps[i].applicant == caller
      ensures apps[i] in r
    {
      assert ApplicantIs(caller)(apps[i]);
      assert apps[i] in mine;
      assert apps[i] in multiset(mine);
      assert apps[i] in multiset(r);
    }
  }

  /** `getJobApplications`: 404 for an unknown job, 403 unless the caller
      posted it, otherwise the job's applications, newest first. */
  function JobApplications(jobId: Id, db: Db, caller: Id): (r: Reply<seq<Application>>)
    ensures JobIndex(db.jobs, jobId).None? <==> r == Fail(404, "Job not found")
    ensures r.Ok? <==> JobIndex(db.jobs, jobId).Some? && db.jobs[JobIndex(db.jobs, jobId).value].postedBy == caller
    ensures JobIndex(db.jobs, jobId).Some? && db.jobs[JobIndex(db.jobs, jobId).value].postedBy != caller
            ==> r == Fail(403, "Not authorized to view applications for this job")
    ensures r.Ok? ==> r.code == 200 && Sorted(r.body, NewestFirst())
    ensures r.Ok? ==> multiset(r.body) == multiset(Filter(db.apps, (a: Application) => a.job == jobId))
    ensures r.Ok? ==> forall i :: 0 <= i < |r.body| ==> r.body[i].job == jobId
  {
    var ji := JobIndex(db.jobs, jobId);
    if ji.None? then Fail(404, "Job not found")
    else if db.jobs[ji.value].postedBy != caller then Fail(403, "Not authorized to view applications for this job")
    else
      NewestFirstTotal();
      var theirs := Filter(db.apps, (a: Application) => a.job == jobId);
      var r := Sort(theirs, NewestFirst());
      assert forall i :: 0 <= i < |r| ==> r[i] in multiset(theirs);
      Ok(200, r)
  }

  /** `updateApplicationStatus`. The status name is checked before the
      lookup; then 404 for an unknown application, 403 unless the caller
      posted its job; on success only that application's status changes.
      An application whose job was deleted makes the handler fail with 500
      (it reads `postedBy` of a missing job). */
  function UpdateStatus(id: Id, status: string, db: Db, caller: Id): (r: Response<Application, Db>)
    ensures ParseStatus(status).None? ==> r.reply == Fail(400, "Invalid status")
    ensures ParseStatus(status).Some? && AppIndex(db.apps, id).None? ==> r.reply == Fail(404, "Application not found")
    ensures && ParseStatus(status).Some? && AppIndex(db.apps, id).Some?
            && JobIndex(db.jobs, db.apps[AppIndex(db.apps, id).value].job).None?
            ==> r.reply == Fail(500, "Cannot read properties of null (reading 'postedBy')")
    ensures (&& ParseStatus(status).Some? && AppIndex(db.apps, id).Some?
             && var a := db.apps[AppIndex(db.apps, id).value];
             && JobIndex(db.jobs, a.job).Some? && db.jobs[JobIndex(db.jobs, a.job).value].postedBy != caller)
            ==> r.reply == Fail(403, "Not authorized to update this application")
    ensures r.reply.Ok? <==>
              && ParseStatus(status).Some? && AppIndex(db.apps, id).Some?
              && var a := db.apps[AppIndex(db.apps, id).value];
              && JobIndex(db.jobs, a.job).Some? && db.jobs[JobIndex(db.jobs, a.job).value].postedBy == caller
    ensures !r.reply.Ok? ==> r.store == db
    ensures r.reply.Ok? ==>
              && ParseStatus(status).Some? && AppIndex(db.apps, id).Some?
              && var i := AppIndex(db.apps, id).value;
              && JobIndex(db.jobs, db.apps[i].job).Some?
              && db.jobs[JobIndex(db.jobs, db.apps[i].job).value].postedBy == caller
              && r.reply.body == db.apps[i].(status := ParseStatus(status).value)
              && StatusName(r.reply.body.status) == status
              && r.store == db.(apps := db.apps[i := r.reply.body])
  {
    var st := ParseStatus(status);
    if st.None? then Response(Fail(400, "Invalid status"), db)
    else
      var ai := AppIndex(db.apps, id);
      if ai.None? then Response(Fail(404, "Application not found"), db)
      else
        var a := db.apps[ai.value];
        var ji := JobIndex(db.jobs, a.job);
        if ji.None? then Response(Fail(500, "Cannot read properties of null (reading 'postedBy')"), db)
        else if db.jobs[ji.value].postedBy != caller then
          Response(Fail(403, "Not authorized to update this application"), db)
        else
          var a' := a.(status := st.value);
          Response(Ok(200, a'), db.(apps := db.apps[ai.value := a']))
  }

  /** A status update keeps the collection valid and changes nothing but
      one status field. */
  lemma UpdateStatusPreservesValid(id: Id, status: string, db: Db, caller: Id)
    requires ValidApplications(db.apps)
    ensures var r := UpdateStatus(id, status, db, caller);
            && ValidApplications(r.store.apps) && r.store.jobs == db.jobs && |r.store.apps| == |db.apps|
            && forall i :: 0 <= i < |db.apps| ==> r.store.apps[i] == db.apps[i].(status := r.store.apps[i].status)
  {
    var r := UpdateStatus(id, status, db, caller);
    if r.reply.Ok? {
      var i := AppIndex(db.apps, id).value;
      assert forall j :: 0 <= j < |db.apps| ==> r.store.apps[j].id == db.apps[j].id;
      assert forall j :: 0 <= j < |db.apps| ==> r.store.apps[j].job == db.apps[j].job;
      assert forall j :: 0 <= j < |db.apps| ==> r.store.apps[j].applicant == db.apps[j].applicant;
    }
  }

  /** `deleteApplication`: 404 for an unknown id, 403 unless the caller is
      the applicant; on success exactly that application is removed. */
  function Withdraw(id: Id, db: Db, caller: Id): (r: Response<string, Db>)
    ensures AppIndex(db.apps, id).None? <==> r.reply == Fail(404, "Application not found")
    ensures r.reply.Ok? <==> AppIndex(db.apps, id).Some? && db.apps[AppIndex(db.apps, id).value].applicant == caller
    ensures AppIndex(db.apps, id).Some? && db.apps[AppIndex(db.apps, id).value].applicant != caller
            ==> r.reply == Fail(403, "Not authorized to delete this application")
    ensures !r.reply.Ok? ==> r.store == db
    ensures r.reply.Ok? ==>
              && r.store.jobs == db.jobs
              && multiset(r.store.apps) == multiset(db.apps) - multiset{db.apps[AppIndex(db.apps, id).value]}
              && IsSubsequence(r.store.apps, db.apps)
  {
    var ai := AppIndex(db.apps, id);
    if ai.None? then Response(Fail(404, "Application not found"), db)
    else if db.apps[ai.value].applicant != caller then
      Response(Fail(403, "Not authorized to delete this application"), db)
    else
      var apps := RemoveAt(db.apps, ai.value);
      RemoveAtIsSubsequence(db.apps, ai.value);
      Response(Ok(200, "Application deleted successfully"), db.(apps := apps))
  }

  lemma {:induction false} RemoveAtIsSubsequence<T>(s: seq<T>, i: nat)
    requires i < |s|
    ensures IsSubsequence(RemoveAt(s, i), s)
  {
    var r := RemoveAt(s, i);
    if i == 0 {
      assert r == s[1..];
      SubsequenceRefl(s[1..]);
      SubsequenceSkip(s[1..], s);
    } else {
      assert r[0] == s[0];
      assert r[1..] == RemoveAt(s[1..], i - 1);
      RemoveAtIsSubsequence(s[1..], i - 1);
    }
  }

  lemma {:induction false} SubsequenceRefl<T>(s: seq<T>)
    ensures IsSubsequence(s, s)
    decreases |s|
  {
    if s != [] {
      SubsequenceRefl(s[1..]);
    }
  }

  /** After a successful withdrawal the id is gone. */
  lemma WithdrawRemovesId(id: Id, db: Db, caller: Id)
    requires ValidApplications(db.apps)
    requires Withdraw(id, db, caller).reply.Ok?
    ensures AppIndex(Withdraw(id, db, caller).store.apps, id).None?
    ensures ValidApplications(Withdraw(id, db, caller).store.apps)
  {
    var i := AppIndex(db.apps, id).value;
    RemoveAtValid(db.apps, i);
  }

  /** Removing the application at `i` from a valid collection leaves a
      valid collection in which its id no longer occurs. */
  lemma RemoveAtValid(apps: seq<Application>, i: nat)
    requires ValidApplications(apps) && i < |apps|
    ensures ValidApplications(RemoveAt(apps, i))
    ensures forall j :: 0 <= j < |RemoveAt(apps, i)| ==> RemoveAt(apps, i)[j].id != apps[i].id
  {
    var r := RemoveAt(apps, i);
    forall j | 0 <= j < |r|
      ensures r[j] == apps[if j < i then j else j + 1]
    {
    }
  }
}

=== FILE: auth.dfy ===
/** Accounts: registration, login, the profile update merge, the password
    re-hash rule of the user document, and the one-shot admin bootstrap.
    Password hashing and comparison are abstract: `hash` stands for the
    salted hash the save hook computes, `matches` for the comparison. */
module Auth {
  import opened Common
  import opened Text
  import opened Schema

  /** The identity returned by register and login (never the password). */
  datatype Identity = Identity(id: Id, name: string, email: string, role: Role)

  function IdentityOf(u: User): Identity {
    Identity(u.id, u.name, u.email, u.role)
  }

  function UserIndexByEmail(users: seq<User>, email: string): (r: Option<nat>)
    ensures r.Some? ==> r.value < |users| && users[r.value].email == email
    ensures r.None? <==> !HasEmail(users, email)
  {
    FindIndex(users, (u: User) => u.email == email)
  }

  function UserIndex(users: seq<User>, id: Id): (r: Option<nat>)
    ensures r.Some? ==> r.value < |users| && users[r.value].id == id
    ensures r.None? <==> !HasUserId(users, id)
  {
    FindIndex(users, (u: User) => u.id == id)
  }

  /** The save hook: the stored password is re-hashed exactly when it was
      modified. */
  function StoredPassword(password: string, modified: bool, hash: string -> string): (r: string)
    ensures !modified ==> r == password
    ensures modified ==> r == hash(password)
  {
    if modified then hash(password) else password
  }

  // -------------------------------------------------------------- register

  datatype RegisterBody = RegisterBody(name: Option<string>, email: Option<string>, password: Option<string>,
                                       role: Option<string>, companyName: Option<string>)

  /** `registerUser`: 400 when a required field is missing (before any
      lookup), 400 when the exact e-mail string is taken; then the schema
      validators (role enum, company name for employers). */
  function Register(body: RegisterBody, users: seq<User>, hash: string -> string, now: int)
    : (r: Response<Identity, seq<User>>)
    ensures !Truthy(body.name) || !Truthy(body.email) || !Truthy(body.password) || !Truthy(body.role) ==>
              r.reply == Fail(400, "Please fill in all required fields.")
    ensures (&& Truthy(body.name) && Truthy(body.email) && Truthy(body.password) && Truthy(body.role)
             && HasEmail(users, body.email.value)) ==> r.reply == Fail(400, "User already exists")
    ensures !r.reply.Ok? ==> r.store == users
    ensures r.reply.Ok? <==>
              && Truthy(body.name) && Truthy(body.email) && Truthy(body.password) && Truthy(body.role)
              && !HasEmail(users, body.email.value) && ParseRole(body.role.value).Some?
              && (ParseRole(body.role.value) == Some(Employer) ==> Truthy(body.companyName))
              && hash(body.password.value) != ""
    ensures r.reply.Ok? ==>
              && r.reply.code == 201 && |r.store| == |users| + 1 && r.store[..|users|] == users
              && var u := r.store[|users|];
              && r.reply.body == IdentityOf(u) && u.email == body.email.value
              && u.password == hash(body.password.value) && RoleName(u.role) == body.role.value
              && u.name == body.name.value && u.companyName == body.companyName.GetOr("")
              && u.createdAt == now && !HasUserId(users, u.id)
              && u.country == "" && u.bio == "" && u.profileImageUrl == "" && u.profileImagePublicId == ""
              && u.resumeUrl == "" && u.education == [] && u.experience == [] && u.skills == []
  {
    if !Truthy(body.name) || !Truthy(body.email) || !Truthy(body.password) || !Truthy(body.role) then
      Response(Fail(400, "Please fill in all required fields."), users)
    else if HasEmail(users, body.email.value) then Response(Fail(400, "User already exists"), users)
    else
      var role := ParseRole(body.role.value);
      var company := body.companyName.GetOr("");
      var stored := StoredPassword(body.password.value, true, hash);
      if role.None? || (role.value == Employer && company == "") || stored == "" then
        Response(Invalid("User validation failed"), users)
      else
        var u := User(FreshId(users, UserIdOf), body.name.value, body.email.value, stored, role.value, company,
                      "", "", "", "", "", [], [], [], now);
        assert (users + [u])[..|users|] == users;
        Response(Ok(201, IdentityOf(u)), users + [u])
  }

  /** Registration keeps the user collection valid: ids and e-mails stay unique. */
  lemma RegisterPreservesValid(body: RegisterBody, users: seq<User>, hash: string -> string, now: int)
    requires ValidUsers(users)
    ensures ValidUsers(Register(body, users, hash, now).store)
  {
    var r := Register(body, users, hash, now);
    if r.reply.Ok? {
      var u := r.store[|users|];
      assert r.store == users + [u];
      assert !HasEmail(users, u.email);
      assert forall i :: 0 <= i < |users| ==> users[i].email != u.email;
      assert u.id == FreshId(users, UserIdOf);
    }
  }

  // ----------------------------------------------------------------- login

  /** `loginUser`: success iff a user with that exact e-mail exists and the
      password matches; every failure is the same 401. */
  function Login(email: string, password: string, users: seq<User>, matches: (string, string) -> bool)
    : (r: Reply<Identity>)
    ensures r.Ok? <==> UserIndexByEmail(users, email).Some?
                       && matches(password, users[UserIndexByEmail(users, email).value].password)
    ensures r.Ok? ==> r.code == 200 && r.body.email == email
    ensures !r.Ok? ==> r == Fail(401, "Invalid email or password")
  {
    var i := UserIndexByEmail(users, email);
    if i.Some? && matches(password, users[i.value].password) then Ok(200, IdentityOf(users[i.value]))
    else Fail(401, "Invalid email or password")
  }

  /** An unknown e-mail and a wrong password cannot be told apart. */
  lemma LoginFailuresAlike(e1: string, p1: string, e2: string, p2: string, users: seq<User>,
                           matches: (string, string) -> bool)
    requires !HasEmail(users, e1)
    requires HasEmail(users, e2) && !matches(p2, users[UserIndexByEmail(users, e2).value].password)
    ensures Login(e1, p1, users, matches) == Login(e2, p2, users, matches)
  {
  }

  // ------------------------------------------------------- profile update

  /** The profile update body; None stands for an absent field. */
  datatype ProfileBody = ProfileBody(
    name: Option<string>, email: Option<string>, country: Option<string>, bio: Option<string>,
    resumeUrl: Option<string>, profileImageUrl: Option<string>, profileImagePublicId: Option<string>,
    education: Option<seq<Education>>, experience: Option<seq<Experience>>, skills: Option<seq<string>>,
    companyName: Option<string>, password: Option<string>)

  /** The merge of `updateUserProfile`: the seven strings are replaced only
      by truthy values, the three lists whenever present, the company name
      only for employers, the password only when a non-empty one is sent. */
  function MergeProfile(u: User, body: ProfileBody, hash: string -> string): (r: User)
    ensures && r.id == u.id && r.role == u.role && r.createdAt == u.createdAt
    ensures && r.name == OrElse(body.name, u.name) && r.email == OrElse(body.email, u.email)
            && r.country == OrElse(body.country, u.country) && r.bio == OrElse(body.bio, u.bio)
            && r.resumeUrl == OrElse(body.resumeUrl, u.resumeUrl)
            && r.profileImageUrl == OrElse(body.profileImageUrl, u.profileImageUrl)
            && r.profileImagePublicId == OrElse(body.profileImagePublicId, u.profileImagePublicId)
    ensures && r.education == IfDefined(body.education, u.education)
            && r.experience == IfDefined(body.experience, u.experience)
            && r.skills == IfDefined(body.skills, u.skills)
    ensures r.companyName == (if u.role == Employer then OrElse(body.companyName, u.companyName) else u.companyName)
    ensures r.password == StoredPassword(if Truthy(body.password) then body.password.value else u.password,
                                         Truthy(body.password), hash)
  {
    var pw := if Truthy(body.password) then body.password.value else u.password;
    u.(name := OrElse(body.name, u.name),
       email := OrElse(body.email, u.email),
       country := OrElse(body.country, u.country),
       bio := OrElse(body.bio, u.bio),
       resumeUrl := OrElse(body.resumeUrl, u.resumeUrl),
       profileImageUrl := OrElse(body.profileImageUrl, u.profileImageUrl),
       profileImagePublicId := OrElse(body.profileImagePublicId, u.profileImagePublicId),
       education := IfDefined(body.education, u.education),
       experience := IfDefined(body.experience, u.experience),
       skills := IfDefined(body.skills, u.skills),
       companyName := if u.role == Employer then OrElse(body.companyName, u.companyName) else u.companyName,
       password := StoredPassword(pw, Truthy(body.password), hash))
  }

  /** The two merge disciplines: a truthy-merged field can never be cleared,
      while an empty list does clear the skills. */
  lemma MergeNeverClearsStrings(u: User, body: ProfileBody, hash: string -> string)
    ensures var r := MergeProfile(u, body, hash);
            && (u.country != "" ==> r.country != "") && (u.bio != "" ==> r.bio != "")
            && (u.resumeUrl != "" ==> r.resumeUrl != "") && (u.profileImageUrl != "" ==> r.profileImageUrl != "")
            && (u.name != "" ==> r.name != "") && (u.email != "" ==> r.email != "")
            && (body.skills == Some([]) ==> r.skills == [])
  {
  }

  /** The thirteen fields `updateUserProfile` answers with: the saved user
      without its password and creation time. */
  datatype Profile = Profile(
    id: Id, name: string, email: string, role: Role, country: string, bio: string,
    resumeUrl: string, profileImageUrl: string, profileImagePublicId: string, companyName: string,
    education: seq<Education>, experience: seq<Experience>, skills: seq<string>)

  function ProfileOf(u: User): Profile {
    Profile(u.id, u.name, u.email, u.role, u.country, u.bio, u.resumeUrl, u.profileImageUrl,
            u.profileImagePublicId, u.companyName, u.education, u.experience, u.skills)
  }

  /** The profile reply reveals nothing of the stored password or the
      creation time: two users differing only there answer alike, and any
      other difference shows. */
  lemma ProfileHidesPassword(u: User, v: User)
    ensures ProfileOf(u) == ProfileOf(v) <==> u.(password := v.password, createdAt := v.createdAt) == v
  {
  }

  /** The save's validators on the merged document: the bio bound, a
      non-empty stored password and an e-mail no other user holds. */
  predicate SaveAccepts(users: seq<User>, i: nat, u: User)
    requires i < |users|
  {
    |u.bio| <= BioMax && u.password != ""
    && forall k :: 0 <= k < |users| && k != i ==> users[k].email != u.email
  }

  /** `updateUserProfile`: 404 for a missing caller document; the save
      rejects a bio over 300 characters, an empty password and an e-mail
      another user holds; the reply is the saved profile. */
  function UpdateProfile(callerId: Id, body: ProfileBody, users: seq<User>, hash: string -> string)
    : (r: Response<Profile, seq<User>>)
    ensures !HasUserId(users, callerId) ==> r.reply == Fail(404, "User not found")
    ensures r.reply.Ok? <==>
              && HasUserId(users, callerId)
              && var i := UserIndex(users, callerId).value;
              && SaveAccepts(users, i, MergeProfile(users[i], body, hash))
    ensures !r.reply.Ok? ==> r.store == users
    ensures r.reply.Ok? ==>
              && HasUserId(users, callerId)
              && var i := UserIndex(users, callerId).value;
              && r.store == users[i := MergeProfile(users[i], body, hash)]
              && r.reply.code == 200 && r.reply.body == ProfileOf(r.store[i])
              && r.reply.body.id == callerId && r.reply.body.role == users[i].role
              && |r.reply.body.bio| <= BioMax
  {
    var i := UserIndex(users, callerId);
    if i.None? then Response(Fail(404, "User not found"), users)
    else
      var u := MergeProfile(users[i.value], body, hash);
      if |u.bio| > BioMax then Response(Invalid("User validation failed: bio"), users)
      else if u.password == "" then Response(Invalid("User validation failed: password"), users)
      else if exists k :: 0 <= k < |users| && k != i.value && users[k].email == u.email then
        Response(Invalid("E11000 duplicate key error: email"), users)
      else Response(Ok(200, ProfileOf(u)), users[i.value := u])
  }

  /** A profile update keeps the user collection valid. */
  lemma UpdateProfilePreservesValid(callerId: Id, body: ProfileBody, users: seq<User>, hash: string -> string)
    requires ValidUsers(users)
    ensures ValidUsers(UpdateProfile(callerId, body, users, hash).store)
  {
    var r := UpdateProfile(callerId, body, users, hash);
    if r.reply.Ok? {
      var i := UserIndex(users, callerId).value;
      var u := r.store[i];
      assert ValidUser(users[i]);
      assert u.name != "" && u.email != "";
      assert u.role == Employer ==> u.companyName != "";
      assert ValidUser(u);
      assert forall k :: 0 <= k < |users| && k != i ==> r.store[k] == users[k];
    }
  }

  // ------------------------------------------------------ admin bootstrap

  /** The token and e-mail, each from the body or else the query string. */
  datatype BootstrapRequest = BootstrapRequest(bodyToken: Option<string>, queryToken: Option<string>,
                                               bodyEmail: Option<string>, queryEmail: Option<string>)

  function RequestToken(req: BootstrapRequest): string {
    Trim(OrElse(req.bodyToken, OrElse(req.queryToken, "")))
  }

  /** The looked-up e-mail is trimmed and lower-cased. */
  function RequestEmail(req: BootstrapRequest): string {
    Lower(Trim(OrElse(req.bodyEmail, OrElse(req.queryEmail, ""))))
  }

  predicate HasAdmin(users: seq<User>) {
    exists i :: 0 <= i < |users| && users[i].role == Admin
  }

  /** `bootstrapAdmin`, with `configured` the setup token of the environment
      ("" when unset). Checks in order: configured (500), token (403),
      e-mail present (400), no admin yet (400), user found (404). */
  function Bootstrap(req: BootstrapRequest, configured: string, users: seq<User>): (r: Response<Identity, seq<User>>)
    ensures configured == "" ==> r.reply == Fail(500, "ADMIN_SETUP_TOKEN not configured")
    ensures configured != "" && RequestToken(req) != configured ==> r.reply == Fail(403, "Invalid setup token")
    ensures configured != "" && RequestToken(req) == configured && RequestEmail(req) == "" ==>
              r.reply == Fail(400, "Email is required")
    ensures configured != "" && RequestToken(req) == configured && RequestEmail(req) != "" && HasAdmin(users) ==>
              r.reply == Fail(400, "An admin already exists")
    ensures && configured != "" && RequestToken(req) == configured && RequestEmail(req) != ""
            && !HasAdmin(users) && !HasEmail(users, RequestEmail(req)) ==>
              r.reply == Fail(404, "User not found")
    ensures r.reply.Ok? <==>
              && configured != "" && RequestToken(req) == configured && RequestEmail(req) != ""
              && !HasAdmin(users) && HasEmail(users, RequestEmail(req))
    ensures !r.reply.Ok? ==> r.store == users
    ensures r.reply.Ok? ==>
              var i := UserIndexByEmail(users, RequestEmail(req)).value;
              && r.store == users[i := users[i].(role := Admin)] && r.reply.body.role == Admin
  {
    var token := RequestToken(req);
    var email := RequestEmail(req);
    if configured == "" then Response(Fail(500, "ADMIN_SETUP_TOKEN not configured"), users)
    else if token == "" || token != configured then Response(Fail(403, "Invalid setup token"), users)
    else if email == "" then Response(Fail(400, "Email is required"), users)
    else if HasAdmin(users) then Response(Fail(400, "An admin already exists"), users)
    else
      var i := UserIndexByEmail(users, email);
      if i.None? then Response(Fail(404, "User not found"), users)
      else
        var u := users[i.value].(role := Admin);
        Response(Ok(200, IdentityOf(u)), users[i.value := u])
  }

  /** One-shot: after a successful bootstrap no later call succeeds, and one
      with a good token and e-mail is told an admin exists. */
  lemma BootstrapOneShot(req: BootstrapRequest, req2: BootstrapRequest, configured: string, users: seq<User>)
    requires Bootstrap(req, configured, users).reply.Ok?
    ensures !Bootstrap(req2, configured, Bootstrap(req, configured, users).store).reply.Ok?
    ensures RequestToken(req2) == configured && RequestEmail(req2) != "" ==>
              Bootstrap(req2, configured, Bootstrap(req, configured, users).store).reply
              == Fail(400, "An admin already exists")
  {
    var i := UserIndexByEmail(users, RequestEmail(req)).value;
    var users' := Bootstrap(req, configured, users).store;
    assert users'[i].role == Admin;
    assert HasAdmin(users');
  }

  /** Registration accepts the role "admin" from the request body, so an
      admin can exist without the bootstrap, which then refuses to run. */
  lemma RegisterCanCreateAdmin(body: RegisterBody, users: seq<User>, hash: string -> string, now: int,
                               req: BootstrapRequest, configured: string)
    requires body.role == Some("admin") && Truthy(body.name) && Truthy(body.email) && Truthy(body.password)
    requires !HasEmail(users, body.email.value) && hash(body.password.value) != ""
    requires configured != "" && RequestToken(req) == configured && RequestEmail(req) != ""
    ensures Register(body, users, hash, now).reply.Ok?
    ensures HasAdmin(Register(body, users, hash, now).store)
    ensures Bootstrap(req, configured, Register(body, users, hash, now).store).reply == Fail(400, "An admin already exists")
  {
    var store := Register(body, users, hash, now).store;
    assert store[|users|].role == Admin;
  }

  /** Register stores the e-mail verbatim while bootstrap looks up its
      lower-cased form, so a user registered with an e-mail that starts with
      a capital letter (say "Ada@Example.org") cannot be promoted by that
      same e-mail. */
  lemma MixedCaseCannotBootstrap(users: seq<User>, configured: string, email: string)
    requires configured != "" && Trim(configured) == configured
    requires !HasAdmin(users)
    requires email != [] && IsUpper(email[0]) && forall k :: 0 <= k < |email| ==> !IsSpace(email[k])
    requires forall i :: 0 <= i < |users| ==> users[i].email == email || users[i].email == ""
    ensures Bootstrap(BootstrapRequest(Some(configured), None, Some(email), None), configured, users).reply
         == Fail(404, "User not found")
  {
    var req := BootstrapRequest(Some(configured), None, Some(email), None);
    RequestOf(configured, email);
    LoweredDiffers(email);
    NoUserWith(users, email, RequestEmail(req));
  }

  lemma RequestOf(configured: string, email: string)
    requires configured != "" && Trim(configured) == configured
    ensures RequestToken(BootstrapRequest(Some(configured), None, Some(email), None)) == configured
    ensures RequestEmail(BootstrapRequest(Some(configured), None, Some(email), None)) == Lower(Trim(email))
  {
  }

  /** Lower-casing changes a capital first letter. */
  lemma LoweredDiffers(email: string)
    requires email != [] && IsUpper(email[0]) && forall k :: 0 <= k < |email| ==> !IsSpace(email[k])
    ensures Lower(Trim(email)) != [] && Lower(Trim(email))[0] != email[0]
  {
    TrimNoSpace(email);
  }

  /** No user holds an e-mail whose first letter differs from the only
      non-empty e-mail in the store. */
  lemma NoUserWith(users: seq<User>, email: string, e: string)
    requires e != [] && email != [] && e[0] != email[0]
    requires forall i :: 0 <= i < |users| ==> users[i].email == email || users[i].email == ""
    ensures !HasEmail(users, e)
  {
    forall i | 0 <= i < |users|
      ensures users[i].email != e
    {
      if users[i].email == email {
        assert users[i].email[0] != e[0];
      }
    }
  }

  lemma TrimNoSpace(s: string)
    requires s != [] && forall k :: 0 <= k < |s| ==> !IsSpace(s[k])
    ensures Trim(s) == s
  {
    assert TrimStart(s) == s;
    assert TrimEnd(s) == s;
  }
}

=== FILE: common.dfy ===
/** Small shared vocabulary: optional values, HTTP replies, and the
    sequence helpers every handler uses (filtering, counting, prefixes). */
module Common {

  /** A value that may be absent: JavaScript's `undefined` for a request
      field, or a record that a lookup did not find. */
  datatype Option<+T> = None | Some(value: T) {
    function GetOr(default: T): T {
      match this
      case Some(v) => v
      case None => default
    }
  }

  /** The reply of an Express handler.
      - `Ok`: a status code and a body.
      - `Fail`: the status the handler set before throwing, with the
        message of the thrown error.
      - `Invalid`: a schema validation error raised by a database save. The
        handler has not set a status then; the error middleware picks it,
        and that middleware is not part of this model. */
  datatype Reply<+T> = Ok(code: int, body: T) | Fail(code: int, message: string) | Invalid(reason: string) {
    predicate IsOk() { Ok? }
    function Code(): int { if Ok? then code else if Fail? then code else 0 }
  }

  /** A handler's reply together with the store after the call. */
  datatype Response<+T, +S> = Response(reply: Reply<T>, store: S)

  /** JavaScript truthiness of an optional string: present and not "". */
  predicate Truthy(x: Option<string>) {
    x.Some? && x.value != ""
  }

  /** `x || prev` for optional strings: only a truthy value replaces. */
  function OrElse(x: Option<string>, prev: string): (r: string)
    ensures Truthy(x) ==> r == x.value
    ensures !Truthy(x) ==> r == prev
    ensures prev != "" ==> r != ""
  {
    if x.Some? && x.value != "" then x.value else prev
  }

  /** `x !== undefined ? x : prev`: any present value replaces, even an empty one. */
  function IfDefined<T>(x: Option<T>, prev: T): (r: T)
    ensures x.Some? ==> r == x.value
    ensures x.None? ==> r == prev
  {
    match x
    case Some(v) => v
    case None => prev
  }

  function Min(a: int, b: int): int { if a <= b then a else b }

  function Max(a: int, b: int): int { if a >= b then a else b }

  /** `Array.prototype.filter`: the elements satisfying `p`, in order. */
  function Filter<T>(s: seq<T>, p: T -> bool): (r: seq<T>)
    ensures |r| <= |s|
    ensures forall i :: 0 <= i < |r| ==> p(r[i]) && r[i] in s
    ensures forall i :: 0 <= i < |s| && p(s[i]) ==> s[i] in r
    ensures multiset(r) <= multiset(s)
  {
    if s == [] then []
    else
      assert s == [s[0]] + s[1..];
      if p(s[0]) then [s[0]] + Filter(s[1..], p) else Filter(s[1..], p)
  }

  /** Number of elements of `s` satisfying `p`. */
  function Count<T>(s: seq<T>, p: T -> bool): (n: nat)
    ensures n <= |s|
    ensures n == |Filter(s, p)|
  {
    if s == [] then 0
    else (if p(s[0]) then 1 else 0) + Count(s[1..], p)
  }

  /** No element satisfies `p` exactly when none is counted. */
  lemma {:induction false} CountNone<T>(s: seq<T>, p: T -> bool)
    ensures Count(s, p) == 0 <==> forall i :: 0 <= i < |s| ==> !p(s[i])
  {
    if s != [] {
      CountNone(s[1..], p);
      assert forall i :: 1 <= i < |s| ==> s[i] == s[1..][i - 1];
    }
  }

  /** The position of the first element satisfying `p` (a lookup by key). */
  function FindIndex<T>(s: seq<T>, p: T -> bool): (r: Option<nat>)
    ensures r.Some? ==> r.value < |s| && p(s[r.value])
    ensures r.Some? ==> forall j :: 0 <= j < r.value ==> !p(s[j])
    ensures r.None? <==> forall j :: 0 <= j < |s| ==> !p(s[j])
  {
    if s == [] then None
    else if p(s[0]) then Some(0)
    else
      var r := FindIndex(s[1..], p);
      assert forall j :: 1 <= j < |s| ==> s[j] == s[1..][j - 1];
      if r.None? then None else Some(r.value + 1)
  }

  /** Removing the element at position `i`. */
  function RemoveAt<T>(s: seq<T>, i: nat): (r: seq<T>)
    requires i < |s|
    ensures |r| == |s| - 1
    ensures multiset(r) == multiset(s) - multiset{s[i]}
    ensures forall j :: 0 <= j < i ==> r[j] == s[j]
    ensures forall j :: i <= j < |r| ==> r[j] == s[j + 1]
  {
    assert s == s[..i] + [s[i]] + s[i + 1..];
    s[..i] + s[i + 1..]
  }

  /** `Array.prototype.slice(0, n)`. */
  function Take<T>(s: seq<T>, n: nat): (r: seq<T>)
    ensures |r| == Min(n, |s|)
    ensures r <= s
  {
    if n <= |s| then s[..n] else s
  }

  /** `Array.prototype.map`. */
  function Map<T, U>(s: seq<T>, f: T -> U): (r: seq<U>)
    ensures |r| == |s|
    ensures forall i :: 0 <= i < |s| ==> r[i] == f(s[i])
  {
    if s == [] then [] else [f(s[0])] + Map(s[1..], f)
  }

  /** A fresh document id: larger than the id of every document in `s`.
      Stands in for MongoDB's ObjectId generation. */
  function FreshId<T>(s: seq<T>, id: T -> nat): (r: nat)
    ensures forall i :: 0 <= i < |s| ==> id(s[i]) < r
  {
    if s == [] then 1
    else
      var rest := FreshId(s[1..], id);
      assert forall i :: 1 <= i < |s| ==> s[i] == s[1..][i - 1];
      if id(s[0]) < rest then rest else id(s[0]) + 1
  }

  /** `xs` is obtained from `ys` by deleting some elements. */
  predicate IsSubsequence<T(==)>(xs: seq<T>, ys: seq<T>)
    decreases |ys|
  {
    if xs == [] then true
    else if ys == [] then false
    else if xs[0] == ys[0] then IsSubsequence(xs[1..], ys[1..])
    else IsSubsequence(xs, ys[1..])
  }

  lemma {:induction false} FilterIsSubsequence<T>(s: seq<T>, p: T -> bool)
    ensures IsSubsequence(Filter(s, p), s)
  {
    if s != [] {
      FilterIsSubsequence(s[1..], p);
      if p(s[0]) {
        assert Filter(s, p) == [s[0]] + Filter(s[1..], p);
        assert Filter(s, p)[1..] == Filter(s[1..], p);
      } else {
        SubsequenceSkip(Filter(s[1..], p), s);
      }
    }
  }

  /** The first `n` elements satisfying `p` all come before any element
      satisfying `p` that was left out: `filter(p).slice(0, n)` keeps the
      first `n`. */
  lemma {:induction false} TakeFilterIsFirst<T>(s: seq<T>, p: T -> bool, n: nat, k: nat)
    requires k < |s| && p(s[k]) && s[k] !in Take(Filter(s, p), n)
    ensures IsSubsequence(Take(Filter(s, p), n), s[..k])
    decreases |s|, 1
  {
    if n == 0 {
      assert Take(Filter(s, p), n) == [];
    } else if p(s[0]) {
      TakeFilterKeep(s, p, n, k);
    } else {
      TakeFilterSkip(s, p, n, k);
    }
  }

  /** The head satisfies `p`: it is the first element kept. */
  lemma {:induction false} TakeFilterKeep<T>(s: seq<T>, p: T -> bool, n: nat, k: nat)
    requires k < |s| && p(s[k]) && s[k] !in Take(Filter(s, p), n)
    requires n > 0 && p(s[0])
    ensures IsSubsequence(Take(Filter(s, p), n), s[..k])
    decreases |s|, 0
  {
    var r := Take(Filter(s, p), n);
    var r' := Take(Filter(s[1..], p), n - 1);
    assert Filter(s, p) == [s[0]] + Filter(s[1..], p);
    assert r == [s[0]] + r';
    assert k > 0 && s[1..][k - 1] == s[k];
    TakeFilterIsFirst(s[1..], p, n - 1, k - 1);
    assert r[1..] == r' && s[..k][1..] == s[1..][..k - 1];
  }

  /** The head fails `p`: the kept elements all come from the tail. */
  lemma {:induction false} TakeFilterSkip<T>(s: seq<T>, p: T -> bool, n: nat, k: nat)
    requires k < |s| && p(s[k]) && s[k] !in Take(Filter(s, p), n)
    requires n > 0 && !p(s[0])
    ensures IsSubsequence(Take(Filter(s, p), n), s[..k])
    decreases |s|, 0
  {
    var r := Take(Filter(s, p), n);
    assert Filter(s, p) == Filter(s[1..], p);
    assert k > 0 && s[1..][k - 1] == s[k];
    TakeFilterIsFirst(s[1..], p, n, k - 1);
    assert s[..k][1..] == s[1..][..k - 1];
    SubsequenceSkip(r, s[..k]);
  }

  /** Deleting one more element of the longer sequence keeps the relation. */
  lemma {:induction false} SubsequenceSkip<T>(xs: seq<T>, ys: seq<T>)
    requires ys != []
    requires IsSubsequence(xs, ys[1..])
    ensures IsSubsequence(xs, ys)
    decreases |xs| + |ys|, 1
  {
    if xs != [] && xs[0] == ys[0] {
      SubsequenceDropHead(xs, ys[1..]);
    }
  }

  lemma {:induction false} SubsequenceDropHead<T>(xs: seq<T>, zs: seq<T>)
    requires xs != []
    requires IsSubsequence(xs, zs)
    ensures IsSubsequence(xs[1..], zs)
    decreases |xs| + |zs|, 0
  {
    assert zs != [];
    if xs[0] == zs[0] {
      if xs[1..] != [] {
        SubsequenceSkip(xs[1..], zs);
      }
    } else {
      SubsequenceDropHead(xs, zs[1..]);
      if xs[1..] != [] {
        SubsequenceSkip(xs[1..], zs);
      }
    }
  }
}

=== FILE: demo.dfy ===
/** The client-side demo matcher of the AI-matching page: an integer
    score per job (one point per profile skill found as a substring of the
    requirements, one point for a location match), and the jobs sorted by
    that score, best first. Unlike the server's scorer it matches
    substrings, not whole tokens. */
module DemoMatcher {
  import opened Common
  import opened Text
  import opened Sorting
  import Scorer

  /** A demo job; "" stands for a missing requirements or location string. */
  datatype DemoJob = DemoJob(title: string, companyName: string, location: string,
                             requirements: string, salaryRange: string)

  /** A profile; `skills` is None when the profile has no skills array. */
  datatype Profile = Profile(name: string, location: string, skills: Option<seq<string>>)

  /** A job together with its `matchScore`. */
  datatype Ranked = Ranked(job: DemoJob, matchScore: nat)

  /** The skill test: the lower-cased requirements include the lower-cased skill. */
  predicate SkillIn(skill: string, requirements: string) {
    Contains(Lower(requirements), Lower(skill))
  }

  /** Number of skills (with repetitions) the requirements include. */
  function SkillHits(skills: seq<string>, requirements: string): (n: nat)
    ensures n <= |skills|
    ensures n == |skills| <==> forall i :: 0 <= i < |skills| ==> SkillIn(skills[i], requirements)
    ensures n == 0 <==> forall i :: 0 <= i < |skills| ==> !SkillIn(skills[i], requirements)
  {
    if skills == [] then 0
    else
      assert forall i :: 1 <= i < |skills| ==> skills[i] == skills[1..][i - 1];
      (if SkillIn(skills[0], requirements) then 1 else 0) + SkillHits(skills[1..], requirements)
  }

  /** The location test: both locations present and the job's includes the profile's. */
  predicate LocationHit(p: Profile, j: DemoJob) {
    p.location != "" && j.location != "" && Contains(Lower(j.location), Lower(p.location))
  }

  /** The score of one job: skill hits when the profile has skills and the
      job has requirements, plus one for a location hit. */
  function MatchScore(p: Profile, j: DemoJob): (r: nat)
    ensures p.skills.Some? && j.requirements != "" ==>
              r == SkillHits(p.skills.value, j.requirements) + (if LocationHit(p, j) then 1 else 0)
    ensures p.skills.None? || j.requirements == "" ==> r == (if LocationHit(p, j) then 1 else 0)
    ensures r <= |p.skills.GetOr([])| + 1
  {
    var skillPart := if p.skills.Some? && j.requirements != "" then SkillHits(p.skills.value, j.requirements) else 0;
    skillPart + (if LocationHit(p, j) then 1 else 0)
  }

  function ByMatchScore(): (Ranked, Ranked) -> bool {
    (a: Ranked, b: Ranked) => a.matchScore >= b.matchScore
  }

  function ScoreEach(p: Profile, jobs: seq<DemoJob>): (r: seq<Ranked>)
    ensures |r| == |jobs|
    ensures forall i :: 0 <= i < |r| ==> r[i] == Ranked(jobs[i], MatchScore(p, jobs[i]))
  {
    Map(jobs, j => Ranked(j, MatchScore(p, j)))
  }

  /** `matchJobs`: every job with its score, none dropped, best first. */
  function MatchJobs(p: Profile, jobs: seq<DemoJob>): (r: seq<Ranked>)
    ensures |r| == |jobs|
    ensures multiset(r) == multiset(ScoreEach(p, jobs))
    ensures Sorted(r, ByMatchScore())
  {
    assert TotalPreorder(ByMatchScore());
    Sort(ScoreEach(p, jobs), ByMatchScore())
  }

  /** Jobs with equal scores keep their input order. */
  lemma MatchJobsStable(p: Profile, jobs: seq<DemoJob>, y: Ranked)
    ensures TieClass(MatchJobs(p, jobs), y, ByMatchScore()) == TieClass(ScoreEach(p, jobs), y, ByMatchScore())
  {
    assert TotalPreorder(ByMatchScore());
    SortStable(ScoreEach(p, jobs), y, ByMatchScore());
  }

  // ------------------------------------------------------------ demo data

  const FrontendRequirements: string := "JavaScript, React, CSS"
  const BackendRequirements: string := "Node.js, MongoDB, Express"
  const FullStackRequirements: string := "React, Node.js, TypeScript"
  const LagosNigeria: string := "Lagos, Nigeria"

  const Frontend: DemoJob := DemoJob("Frontend Developer", "Lagos Tech", LagosNigeria, FrontendRequirements, "$1200/mo")
  const Backend: DemoJob := DemoJob("Backend Engineer", "Nairobi Cloud", "Nairobi, Kenya", BackendRequirements, "$1500/mo")
  const FullStack: DemoJob := DemoJob("Full Stack Developer", "Cape Town Startups", "Cape Town, South Africa",
                                      FullStackRequirements, "$1800/mo")

  const DemoJobs: seq<DemoJob> := [Frontend, Backend, FullStack]

  const DemoSkills: seq<string> := ["JavaScript", "React", "Node.js", "CSS"]

  const DemoProfile: Profile := Profile("Jane Doe", LagosNigeria, Some(DemoSkills))

  lemma SkillInPrefix(skill: string, rest: string)
    ensures SkillIn(skill, skill + rest)
  {
    LowerAppend(skill, rest);
    ContainsPrefix(Lower(skill), Lower(rest));
  }

  lemma SkillInMiddle(before: string, skill: string, after: string)
    ensures SkillIn(skill, before + skill + after)
  {
    LowerAppend(before + skill, after);
    LowerAppend(before, skill);
    ContainsMiddle(Lower(before), Lower(skill), Lower(after));
  }

  lemma SkillInSuffix(before: string, skill: string)
    ensures SkillIn(skill, before + skill)
  {
    LowerAppend(before, skill);
    ContainsSuffix(Lower(before), Lower(skill));
  }

  /** The score's skill part on four skills, from the four individual tests. */
  lemma HitsOfFour(skills: seq<string>, req: string, a: bool, b: bool, c: bool, d: bool)
    requires |skills| == 4
    requires SkillIn(skills[0], req) == a && SkillIn(skills[1], req) == b
    requires SkillIn(skills[2], req) == c && SkillIn(skills[3], req) == d
    ensures SkillHits(skills, req) == (if a then 1 else 0) + (if b then 1 else 0) + (if c then 1 else 0) + (if d then 1 else 0)
  {
    assert skills[1..][1..][1..][1..] == [];
    assert SkillHits(skills[1..][1..][1..], req) == (if d then 1 else 0);
  }

  // One fact per lemma: each skill test on each demo job.

  lemma FrontendJavaScript() ensures SkillIn("JavaScript", FrontendRequirements) {
    assert FrontendRequirements == "JavaScript" + ", React, CSS";
    SkillInPrefix("JavaScript", ", React, CSS");
  }

  lemma FrontendReact() ensures SkillIn("React", FrontendRequirements) {
    assert FrontendRequirements == "JavaScript, " + "React" + ", CSS";
    SkillInMiddle("JavaScript, ", "React", ", CSS");
  }

  lemma FrontendNode() ensures !SkillIn("Node.js", FrontendRequirements) {
    LowerMissingChar(FrontendRequirements, "Node.js", 0);
  }

  lemma FrontendCss() ensures SkillIn("CSS", FrontendRequirements) {
    assert FrontendRequirements == "JavaScript, React, " + "CSS";
    SkillInSuffix("JavaScript, React, ", "CSS");
  }

  lemma BackendJavaScript() ensures !SkillIn("JavaScript", BackendRequirements) {
    LowerMissingChar(BackendRequirements, "JavaScript", 2);
  }

  lemma BackendReact() ensures !SkillIn("React", BackendRequirements) {
    LowerMissingChar(BackendRequirements, "React", 2);
  }

  lemma BackendNode() ensures SkillIn("Node.js", BackendRequirements) {
    assert BackendRequirements == "Node.js" + ", MongoDB, Express";
    SkillInPrefix("Node.js", ", MongoDB, Express");
  }

  lemma BackendCss() ensures !SkillIn("CSS", BackendRequirements) {
    LowerMissingChar(BackendRequirements, "CSS", 0);
  }

  lemma FullStackJavaScript() ensures !SkillIn("JavaScript", FullStackRequirements) {
    LowerMissingChar(FullStackRequirements, "JavaScript", 2);
  }

  lemma FullStackReact() ensures SkillIn("React", FullStackRequirements) {
    assert FullStackRequirements == "React" + ", Node.js, TypeScript";
    SkillInPrefix("React", ", Node.js, TypeScript");
  }

  lemma FullStackNode() ensures SkillIn("Node.js", FullStackRequirements) {
    assert FullStackRequirements == "React, " + "Node.js" + ", TypeScript";
    SkillInMiddle("React, ", "Node.js", ", TypeScript");
  }

  // "CSS" does not occur in "React, Node.js, TypeScript", in any case:
  // every run of the letters c and s in it is shorter than three. The
  // requirements string is peeled one separating letter at a time.

  lemma CssNotInSc() ensures !Contains(Lower("Sc"), Lower("CSS")) {
    NotShorter(Lower("Sc"), Lower("CSS"));
  }

  lemma CssNotInIpt() ensures !Contains(Lower("ipt"), Lower("CSS")) {
    LowerMissingChar("ipt", "CSS", 0);
  }

  lemma CssNotInEmpty() ensures !Contains(Lower(""), Lower("CSS")) {
    NotShorter(Lower(""), Lower("CSS"));
  }

  lemma CssNotInY() ensures !Contains(Lower("y"), Lower("CSS")) {
    NotShorter(Lower("y"), Lower("CSS"));
  }

  lemma CssNotInNode() ensures !Contains(Lower(", Node.js, "), Lower("CSS")) {
    LowerMissingChar(", Node.js, ", "CSS", 0);
  }

  lemma CssNotInReac() ensures !Contains(Lower("Reac"), Lower("CSS")) {
    LowerMissingChar("Reac", "CSS", 1);
  }

  // In each step the character facts come first, then the facts about the
  // two sides, then the split.

  lemma CssNotInScript() ensures !Contains(Lower("Script"), Lower("CSS")) {
    LowerLacks("CSS", 'r');
    assert "Script" == "Sc" + ['r'] + "ipt";
    CssNotInSc();
    CssNotInIpt();
    LowerNotContainsSplit("Script", "Sc", 'r', "ipt", "CSS");
  }

  lemma CssNotInEScript() ensures !Contains(Lower("eScript"), Lower("CSS")) {
    LowerLacks("CSS", 'e');
    assert "eScript" == "" + ['e'] + "Script";
    CssNotInEmpty();
    CssNotInScript();
    LowerNotContainsSplit("eScript", "", 'e', "Script", "CSS");
  }

  lemma CssNotInYpeScript() ensures !Contains(Lower("ypeScript"), Lower("CSS")) {
    LowerLacks("CSS", 'p');
    assert "ypeScript" == "y" + ['p'] + "eScript";
    CssNotInY();
    CssNotInEScript();
    LowerNotContainsSplit("ypeScript", "y", 'p', "eScript", "CSS");
  }

  lemma CssNotInTypeScript() ensures !Contains(Lower(", Node.js, TypeScript"), Lower("CSS")) {
    LowerLacks("CSS", 't');
    assert LowerChar('T') !in Lower("CSS");
    assert ", Node.js, TypeScript" == ", Node.js, " + ['T'] + "ypeScript";
    CssNotInNode();
    CssNotInYpeScript();
    LowerNotContainsSplit(", Node.js, TypeScript", ", Node.js, ", 'T', "ypeScript", "CSS");
  }

  lemma FullStackSplit() ensures FullStackRequirements == "Reac" + ['t'] + ", Node.js, TypeScript" {
  }

  lemma FullStackCss() ensures !SkillIn("CSS", FullStackRequirements) {
    LowerLacks("CSS", 't');
    FullStackSplit();
    CssNotInReac();
    CssNotInTypeScript();
    LowerNotContainsSplit(FullStackRequirements, "Reac", 't', ", Node.js, TypeScript", "CSS");
  }

  lemma FrontendLocation() ensures LocationHit(DemoProfile, Frontend) {
    ContainsSelf(Lower(LagosNigeria));
  }

  lemma BackendLocation() ensures !LocationHit(DemoProfile, Backend) {
    LowerMissingChar("Nairobi, Kenya", LagosNigeria, 0);
  }

  lemma FullStackLocation() ensures !LocationHit(DemoProfile, FullStack) {
    CapeTownLacksLagos();
    LocationMiss(DemoProfile, FullStack);
  }

  lemma CapeTownLacksLagos() ensures !Contains(Lower("Cape Town, South Africa"), Lower(LagosNigeria)) {
    assert LagosNigeria[0] == 'L';
    assert LowerChar('L') == 'l' && UpperChar('l') == 'L';
    assert 'l' !in "Cape Town, South Africa";
    assert 'L' !in "Cape Town, South Africa";
    LowerMissingChar("Cape Town, South Africa", LagosNigeria, 0);
  }

  /** A location that does not contain the profile's location is no hit. */
  lemma LocationMiss(p: Profile, j: DemoJob)
    requires !Contains(Lower(j.location), Lower(p.location))
    ensures !LocationHit(p, j)
  {
  }

  lemma FrontendScore()
    ensures MatchScore(DemoProfile, Frontend) == 4
  {
    FrontendJavaScript();
    FrontendReact();
    FrontendNode();
    FrontendCss();
    HitsOfFour(DemoSkills, FrontendRequirements, true, true, false, true);
    FrontendLocation();
  }

  lemma BackendScore()
    ensures MatchScore(DemoProfile, Backend) == 1
  {
    BackendJavaScript();
    BackendReact();
    BackendNode();
    BackendCss();
    HitsOfFour(DemoSkills, BackendRequirements, false, false, true, false);
    BackendLocation();
  }

  lemma FullStackScore()
    ensures MatchScore(DemoProfile, FullStack) == 2
  {
    FullStackJavaScript();
    FullStackReact();
    FullStackNode();
    FullStackCss();
    HitsOfFour(DemoSkills, FullStackRequirements, false, true, true, false);
    FullStackLocation();
  }

  lemma DemoScores()
    ensures ScoreEach(DemoProfile, DemoJobs) == [Ranked(Frontend, 4), Ranked(Backend, 1), Ranked(FullStack, 2)]
  {
    FrontendScore();
    BackendScore();
    FullStackScore();
  }

  /** Sorting three jobs whose scores are in the order first, third, second. */
  lemma SortThree(a: Ranked, b: Ranked, c: Ranked)
    requires a.matchScore > c.matchScore > b.matchScore
    ensures Sort([a, b, c], ByMatchScore()) == [a, c, b]
  {
    var before := ByMatchScore();
    assert TotalPreorder(before);
    assert [a, b, c][1..] == [b, c] && [b, c][1..] == [c] && [c][1..] == [];
    assert Sort([c], before) == [c];
    assert Insert(b, [c], before) == [c] + Insert(b, [], before) == [c, b];
    assert Sort([b, c], before) == [c, b];
    assert Insert(a, [c, b], before) == [a, c, b];
  }

  /** On the page's demo data the order is Frontend Developer (4), Full
      Stack Developer (2), Backend Engineer (1). */
  lemma DemoRanking()
    ensures MatchJobs(DemoProfile, DemoJobs) == [Ranked(Frontend, 4), Ranked(FullStack, 2), Ranked(Backend, 1)]
  {
    DemoScores();
    SortThree(Ranked(Frontend, 4), Ranked(Backend, 1), Ranked(FullStack, 2));
  }

  /** The demo matcher counts the skill "Java" against requirements "JavaScript". */
  lemma JavaInJavaScript()
    ensures MatchScore(Profile("", "", Some(["Java"])), DemoJob("", "", "", "JavaScript", "")) == 1
  {
    assert "JavaScript" == "Java" + "Script";
    SkillInPrefix("Java", "Script");
    assert SkillHits(["Java"], "JavaScript") == 1;
  }

  /** The server's scorer does not: "JavaScript" is one token. */
  lemma JavaNotTokenOfJavaScript()
    ensures Scorer.SkillScore(["Java"], Scorer.ExtractTokens("JavaScript")) == 0.0
  {
    assert forall k :: 0 <= k < |"JavaScript"| ==> Scorer.TokenChar(LowerChar("JavaScript"[k]));
    Scorer.TokensOfWord("JavaScript");
    assert |Lower("Java")| != |Lower("JavaScript")|;
    assert !Scorer.SkillFound(["Java"][0], Scorer.ExtractTokens("JavaScript"));
  }

  /** Substring versus token matching: the two matchers disagree on "Java"
      against "JavaScript". */
  lemma SubstringNotToken()
    ensures MatchScore(Profile("", "", Some(["Java"])), DemoJob("", "", "", "JavaScript", "")) == 1
    ensures Scorer.SkillScore(["Java"], Scorer.ExtractTokens("JavaScript")) == 0.0
  {
    JavaInJavaScript();
    JavaNotTokenOfJavaScript();
  }
}

=== FILE: jobs.dfy ===
/** Job postings: the public listing query, the create / update / delete
    handlers for employers, the post-a-job form (location composition,
    country change, payload, role gate) and the job card (description
    truncation, apply link). */
module Jobs {
  import opened Common
  import opened Text
  import opened Schema
  import Scorer
  import ProfilePage

  // --------------------------------------------------------------- listing

  /** The listing's query-string filters; "" means the filter is absent. */
  datatype JobQuery = JobQuery(search: string, country: string, city: string, jobType: string)

  /** A case-insensitive match of a pattern in a field (a literal
      substring: regular-expression syntax in the pattern is not modelled). */
  predicate MatchesCI(field: string, pattern: string) {
    Contains(Lower(field), Lower(pattern))
  }

  /** The listing query: not expired, exact job type, the city (or else
      the country) in the location, the search text in title or description. */
  predicate Listed(q: JobQuery, j: Job, now: int) {
    && j.expiryDate.Some? && j.expiryDate.value >= now
    && (q.jobType != "" ==> JobTypeName(j.jobType) == q.jobType)
    && (q.city != "" ==> MatchesCI(j.location, q.city))
    && (q.city == "" && q.country != "" ==> MatchesCI(j.location, q.country))
    && (q.search != "" ==> MatchesCI(j.title, q.search) || MatchesCI(j.description, q.search))
  }

  /** `getJobs`: the stored jobs the query selects, in store order. */
  function ListJobs(q: JobQuery, jobs: seq<Job>, now: int): (r: seq<Job>)
    ensures IsSubsequence(r, jobs)
    ensures forall i :: 0 <= i < |r| ==> r[i].expiryDate.Some? && r[i].expiryDate.value >= now
    ensures forall i :: 0 <= i < |r| ==> Listed(q, r[i], now)
    ensures forall i :: 0 <= i < |jobs| && Listed(q, jobs[i], now) ==> jobs[i] in r
  {
    if jobs == [] then []
    else
      var rest := ListJobs(q, jobs[1..], now);
      assert forall i :: 1 <= i < |jobs| ==> jobs[i] == jobs[1..][i - 1];
      if Listed(q, jobs[0], now) then
        assert ([jobs[0]] + rest)[1..] == rest;
        [jobs[0]] + rest
      else
        SubsequenceSkip(rest, jobs);
        rest
  }

  /** A city filter makes the country filter irrelevant. */
  lemma {:induction false} CityOverridesCountry(q: JobQuery, country: string, jobs: seq<Job>, now: int)
    requires q.city != ""
    ensures ListJobs(q, jobs, now) == ListJobs(q.(country := country), jobs, now)
  {
    if jobs != [] {
      CityOverridesCountry(q, country, jobs[1..], now);
    }
  }

  /** An expired job is never listed, whatever the filters. */
  lemma ExpiredNeverListed(q: JobQuery, jobs: seq<Job>, now: int, j: Job)
    requires j.expiryDate.Some? && j.expiryDate.value < now
    ensures j !in ListJobs(q, jobs, now)
  {
  }

  /** `getJobById`. */
  function JobById(jobs: seq<Job>, id: Id): (r: Reply<Job>)
    ensures r.Ok? <==> exists i :: 0 <= i < |jobs| && jobs[i].id == id
    ensures r.Ok? ==> r.code == 200 && r.body.id == id && r.body in jobs
    ensures !r.Ok? ==> r == Fail(404, "Job not found")
  {
    var i := FindIndex(jobs, (j: Job) => j.id == id);
    if i.None? then Fail(404, "Job not found") else Ok(200, jobs[i.value])
  }

  // ---------------------------------------------------- create and update

  /** The body of a create or update request; None stands for an absent
      field, and an absent or empty expiry date for no date. */
  datatype JobBody = JobBody(
    title: Option<string>,
    location: Option<string>,
    jobType: Option<string>,
    salaryRange: Option<string>,
    description: Option<string>,
    requirements: Option<string>,
    responsibilities: Option<string>,
    benefits: Option<string>,
    expiryDate: Option<int>,
    applicationEmail: Option<string>)

  /** `createJob`: 400 when title, location, description or expiry date is
      missing; otherwise the document is created for the caller (poster,
      company and company name are the caller's; the application e-mail
      defaults to the caller's), or rejected by the schema validators. */
  function CreateJob(body: JobBody, caller: User, jobs: seq<Job>, now: int): (r: Response<Job, seq<Job>>)
    ensures r.reply == Fail(400, "Please fill in all required fields") <==>
              !Truthy(body.title) || !Truthy(body.location) || !Truthy(body.description) || body.expiryDate.None?
    ensures !r.reply.Ok? ==> r.store == jobs
    ensures r.reply.Ok? ==>
              && r.reply.code == 201 && r.store == jobs + [r.reply.body] && ValidJob(r.reply.body)
              && r.reply.body.postedBy == caller.id && r.reply.body.company == caller.id
              && r.reply.body.companyName == caller.companyName
              && r.reply.body.applicationEmail == OrElse(body.applicationEmail, caller.email)
              && r.reply.body.location == body.location.value
              && r.reply.body.title == Trim(body.title.value)
              && r.reply.body.createdAt == now && r.reply.body.isApproved
    ensures r.reply.Ok? ==>
              && r.reply.body.description == body.description.value && r.reply.body.expiryDate == body.expiryDate
              && r.reply.body.requirements == body.requirements.GetOr("")
              && r.reply.body.responsibilities == body.responsibilities.GetOr("")
              && r.reply.body.benefits == body.benefits.GetOr("")
              && r.reply.body.salaryRange == body.salaryRange.GetOr(DefaultSalaryRange)
              && (body.jobType.None? ==> r.reply.body.jobType == DefaultJobType)
              && (body.jobType.Some? ==> JobTypeName(r.reply.body.jobType) == body.jobType.value)
              && forall i :: 0 <= i < |jobs| ==> jobs[i].id != r.reply.body.id
    ensures r.reply.Invalid? <==>
              && Truthy(body.title) && Truthy(body.location) && Truthy(body.description) && body.expiryDate.Some?
              && (Trim(body.title.value) == "" || caller.companyName == ""
                  || (body.jobType.Some? && ParseJobType(body.jobType.value).None?))
  {
    if !Truthy(body.title) || !Truthy(body.location) || !Truthy(body.description) || body.expiryDate.None? then
      Response(Fail(400, "Please fill in all required fields"), jobs)
    else
      var job := NewJob(FreshId(jobs, JobIdOf), body.title.value, caller.companyName, caller.id, body.location.value,
                        body.jobType, body.salaryRange, body.description.value, body.requirements.GetOr(""),
                        body.responsibilities.GetOr(""), body.benefits.GetOr(""), body.expiryDate,
                        OrElse(body.applicationEmail, caller.email), caller.id, now);
      if job.None? then Response(Invalid("Job validation failed"), jobs)
      else Response(Ok(201, job.value), jobs + [job.value])
  }

  /** The update merge: every editable field is replaced only by a truthy
      value; the title is stored trimmed. Owner fields are untouched. */
  function MergeJob(j: Job, body: JobBody): (r: Option<Job>)
    ensures r.Some? ==> && r.value.id == j.id && r.value.postedBy == j.postedBy && r.value.company == j.company
                        && r.value.companyName == j.companyName && r.value.createdAt == j.createdAt
                        && r.value.isApproved == j.isApproved
    ensures r.Some? ==> && r.value.title == Trim(OrElse(body.title, j.title))
                        && r.value.location == OrElse(body.location, j.location)
                        && r.value.description == OrElse(body.description, j.description)
                        && r.value.requirements == OrElse(body.requirements, j.requirements)
                        && r.value.expiryDate == (if body.expiryDate.Some? then body.expiryDate else j.expiryDate)
    ensures r.Some? ==> && r.value.salaryRange == OrElse(body.salaryRange, j.salaryRange)
                        && r.value.responsibilities == OrElse(body.responsibilities, j.responsibilities)
                        && r.value.benefits == OrElse(body.benefits, j.benefits)
                        && r.value.applicationEmail == OrElse(body.applicationEmail, j.applicationEmail)
    ensures r.Some? ==> JobTypeName(r.value.jobType) == OrElse(body.jobType, JobTypeName(j.jobType))
    ensures r.None? <==> Trim(OrElse(body.title, j.title)) == ""
                         || ParseJobType(OrElse(body.jobType, JobTypeName(j.jobType))).None?
  {
    var title := Trim(OrElse(body.title, j.title));
    var jobType := ParseJobType(OrElse(body.jobType, JobTypeName(j.jobType)));
    if title == "" || jobType.None? then None
    else
      Some(j.(title := title,
              location := OrElse(body.location, j.location),
              jobType := jobType.value,
              salaryRange := OrElse(body.salaryRange, j.salaryRange),
              description := OrElse(body.description, j.description),
              requirements := OrElse(body.requirements, j.requirements),
              responsibilities := OrElse(body.responsibilities, j.responsibilities),
              benefits := OrElse(body.benefits, j.benefits),
              expiryDate := if body.expiryDate.Some? then body.expiryDate else j.expiryDate,
              applicationEmail := OrElse(body.applicationEmail, j.applicationEmail)))
  }

  /** An update can never clear a field: a non-empty field stays non-empty,
      and a valid job stays valid. */
  lemma MergeNeverClears(j: Job, body: JobBody)
    requires ValidJob(j)
    requires Trim(OrElse(body.title, j.title)) != ""
    requires body.jobType.Some? ==> body.jobType.value == "" || ParseJobType(body.jobType.value).Some?
    ensures MergeJob(j, body).Some?
    ensures var r := MergeJob(j, body).value;
            && ValidJob(r)
            && (j.requirements != "" ==> r.requirements != "")
            && (j.applicationEmail != "" ==> r.applicationEmail != "")
            && (j.salaryRange != "" ==> r.salaryRange != "")
  {
    TrimIdempotent(OrElse(body.title, j.title));
    var t := OrElse(body.jobType, JobTypeName(j.jobType));
    if Truthy(body.jobType) {
      assert ParseJobType(t).Some?;
    } else {
      assert t == JobTypeName(j.jobType);
      assert ParseJobType(t) == Some(j.jobType);
    }
  }

  /** An empty body leaves the job as it was. */
  lemma EmptyUpdateIsIdentity(j: Job)
    requires ValidJob(j)
    ensures MergeJob(j, JobBody(None, None, None, None, None, None, None, None, None, None)) == Some(j)
  {
    assert ParseJobType(JobTypeName(j.jobType)) == Some(j.jobType);
  }

  /** Ownership checks of update and delete: 404 for an unknown id, then 403
      unless the caller posted the job. */
  function Owned(jobs: seq<Job>, id: Id, caller: Id, action: string): (r: Reply<nat>)
    ensures r.Ok? <==> exists i :: 0 <= i < |jobs| && jobs[i].id == id && jobs[i].postedBy == caller
                                   && forall k :: 0 <= k < i ==> jobs[k].id != id
    ensures r.Ok? ==> r.body < |jobs| && jobs[r.body].id == id && jobs[r.body].postedBy == caller
    ensures r == Fail(404, "Job not found") <==> forall i :: 0 <= i < |jobs| ==> jobs[i].id != id
    ensures (exists i :: 0 <= i < |jobs| && jobs[i].id == id && jobs[i].postedBy != caller
                         && forall k :: 0 <= k < i ==> jobs[k].id != id)
            ==> r == Fail(403, "Not authorized to " + action + " this job")
    ensures !r.Invalid?
  {
    var i := FindIndex(jobs, (j: Job) => j.id == id);
    if i.None? then Fail(404, "Job not found")
    else if jobs[i.value].postedBy != caller then Fail(403, "Not authorized to " + action + " this job")
    else Ok(200, i.value)
  }

  /** `updateJob`. */
  function UpdateJob(id: Id, body: JobBody, caller: Id, jobs: seq<Job>): (r: Response<Job, seq<Job>>)
    ensures var o := Owned(jobs, id, caller, "update");
            o.Fail? ==> r.reply == Fail(o.code, o.message) && r.store == jobs
    ensures !r.reply.Ok? ==> r.store == jobs
    ensures r.reply.Ok? <==> && Owned(jobs, id, caller, "update").Ok?
                             && MergeJob(jobs[Owned(jobs, id, caller, "update").body], body).Some?
    ensures && Owned(jobs, id, caller, "update").Ok?
            && MergeJob(jobs[Owned(jobs, id, caller, "update").body], body).None?
            ==> r.reply == Invalid("Job validation failed")
    ensures r.reply.Ok? ==>
              && Owned(jobs, id, caller, "update").Ok?
              && var i := Owned(jobs, id, caller, "update").body;
              && Some(r.reply.body) == MergeJob(jobs[i], body)
              && r.store == jobs[i := r.reply.body]
              && r.reply.body.postedBy == caller
  {
    var owned := Owned(jobs, id, caller, "update");
    if !owned.Ok? then Response(Fail(owned.code, owned.message), jobs)
    else
      var merged := MergeJob(jobs[owned.body], body);
      if merged.None? then Response(Invalid("Job validation failed"), jobs)
      else Response(Ok(200, merged.value), jobs[owned.body := merged.value])
  }

  /** `deleteJob`. */
  function DeleteJob(id: Id, caller: Id, jobs: seq<Job>): (r: Response<string, seq<Job>>)
    ensures var o := Owned(jobs, id, caller, "delete");
            o.Fail? ==> r.reply == Fail(o.code, o.message) && r.store == jobs
    ensures r.reply.Ok? <==> Owned(jobs, id, caller, "delete").Ok?
    ensures r.reply.Ok? ==>
              var i := Owned(jobs, id, caller, "delete").body;
              multiset(r.store) == multiset(jobs) - multiset{jobs[i]} && |r.store| == |jobs| - 1
  {
    var owned := Owned(jobs, id, caller, "delete");
    if !owned.Ok? then Response(Fail(owned.code, owned.message), jobs)
    else Response(Ok(200, "Job deleted successfully"), RemoveAt(jobs, owned.body))
  }

  // ------------------------------------------------------ post-a-job form

  /** The form state of the post-a-job page; the expiry date is None until picked. */
  datatype PostForm = PostForm(
    title: string, companyName: string, location: string, country: string, city: string,
    jobType: string, salaryRange: string, description: string, requirements: string,
    responsibilities: string, benefits: string, expiryDate: Option<int>, applicationEmail: string)

  /** The initial form: job type Full-Time, company and e-mail from the user. */
  function InitialForm(user: Option<User>): (r: PostForm)
    ensures r.jobType == JobTypeName(DefaultJobType)
    ensures r.applicationEmail == (if user.Some? then user.value.email else "")
    ensures r.companyName == (if user.Some? then user.value.companyName else "")
    ensures r.country == "" && r.city == "" && r.title == "" && r.expiryDate.None?
  {
    PostForm("", if user.Some? then user.value.companyName else "", "", "", "", "Full-Time", "", "", "", "", "",
             None, if user.Some? then user.value.email else "")
  }

  /** The page renders the form only for a logged-in employer. */
  predicate ShowsForm(user: Option<User>) {
    user.Some? && user.value.role == Employer
  }

  /** `handleCountryChange`: sets the country, clears the city, keeps the rest. */
  function CountryChange(f: PostForm, country: string): (r: PostForm)
    ensures r.country == country && r.city == ""
    ensures && r.title == f.title && r.companyName == f.companyName && r.location == f.location
            && r.jobType == f.jobType && r.salaryRange == f.salaryRange && r.description == f.description
            && r.requirements == f.requirements && r.responsibilities == f.responsibilities
            && r.benefits == f.benefits && r.expiryDate == f.expiryDate && r.applicationEmail == f.applicationEmail
  {
    f.(country := country, city := "")
  }

  /** One entry of the country table: a country and its cities. */
  datatype CountryCities = CountryCities(country: string, cities: seq<string>)

  /** The city list offered after a country change: the cities of the first
      table entry for that country, or none for an unknown country. */
  function CitiesOf(table: seq<CountryCities>, country: string): (r: seq<string>)
    ensures (forall i :: 0 <= i < |table| ==> table[i].country != country) ==> r == []
    ensures (exists i :: 0 <= i < |table| && table[i].country == country) ==>
              exists i :: (0 <= i < |table| && table[i].country == country && r == table[i].cities
                           && forall k :: 0 <= k < i ==> table[k].country != country)
  {
    var i := FindIndex(table, (e: CountryCities) => e.country == country);
    if i.None? then [] else table[i.value].cities
  }

  /** The location sent with the job: "City, Country", or the country alone. */
  function ComposeLocation(city: string, country: string): (r: string)
    ensures city == "" ==> r == country
    ensures city != "" ==> r == city + ", " + country
    ensures Contains(r, country)
  {
    if city != "" then
      ContainsSuffix(city + ", ", country);
      city + ", " + country
    else
      ContainsSelf(country);
      country
  }

  /** The composed location always passes the scorer's location test for a
      job seeker from the chosen country, in any letter case. */
  lemma ComposedLocationScores(city: string, country: string, userCountry: string)
    requires country != "" && Lower(userCountry) == Lower(country)
    ensures Scorer.LocationScore(userCountry, ComposeLocation(city, country)) == 1.0
  {
    var loc := ComposeLocation(city, country);
    if city != "" {
      LowerAppend(city + ", ", country);
      ContainsSuffix(Lower(city + ", "), Lower(country));
    } else {
      ContainsSelf(Lower(country));
    }
  }

  /** The eleven fields the form sends; country and city travel only
      inside `location`. */
  datatype Payload = Payload(
    title: string, companyName: string, location: string, jobType: string, salaryRange: string,
    description: string, requirements: string, responsibilities: string, benefits: string,
    expiryDate: Option<int>, applicationEmail: string)

  function PayloadOf(f: PostForm): (r: Payload)
    ensures r.location == ComposeLocation(f.city, f.country)
    ensures r.title == f.title && r.companyName == f.companyName && r.jobType == f.jobType
    ensures r.description == f.description && r.expiryDate == f.expiryDate
    ensures r.applicationEmail == f.applicationEmail
    ensures && r.salaryRange == f.salaryRange && r.requirements == f.requirements
            && r.responsibilities == f.responsibilities && r.benefits == f.benefits
  {
    Payload(f.title, f.companyName, ComposeLocation(f.city, f.country), f.jobType, f.salaryRange,
            f.description, f.requirements, f.responsibilities, f.benefits, f.expiryDate, f.applicationEmail)
  }

  /** The request body the server receives from the form (the payload's
      companyName has no counterpart: the server ignores it). */
  function BodyOf(p: Payload): (r: JobBody)
    ensures r.title == Some(p.title) && r.location == Some(p.location) && r.expiryDate == p.expiryDate
    ensures && r.jobType == Some(p.jobType) && r.salaryRange == Some(p.salaryRange)
            && r.description == Some(p.description) && r.requirements == Some(p.requirements)
            && r.responsibilities == Some(p.responsibilities) && r.benefits == Some(p.benefits)
            && r.applicationEmail == Some(p.applicationEmail)
  {
    JobBody(Some(p.title), Some(p.location), Some(p.jobType), Some(p.salaryRange), Some(p.description),
            Some(p.requirements), Some(p.responsibilities), Some(p.benefits), p.expiryDate, Some(p.applicationEmail))
  }

  /** A job posted through the form carries the chosen country in its
      location, whatever company name the form held. */
  lemma PostedJobKeepsCountry(f: PostForm, caller: User, jobs: seq<Job>, now: int)
    requires CreateJob(BodyOf(PayloadOf(f)), caller, jobs, now).reply.Ok?
    ensures var j := CreateJob(BodyOf(PayloadOf(f)), caller, jobs, now).reply.body;
            && Contains(j.location, f.country) && j.companyName == caller.companyName
  {
  }

  // --------------------------------------------------------------- job card

  const PreviewMax: nat := 150

  /** The card's description: up to 150 characters, "..." appended when cut. */
  function Preview(description: string): (r: string)
    ensures |r| <= PreviewMax + 3
    ensures |description| <= PreviewMax ==> r == description
    ensures |description| > PreviewMax ==> |r| == PreviewMax + 3
    ensures |description| > PreviewMax ==> r[..PreviewMax] == description[..PreviewMax] && r[PreviewMax..] == "..."
  {
    if |description| > PreviewMax then description[..PreviewMax] + "..." else description
  }

  /** Where the card's Apply button leads. */
  function ApplyTarget(authenticated: bool, jobId: string): (r: string)
    ensures !authenticated ==> r == "/login"
    ensures authenticated ==> r == "/jobs/" + jobId + "#apply"
  {
    if authenticated then "/jobs/" + jobId + "#apply" else "/login"
  }

  /** The fragment of a URL: from its first '#' on, or "" without one. */
  function Fragment(url: string): (r: string)
    ensures |r| <= |url|
    ensures '#' !in url ==> r == ""
    ensures r != "" ==> r[0] == '#' && r == url[|url| - |r|..]
  {
    if url == [] then ""
    else if url[0] == '#' then url
    else
      var r := Fragment(url[1..]);
      assert r != "" ==> url[|url| - |r|..] == url[1..][|url| - 1 - |r|..];
      r
  }

  lemma {:induction false} FragmentAfter(prefix: string, frag: string)
    requires '#' !in prefix && frag != [] && frag[0] == '#'
    ensures Fragment(prefix + frag) == frag
  {
    if prefix != [] {
      assert (prefix + frag)[1..] == prefix[1..] + frag;
      FragmentAfter(prefix[1..], frag);
    } else {
      assert prefix + frag == frag;
    }
  }

  /** The card's apply link carries the "#apply" fragment the job page
      reacts to, so a logged-in user lands where the apply gate runs. */
  lemma ApplyLinkOpensGate(jobId: string, user: User)
    requires '#' !in jobId
    ensures Fragment(ApplyTarget(true, jobId)) == "#apply"
    ensures ProfilePage.OnLoad(Fragment(ApplyTarget(true, jobId)), Some(user))
         == (if ProfilePage.ApplyClick(Some(user)) == ProfilePage.OpenForm then ProfilePage.AutoOpen
             else ProfilePage.PromptProfile)
  {
    assert '#' !in "/jobs/" + jobId;
    assert ApplyTarget(true, jobId) == ("/jobs/" + jobId) + "#apply";
    FragmentAfter("/jobs/" + jobId, "#apply");
  }
}

=== FILE: profile.dfy ===
/** The job seeker's profile pages: the seven-field completion percentage
    (three copies, in the profile editor, the profile view and the
    dashboard), the checklist and messages shown with it, the apply gate of
    the job details page, the resume and photo file validators, and the
    skill list editor with its autocomplete. */
module ProfilePage {
  import opened Common
  import opened Text
  import opened Schema

  // ------------------------------------------------------------ completion

  /** The seven profile fields the completion indicator counts. */
  datatype Field = Photo | Resume | Country | Bio | EducationField | ExperienceField | SkillsField

  /** The order in which the checklist lists the fields. */
  const Fields: seq<Field> := [Photo, Resume, Country, Bio, EducationField, ExperienceField, SkillsField]

  /** A field is present when the string is truthy or the list non-empty. */
  predicate Present(u: User, f: Field) {
    match f
    case Photo => u.profileImageUrl != ""
    case Resume => u.resumeUrl != ""
    case Country => u.country != ""
    case Bio => u.bio != ""
    case EducationField => |u.education| > 0
    case ExperienceField => |u.experience| > 0
    case SkillsField => |u.skills| > 0
  }

  lemma FieldsComplete(f: Field)
    ensures f in Fields
  {
  }

  /** The number of fields of `fs` present in `u`. */
  function PresentCount(fs: seq<Field>, u: User): (k: nat)
    ensures k <= |fs|
    ensures k == |fs| <==> forall i :: 0 <= i < |fs| ==> Present(u, fs[i])
    ensures k == 0 <==> forall i :: 0 <= i < |fs| ==> !Present(u, fs[i])
  {
    if fs == [] then 0
    else
      assert forall i :: 1 <= i < |fs| ==> fs[i] == fs[1..][i - 1];
      (if Present(u, fs[0]) then 1 else 0) + PresentCount(fs[1..], u)
  }

  /** The fields of `fs` missing from `u`, in order. */
  function MissingOf(fs: seq<Field>, u: User): (r: seq<Field>)
    ensures |r| + PresentCount(fs, u) == |fs|
    ensures forall f :: f in r <==> f in fs && !Present(u, f)
    ensures IsSubsequence(r, fs)
  {
    if fs == [] then []
    else
      var rest := MissingOf(fs[1..], u);
      if Present(u, fs[0]) then
        SubsequenceSkip(rest, fs);
        rest
      else
        assert ([fs[0]] + rest)[1..] == rest;
        [fs[0]] + rest
  }

  /** The number of present fields among the seven. */
  function Completed(u: User): (k: nat)
    ensures k <= 7
    ensures k == 7 <==> forall f: Field :: Present(u, f)
    ensures k == 0 <==> forall f: Field :: !Present(u, f)
  {
    var k := PresentCount(Fields, u);
    forall f: Field ensures k == 7 ==> Present(u, f) {
      FieldsComplete(f);
      var i :| 0 <= i < |Fields| && Fields[i] == f;
    }
    forall f: Field ensures k == 0 ==> !Present(u, f) {
      FieldsComplete(f);
      var i :| 0 <= i < |Fields| && Fields[i] == f;
    }
    k
  }

  /** `Math.round`: the nearest integer, halves rounded up. */
  function Round(x: real): (r: int)
    ensures r as real - 0.5 <= x < r as real + 0.5
  {
    (x + 0.5).Floor
  }

  /** `Math.round((completed / total) * 100)` with total 7. */
  function Percent(k: nat): (r: int)
    requires k <= 7
    ensures 0 <= r <= 100
    ensures r == 100 <==> k == 7
    ensures r == 0 <==> k == 0
  {
    PercentFormula(k);
    Round(k as real / 7.0 * 100.0)
  }

  /** The rounded percentage is the integer (100k + 3) / 7, one of 0, 14,
      29, 43, 57, 71, 86, 100: no count lands on a half. */
  lemma PercentFormula(k: nat)
    requires k <= 7
    ensures Round(k as real / 7.0 * 100.0) == (100 * k + 3) / 7
    ensures Round(k as real / 7.0 * 100.0) == [0, 14, 29, 43, 57, 71, 86, 100][k]
  {
    var x := k as real / 7.0 * 100.0;
    var r := Round(x);
    assert x * 7.0 == 100.0 * k as real;
    assert r as real - 0.5 <= x < r as real + 0.5;
    assert 7 * r - 4 < 100 * k < 7 * r + 4 by {
      assert 7.0 * r as real - 3.5 <= 100.0 * k as real < 7.0 * r as real + 3.5;
    }
  }

  /** The completion percentage of the profile editor and the profile view:
      100 for any role other than job seeker. */
  function Completion(u: User): (r: int)
    ensures 0 <= r <= 100
    ensures u.role != JobSeeker ==> r == 100
    ensures u.role == JobSeeker ==> r == (100 * Completed(u) + 3) / 7
    ensures r == 100 <==> u.role != JobSeeker || forall f: Field :: Present(u, f)
  {
    if u.role != JobSeeker then 100
    else
      PercentFormula(Completed(u));
      Percent(Completed(u))
  }

  /** The outcome of rendering a page: it may crash before its own guard. */
  datatype Render<+T> = Crash | Rendered(value: T)

  /** The profile view computes the percentage before its null-user guard,
      so a missing user crashes the page instead of reaching the guard. */
  function ViewCompletion(u: Option<User>): (r: Render<int>)
    ensures u.None? <==> r.Crash?
    ensures u.Some? ==> r == Rendered(Completion(u.value))
  {
    if u.None? then Crash else Rendered(Completion(u.value))
  }

  /** The dashboard's null-guarded copy: 100 when there is no user. */
  function DashboardCompletion(u: Option<User>): (r: int)
    ensures 0 <= r <= 100
    ensures u.None? ==> r == 100
    ensures u.Some? ==> r == Completion(u.value)
  {
    if u.None? || u.value.role != JobSeeker then 100
    else Percent(Completed(u.value))
  }

  /** The three copies agree on every logged-in user. */
  lemma CompletionCopiesAgree(u: User)
    ensures ViewCompletion(Some(u)) == Rendered(Completion(u))
    ensures DashboardCompletion(Some(u)) == Completion(u)
  {
  }

  /** The checklist line of a missing field. */
  function ItemText(f: Field): string {
    match f
    case Photo => "Upload profile photo"
    case Resume => "Upload resume/CV"
    case Country => "Add your country"
    case Bio => "Write a bio"
    case EducationField => "Add education"
    case ExperienceField => "Add work experience"
    case SkillsField => "Add skills"
  }

  /** The missing fields, in checklist order. */
  function Missing(u: User): (r: seq<Field>)
    ensures |r| == 7 - Completed(u)
    ensures forall f: Field :: f in r <==> !Present(u, f)
    ensures IsSubsequence(r, Fields)
  {
    assert forall f: Field :: f in Fields by {
      forall f: Field ensures f in Fields { FieldsComplete(f); }
    }
    MissingOf(Fields, u)
  }

  /** The completion panel of a job seeker: the "complete" message, or a
      heading over the checklist of missing fields. */
  datatype Panel = CompleteMessage(message: string) | Checklist(heading: string, items: seq<string>)

  /** The two pages word the panel differently. */
  const ViewComplete: string := "Your profile is 100% complete! You can now apply for jobs."
  const ViewHeading: string := "Complete your profile to start applying for jobs:"
  const DashboardComplete: string := "Your profile is complete! Start applying for jobs."
  const DashboardHeading: string := "Complete your profile to unlock all features:"

  /** The panel of the profile view and of the dashboard: shown only to job
      seekers; the message iff the completion is 100, and otherwise one line
      per missing field. */
  function CompletionPanel(u: User): (r: Option<Panel>)
    ensures r.Some? <==> u.role == JobSeeker
    ensures r == Some(CompleteMessage(ViewComplete)) <==> u.role == JobSeeker && Completion(u) == 100
    ensures r.Some? && r.value.Checklist? ==> r.value.heading == ViewHeading
    ensures r.Some? && r.value.Checklist? ==> |r.value.items| == 7 - Completed(u) > 0
    ensures r.Some? && r.value.Checklist? ==> IsSubsequence(r.value.items, Map(Fields, ItemText))
    ensures r.Some? && r.value.Checklist? ==>
              forall f: Field :: ItemText(f) in r.value.items <==> !Present(u, f)
  {
    if u.role != JobSeeker then None
    else if Completion(u) == 100 then Some(CompleteMessage(ViewComplete))
    else Some(Checklist(ViewHeading, ChecklistOf(u)))
  }

  /** One checklist line per missing field, in checklist order. */
  function ChecklistOf(u: User): (r: seq<string>)
    ensures |r| == 7 - Completed(u)
    ensures forall f: Field :: ItemText(f) in r <==> !Present(u, f)
    ensures IsSubsequence(r, Map(Fields, ItemText))
  {
    ItemTextsOf(Missing(u));
    ItemTextsInOrder(Missing(u), Fields);
    Map(Missing(u), ItemText)
  }

  /** Lines of fields in checklist order come in checklist order. */
  lemma {:induction false} ItemTextsInOrder(xs: seq<Field>, ys: seq<Field>)
    requires IsSubsequence(xs, ys)
    ensures IsSubsequence(Map(xs, ItemText), Map(ys, ItemText))
    decreases |ys|
  {
    if xs != [] {
      var mx, my := Map(xs, ItemText), Map(ys, ItemText);
      assert my[1..] == Map(ys[1..], ItemText);
      if xs[0] == ys[0] {
        assert mx[1..] == Map(xs[1..], ItemText);
        ItemTextsInOrder(xs[1..], ys[1..]);
      } else {
        ItemTextInjective(xs[0], ys[0]);
        ItemTextsInOrder(xs, ys[1..]);
      }
    }
  }

  /** The line of a field appears among the lines of `fs` iff the field is in `fs`. */
  lemma ItemTextsOf(fs: seq<Field>)
    ensures forall f: Field :: ItemText(f) in Map(fs, ItemText) <==> f in fs
  {
    var items := Map(fs, ItemText);
    forall f: Field
      ensures ItemText(f) in items <==> f in fs
    {
      if ItemText(f) in items {
        var i :| 0 <= i < |items| && items[i] == ItemText(f);
        ItemTextInjective(f, fs[i]);
      }
      if f in fs {
        var i :| 0 <= i < |fs| && fs[i] == f;
        assert items[i] == ItemText(f);
      }
    }
  }

  /** The dashboard's "Profile Strength" card: shown to job seekers only,
      with the message iff the null-guarded percentage is 100. */
  function DashboardPanel(u: User): (r: Option<Panel>)
    ensures r.Some? <==> u.role == JobSeeker
    ensures r == Some(CompleteMessage(DashboardComplete)) <==>
              u.role == JobSeeker && DashboardCompletion(Some(u)) == 100
    ensures r.Some? && r.value.Checklist? ==> r.value.heading == DashboardHeading
    ensures r.Some? && r.value.Checklist? ==> |r.value.items| == 7 - Completed(u) > 0
    ensures r.Some? && r.value.Checklist? ==> IsSubsequence(r.value.items, Map(Fields, ItemText))
    ensures r.Some? && r.value.Checklist? ==>
              forall f: Field :: ItemText(f) in r.value.items <==> !Present(u, f)
  {
    if u.role != JobSeeker then None
    else if DashboardCompletion(Some(u)) == 100 then Some(CompleteMessage(DashboardComplete))
    else Some(Checklist(DashboardHeading, ChecklistOf(u)))
  }

  /** The dashboard and the profile view make the same decision: the same
      users see a card, the same users see the complete message, and the
      checklists hold the same lines in the same order. Only the wording of
      the message and of the heading differs. */
  lemma PanelsAgree(u: User)
    ensures DashboardPanel(u).Some? <==> CompletionPanel(u).Some?
    ensures DashboardPanel(u).Some? ==>
              && (DashboardPanel(u).value.CompleteMessage? <==> CompletionPanel(u).value.CompleteMessage?)
              && (DashboardPanel(u).value.Checklist? ==> DashboardPanel(u).value.items == CompletionPanel(u).value.items)
    ensures DashboardPanel(u).Some? ==> DashboardPanel(u) != CompletionPanel(u)
  {
    assert ViewComplete[16] != DashboardComplete[16];
    assert ViewHeading[30] != DashboardHeading[30];
  }

  lemma ItemTextInjective(f: Field, g: Field)
    ensures ItemText(f) == ItemText(g) ==> f == g
  {
  }

  // --------------------------------------------------------- profile view

  /** The role line under the name: any role name other than job_seeker and
      employer reads "Administrator". */
  function RoleLabel(role: string): (r: string)
    ensures r == "Job Seeker" <==> role == "job_seeker"
    ensures r == "Employer" <==> role == "employer"
    ensures r == "Administrator" <==> role != "job_seeker" && role != "employer"
  {
    if role == "job_seeker" then "Job Seeker"
    else if role == "employer" then "Employer"
    else "Administrator"
  }

  /** The three stored roles get three different labels. */
  lemma RoleLabelsDistinct(a: Role, b: Role)
    requires a != b
    ensures RoleLabel(RoleName(a)) != RoleLabel(RoleName(b))
  {
  }

  /** The role line with its " at <company>" suffix when a company name is set. */
  function RoleLine(u: User): (r: string)
    ensures u.companyName == "" ==> r == RoleLabel(RoleName(u.role))
    ensures u.companyName != "" ==> r == RoleLabel(RoleName(u.role)) + " at " + u.companyName
  {
    RoleLabel(RoleName(u.role)) + (if u.companyName != "" then " at " + u.companyName else "")
  }

  const Bullet: string := " \U{2022} "

  /** The education line: degree and field, the non-empty ones joined by a
      bullet, or the placeholder when both are empty. */
  function EducationLine(e: Education): (r: string)
    ensures e.degree == "" && e.field == "" ==> r == "Degree / Field"
    ensures e.degree != "" && e.field == "" ==> r == e.degree
    ensures e.degree == "" && e.field != "" ==> r == e.field
    ensures e.degree != "" && e.field != "" ==> r == e.degree + Bullet + e.field
    ensures r != ""
  {
    var parts := Filter([e.degree, e.field], (s: string) => s != "");
    var joined := Join(parts, Bullet);
    if joined != "" then joined else "Degree / Field"
  }

  /** `parts.join(sep)`. */
  function Join(parts: seq<string>, sep: string): (r: string)
    ensures parts == [] ==> r == ""
    ensures |parts| == 1 ==> r == parts[0]
    ensures |parts| == 2 ==> r == parts[0] + sep + parts[1]
  {
    if parts == [] then ""
    else if |parts| == 1 then parts[0]
    else parts[0] + sep + Join(parts[1..], sep)
  }

  // ------------------------------------------------------------ apply gate

  /** What a click on "Apply" does. */
  datatype ApplyOutcome = GoToLogin | AskForPhoto | AskForResume | AskForBasics | OpenForm

  /** The four fields the apply gate requires of a job seeker. */
  predicate ReadyToApply(u: User) {
    u.profileImageUrl != "" && u.resumeUrl != "" && u.country != "" && u.bio != ""
  }

  /** `handleApplyClick`: logged-out users go to login; job seekers are
      checked for a photo, then a resume, then country and bio; everyone
      else opens the form directly. */
  function ApplyClick(user: Option<User>): (r: ApplyOutcome)
    ensures r == GoToLogin <==> user.None?
    ensures r == OpenForm <==> user.Some? && (user.value.role != JobSeeker || ReadyToApply(user.value))
    ensures r == AskForPhoto <==> user.Some? && user.value.role == JobSeeker && user.value.profileImageUrl == ""
    ensures r == AskForResume <==>
              user.Some? && user.value.role == JobSeeker && user.value.profileImageUrl != "" && user.value.resumeUrl == ""
    ensures r == AskForBasics <==>
              && user.Some? && user.value.role == JobSeeker && user.value.profileImageUrl != ""
              && user.value.resumeUrl != "" && (user.value.country == "" || user.value.bio == "")
  {
    if user.None? then GoToLogin
    else
      var u := user.value;
      if u.role == JobSeeker then
        if u.profileImageUrl == "" then AskForPhoto
        else if u.resumeUrl == "" then AskForResume
        else if u.country == "" || u.bio == "" then AskForBasics
        else OpenForm
      else OpenForm
  }

  /** A complete profile always passes the gate. */
  lemma CompleteProfileMayApply(u: User)
    requires Completion(u) == 100
    ensures ApplyClick(Some(u)) == OpenForm
  {
    if u.role == JobSeeker {
      assert Present(u, Photo) && Present(u, Resume) && Present(u, Country) && Present(u, Bio);
    }
  }

  /** The gate is strictly weaker than a complete profile: education,
      experience and skills are not required. */
  lemma GateWeakerThanCompletion(u: User)
    requires u.role == JobSeeker && ReadyToApply(u) && u.skills == []
    ensures ApplyClick(Some(u)) == OpenForm
    ensures Completion(u) < 100
  {
    assert !Present(u, SkillsField);
  }

  /** What the job page does when it loads. */
  datatype LoadOutcome = Stay | PromptProfile | AutoOpen

  /** The `#apply` auto-open: only for a logged-in user, and for job
      seekers only when the four gate fields are present. */
  function OnLoad(hash: string, user: Option<User>): (r: LoadOutcome)
    ensures hash != "#apply" || user.None? ==> r == Stay
    ensures r == AutoOpen <==> hash == "#apply" && ApplyClick(user) == OpenForm
    ensures r == PromptProfile <==> hash == "#apply" && ApplyClick(user) in {AskForPhoto, AskForResume, AskForBasics}
  {
    if hash == "#apply" && user.Some? then
      if user.value.role == JobSeeker && !ReadyToApply(user.value) then PromptProfile
      else AutoOpen
    else Stay
  }

  // ------------------------------------------------------- file validators

  /** A selected file: its MIME type and size in bytes. */
  datatype File = File(mimeType: string, size: nat)

  const PdfType: string := "application/pdf"
  const DocType: string := "application/msword"
  const DocxType: string := "application/vnd.openxmlformats-officedocument.wordprocessingml.document"
  const ResumeTypes: seq<string> := [PdfType, DocType, DocxType]
  const ResumeMaxBytes: nat := 5 * 1024 * 1024

  const PhotoTypes: seq<string> := ["image/jpeg", "image/jpg", "image/png", "image/webp"]
  const PhotoMaxBytes: nat := 2 * 1024 * 1024

  /** The verdict of a validator; the type is checked before the size. */
  datatype Check = WrongType | TooLarge | Passes

  function Validate(f: File, types: seq<string>, maxBytes: nat): (r: Check)
    ensures r == Passes <==> f.mimeType in types && f.size <= maxBytes
    ensures r == WrongType <==> f.mimeType !in types
    ensures r == TooLarge <==> f.mimeType in types && f.size > maxBytes
  {
    if f.mimeType !in types then WrongType
    else if f.size > maxBytes then TooLarge
    else Passes
  }

  /** The resume check shared by the profile editor, the application form
      and the resume upload page. */
  function CheckResume(f: File): (r: Check)
    ensures r == Passes <==> (f.mimeType == PdfType || f.mimeType == DocType || f.mimeType == DocxType)
                                 && f.size <= 5242880
  {
    Validate(f, ResumeTypes, ResumeMaxBytes)
  }

  /** The profile photo check. */
  function CheckPhoto(f: File): (r: Check)
    ensures r == Passes <==> f.mimeType in {"image/jpeg", "image/jpg", "image/png", "image/webp"}
                                 && f.size <= 2097152
  {
    Validate(f, PhotoTypes, PhotoMaxBytes)
  }

  /** The bound is inclusive: exactly 5 MiB passes, one byte more does not. */
  lemma ResumeBoundary(t: string)
    requires t in ResumeTypes
    ensures CheckResume(File(t, 5 * 1024 * 1024)) == Passes
    ensures CheckResume(File(t, 5 * 1024 * 1024 + 1)) == TooLarge
  {
  }

  /** The application form of the job details page. */
  datatype ApplicationForm = ApplicationForm(coverLetter: string, resume: Option<File>)

  /** `handleFileChange` of the job page: a rejected or absent file leaves the
      form as it was; an accepted one replaces the resume and nothing else. */
  function ApplicationFileChange(form: ApplicationForm, file: Option<File>): (r: ApplicationForm)
    ensures r.coverLetter == form.coverLetter
    ensures r != form ==> file.Some? && CheckResume(file.value) == Passes
    ensures file.Some? && CheckResume(file.value) == Passes ==> r.resume == file
    ensures file.None? || CheckResume(file.value) != Passes ==> r == form
  {
    if file.Some? && CheckResume(file.value) == Passes then form.(resume := file) else form
  }

  /** Submitting the application form. */
  datatype Submission = NeedResume | Send(coverLetter: string, resume: File)

  function SubmitApplication(form: ApplicationForm): (r: Submission)
    ensures r == NeedResume <==> form.resume.None?
    ensures r.Send? ==> r.resume == form.resume.value && r.coverLetter == form.coverLetter
  {
    match form.resume
    case None => NeedResume
    case Some(f) => Send(form.coverLetter, f)
  }

  /** A resume accepted by the file picker can always be submitted. */
  lemma AcceptedResumeSubmits(form: ApplicationForm, f: File)
    requires CheckResume(f) == Passes
    ensures SubmitApplication(ApplicationFileChange(form, Some(f))) == Send(form.coverLetter, f)
  {
  }

  /** The form of the resume upload page. */
  datatype UploadForm = UploadForm(fullName: string, email: string, phone: string, country: string,
                                   city: string, professionalTitle: string, yearsExperience: string,
                                   resume: Option<File>)

  /** `handleFileChange` of the upload page: on rejection the form is
      unchanged; on acceptance only `resume` changes. */
  function UploadFileChange(form: UploadForm, file: Option<File>): (r: UploadForm)
    ensures file.None? || CheckResume(file.value) != Passes ==> r == form
    ensures file.Some? && CheckResume(file.value) == Passes ==> r.resume == file
    ensures && r.fullName == form.fullName && r.email == form.email && r.phone == form.phone
            && r.country == form.country && r.city == form.city
            && r.professionalTitle == form.professionalTitle && r.yearsExperience == form.yearsExperience
  {
    if file.Some? && CheckResume(file.value) == Passes then form.(resume := file) else form
  }

  // ---------------------------------------------------------- skill editor

  /** The skills offered by the autocomplete. */
  const CommonSkills: seq<string> := [
    "JavaScript", "Python", "Java", "C++", "C#", "PHP", "Ruby", "Swift", "Kotlin", "TypeScript",
    "Go", "Rust", "Scala", "R", "MATLAB", "Perl", "HTML", "CSS", "SQL", "React", "Angular",
    "Vue.js", "Node.js", "Express.js", "Django", "Flask", "Spring Boot", "Laravel",
    "Ruby on Rails", "ASP.NET", "Next.js", "Nuxt.js", "jQuery", "Bootstrap", "Tailwind CSS",
    "MongoDB", "MySQL", "PostgreSQL", "SQLite", "Oracle", "Redis", "Cassandra", "DynamoDB",
    "Firebase", "Elasticsearch", "AWS", "Azure", "Google Cloud", "Docker", "Kubernetes", "Jenkins",
    "Git", "GitHub", "GitLab", "CI/CD", "Terraform", "Ansible", "Linux", "Nginx", "Apache",
    "Machine Learning", "Deep Learning", "TensorFlow", "PyTorch", "Scikit-learn", "Pandas",
    "NumPy", "Data Analysis", "Data Visualization", "NLP", "Computer Vision", "Big Data",
    "React Native", "Flutter", "iOS Development", "Android Development", "Xamarin", "UI/UX Design",
    "Figma", "Adobe XD", "Sketch", "Photoshop", "Illustrator", "InDesign", "Wireframing",
    "Prototyping", "Graphic Design", "Project Management", "Agile", "Scrum", "Kanban",
    "Product Management", "Business Analysis", "Strategic Planning", "Leadership",
    "Team Management", "Stakeholder Management", "Digital Marketing", "SEO", "SEM",
    "Content Marketing", "Social Media Marketing", "Email Marketing", "Google Analytics",
    "Marketing Strategy", "Sales", "CRM", "Financial Analysis", "Accounting", "Budgeting",
    "Financial Modeling", "Excel", "QuickBooks", "SAP", "Auditing", "Tax Preparation",
    "Communication", "Problem Solving", "Critical Thinking", "Teamwork", "Time Management",
    "Adaptability", "Creativity", "Attention to Detail", "Customer Service", "Negotiation",
    "Public Speaking", "Writing", "Research", "Cybersecurity", "Network Administration",
    "IT Support", "Quality Assurance", "Testing", "REST API", "GraphQL", "Microservices",
    "Blockchain", "IoT", "AR/VR"
  ]

  const MaxSuggestions: nat := 10

  /** A common skill is offered when it contains the raw input (both
      lower-cased) and the profile does not list it yet. */
  predicate Offered(skill: string, profileSkills: seq<string>, input: string) {
    Contains(Lower(skill), Lower(input)) && skill !in profileSkills
  }

  /** `handleSkillInputChange`: no suggestions for blank input, otherwise
      the first ten offered skills, in list order: an offered skill left
      out comes after every suggestion. */
  function Suggestions(common: seq<string>, profileSkills: seq<string>, input: string): (r: seq<string>)
    ensures Trim(input) == "" ==> r == []
    ensures |r| <= MaxSuggestions
    ensures IsSubsequence(r, common)
    ensures forall i :: 0 <= i < |r| ==> Offered(r[i], profileSkills, input)
    ensures Trim(input) != "" && |r| < MaxSuggestions ==>
              forall s :: s in common && Offered(s, profileSkills, input) ==> s in r
    ensures Trim(input) != "" ==>
              forall k :: 0 <= k < |common| && Offered(common[k], profileSkills, input) && common[k] !in r ==>
                IsSubsequence(r, common[..k])
  {
    if Trim(input) == "" then []
    else
      SuggestionsFacts(common, profileSkills, input);
      Take(Filter(common, OfferedTo(profileSkills, input)), MaxSuggestions)
  }

  /** The first ten offered skills, in list order, are offered skills of
      the list, and all of them when fewer than ten are kept. */
  lemma SuggestionsFacts(common: seq<string>, profileSkills: seq<string>, input: string)
    ensures var r := Take(Filter(common, OfferedTo(profileSkills, input)), MaxSuggestions);
            && IsSubsequence(r, common)
            && (forall i :: 0 <= i < |r| ==> Offered(r[i], profileSkills, input))
            && (|r| < MaxSuggestions ==> forall s :: s in common && Offered(s, profileSkills, input) ==> s in r)
            && forall k :: 0 <= k < |common| && Offered(common[k], profileSkills, input) && common[k] !in r ==>
                 IsSubsequence(r, common[..k])
  {
    var offered := Filter(common, OfferedTo(profileSkills, input));
    var r := Take(offered, MaxSuggestions);
    FilterIsSubsequence(common, OfferedTo(profileSkills, input));
    PrefixIsSubsequence(r, offered, common);
    SuggestionsFirst(common, profileSkills, input);
    forall i | 0 <= i < |r|
      ensures Offered(r[i], profileSkills, input)
    {
      assert r[i] == offered[i];
    }
    if |r| < MaxSuggestions {
      assert r == offered;
      forall s | s in common && Offered(s, profileSkills, input)
        ensures s in r
      {
        var j :| 0 <= j < |common| && common[j] == s;
        assert OfferedTo(profileSkills, input)(common[j]);
      }
    }
  }

  /** The ten kept are the first ten offered. */
  lemma SuggestionsFirst(common: seq<string>, profileSkills: seq<string>, input: string)
    ensures var r := Take(Filter(common, OfferedTo(profileSkills, input)), MaxSuggestions);
            forall k :: 0 <= k < |common| && Offered(common[k], profileSkills, input) && common[k] !in r ==>
              IsSubsequence(r, common[..k])
  {
    var r := Take(Filter(common, OfferedTo(profileSkills, input)), MaxSuggestions);
    forall k | 0 <= k < |common| && Offered(common[k], profileSkills, input) && common[k] !in r
      ensures IsSubsequence(r, common[..k])
    {
      TakeFilterIsFirst(common, OfferedTo(profileSkills, input), MaxSuggestions, k);
    }
  }

  function OfferedTo(profileSkills: seq<string>, input: string): string -> bool {
    (skill: string) => Offered(skill, profileSkills, input)
  }

  lemma {:induction false} PrefixIsSubsequence<T>(r: seq<T>, s: seq<T>, t: seq<T>)
    requires r <= s && IsSubsequence(s, t)
    ensures IsSubsequence(r, t)
    decreases |t|
  {
    if r != [] {
      assert s != [] && r[0] == s[0];
      if t[0] == s[0] {
        assert IsSubsequence(s[1..], t[1..]);
        PrefixIsSubsequence(r[1..], s[1..], t[1..]);
      } else {
        assert IsSubsequence(s, t[1..]);
        PrefixIsSubsequence(r, s, t[1..]);
        SubsequenceSkip(r, t);
      }
    }
  }

  /** The suggestions of the page's own skill list. */
  function SkillInputChange(profileSkills: seq<string>, input: string): (r: seq<string>)
    ensures |r| <= MaxSuggestions && IsSubsequence(r, CommonSkills)
  {
    Suggestions(CommonSkills, profileSkills, input)
  }

  /** `handleAddSkill`: the chosen suggestion or else the trimmed input is
      appended unless it is empty or already listed (exact comparison). */
  function AddSkill(skills: seq<string>, chosen: string, input: string): (r: seq<string>)
    ensures var s := if chosen != "" then chosen else Trim(input);
            && (s != "" && s !in skills ==> r == skills + [s])
            && (s == "" || s in skills ==> r == skills)
    ensures r[..|skills|] == skills && |r| <= |skills| + 1
  {
    var s := if chosen != "" then chosen else Trim(input);
    if s != "" && s !in skills then skills + [s] else skills
  }

  predicate NoDuplicates<T(==)>(s: seq<T>) {
    forall i, j :: 0 <= i < j < |s| ==> s[i] != s[j]
  }

  /** Adding never introduces a duplicate. */
  lemma AddSkillKeepsDistinct(skills: seq<string>, chosen: string, input: string)
    requires NoDuplicates(skills)
    ensures NoDuplicates(AddSkill(skills, chosen, input))
  {
  }

  /** `handleRemoveSkill`: keeps every element whose index differs from `i`. */
  function RemoveSkill<T>(skills: seq<T>, i: int): (r: seq<T>)
    ensures 0 <= i < |skills| ==> r == skills[..i] + skills[i + 1..]
    ensures !(0 <= i < |skills|) ==> r == skills
    decreases |skills|
  {
    if skills == [] then []
    else
      var rest := RemoveSkill(skills[1..], i - 1);
      if i == 0 then rest else [skills[0]] + rest
  }

  /** Removing the skill just added restores the list. */
  lemma AddThenRemove(skills: seq<string>, chosen: string, input: string)
    ensures RemoveSkill(AddSkill(skills, chosen, input), |skills|) == skills
  {
    var r := AddSkill(skills, chosen, input);
    if |r| == |skills| + 1 {
      assert r[..|skills|] == skills;
    }
  }
}

=== FILE: schema.dfy ===
/** The four document schemas of the backend (users, jobs, applications,
    team members): their enums, defaults, required fields and bounds, and
    the constructors that apply Mongoose's defaults and validators when a
    document is created. Ids stand for ObjectIds; times are milliseconds. */
module Schema {
  import opened Common
  import opened Text

  type Id = nat

  // ---------------------------------------------------------------- users

  datatype Role = JobSeeker | Employer | Admin

  function RoleName(r: Role): string {
    match r
    case JobSeeker => "job_seeker"
    case Employer => "employer"
    case Admin => "admin"
  }

  /** The role enum check: a string names a role iff it is one of the three names. */
  function ParseRole(s: string): (r: Option<Role>)
    ensures forall role :: r == Some(role) <==> RoleName(role) == s
  {
    if s == "job_seeker" then Some(JobSeeker)
    else if s == "employer" then Some(Employer)
    else if s == "admin" then Some(Admin)
    else None
  }

  const DefaultRole: Role := JobSeeker

  datatype Education = Education(school: string, degree: string, field: string, startYear: string, endYear: string)

  datatype Experience = Experience(company: string, position: string, location: string,
                                   startDate: string, endDate: string, description: string)

  /** A user document. Optional strings that were never set are "". The
      password field holds the stored (hashed) value. */
  datatype User = User(
    id: Id,
    name: string,
    email: string,
    password: string,
    role: Role,
    companyName: string,
    country: string,
    bio: string,
    profileImageUrl: string,
    profileImagePublicId: string,
    resumeUrl: string,
    education: seq<Education>,
    experience: seq<Experience>,
    skills: seq<string>,
    createdAt: int)

  function UserIdOf(u: User): Id { u.id }

  const BioMax: nat := 300

  /** The user schema's validators: name, email and password are required,
      companyName is required exactly for employers, the bio has at most 300 characters. */
  predicate ValidUser(u: User) {
    && u.name != "" && u.email != "" && u.password != ""
    && (u.role == Employer ==> u.companyName != "")
    && |u.bio| <= BioMax
  }

  predicate HasEmail(users: seq<User>, email: string) {
    exists i :: 0 <= i < |users| && users[i].email == email
  }

  predicate HasUserId(users: seq<User>, id: Id) {
    exists i :: 0 <= i < |users| && users[i].id == id
  }

  /** The user collection: every document valid, ids and emails unique. */
  predicate ValidUsers(users: seq<User>) {
    && (forall i :: 0 <= i < |users| ==> ValidUser(users[i]))
    && (forall i, j :: 0 <= i < j < |users| ==> users[i].id != users[j].id)
    && (forall i, j :: 0 <= i < j < |users| ==> users[i].email != users[j].email)
  }

  // ----------------------------------------------------------------- jobs

  datatype JobType = FullTime | PartTime | Contract | Internship | Remote

  function JobTypeName(t: JobType): string {
    match t
    case FullTime => "Full-Time"
    case PartTime => "Part-Time"
    case Contract => "Contract"
    case Internship => "Internship"
    case Remote => "Remote"
  }

  /** The jobType enum check. */
  function ParseJobType(s: string): (r: Option<JobType>)
    ensures forall t :: r == Some(t) <==> JobTypeName(t) == s
  {
    if s == "Full-Time" then Some(FullTime)
    else if s == "Part-Time" then Some(PartTime)
    else if s == "Contract" then Some(Contract)
    else if s == "Internship" then Some(Internship)
    else if s == "Remote" then Some(Remote)
    else None
  }

  const DefaultJobType: JobType := FullTime
  const DefaultSalaryRange: string := "Competitive"

  datatype Job = Job(
    id: Id,
    title: string,
    companyName: string,
    company: Id,
    location: string,
    jobType: JobType,
    salaryRange: string,
    description: string,
    requirements: string,
    responsibilities: string,
    benefits: string,
    expiryDate: Option<int>,
    applicationEmail: string,
    postedBy: Id,
    isApproved: bool,
    createdAt: int)

  function JobIdOf(j: Job): Id { j.id }

  /** The job schema's required fields (title is stored trimmed). */
  predicate ValidJob(j: Job) {
    && j.title != "" && Trim(j.title) == j.title
    && j.companyName != "" && j.location != "" && j.description != ""
    && j.expiryDate.Some?
  }

  /** The `isExpired` virtual: an expiry date is set and `now` is past it. */
  function IsExpired(j: Job, now: int): (r: bool)
    ensures r <==> j.expiryDate.Some? && j.expiryDate.value < now
    ensures j.expiryDate.Some? && j.expiryDate.value == now ==> !r
  {
    j.expiryDate.Some? && now > j.expiryDate.value
  }

  /** Creates a job document: applies the jobType, salaryRange and
      isApproved defaults, trims the title, and fails validation (None) when
      a required field is missing or jobType is outside the enum. */
  function NewJob(id: Id, title: string, companyName: string, company: Id, location: string,
                  jobType: Option<string>, salaryRange: Option<string>, description: string,
                  requirements: string, responsibilities: string, benefits: string,
                  expiryDate: Option<int>, applicationEmail: string, postedBy: Id, now: int): (r: Option<Job>)
    ensures r.Some? ==> ValidJob(r.value) && r.value.isApproved && r.value.createdAt == now
    ensures r.Some? ==> r.value.postedBy == postedBy && r.value.company == company && r.value.id == id
    ensures r.Some? ==> r.value.title == Trim(title)
    ensures r.Some? ==> && r.value.companyName == companyName && r.value.location == location
                        && r.value.description == description && r.value.requirements == requirements
                        && r.value.responsibilities == responsibilities && r.value.benefits == benefits
                        && r.value.expiryDate == expiryDate && r.value.applicationEmail == applicationEmail
    ensures r.Some? && jobType.None? ==> r.value.jobType == DefaultJobType
    ensures r.Some? && jobType.Some? ==> JobTypeName(r.value.jobType) == jobType.value
    ensures r.Some? && salaryRange.None? ==> r.value.salaryRange == DefaultSalaryRange
    ensures r.Some? && salaryRange.Some? ==> r.value.salaryRange == salaryRange.value
    ensures r.None? <==> (|| (jobType.Some? && ParseJobType(jobType.value).None?)
                          || Trim(title) == "" || companyName == "" || location == ""
                          || description == "" || expiryDate.None?)
  {
    var t := if jobType.None? then Some(DefaultJobType) else ParseJobType(jobType.value);
    var title' := Trim(title);
    TrimIdempotent(title);
    if t.None? || title' == "" || companyName == "" || location == "" || description == "" || expiryDate.None? then None
    else Some(Job(id, title', companyName, company, location, t.value, salaryRange.GetOr(DefaultSalaryRange),
                  description, requirements, responsibilities, benefits, expiryDate, applicationEmail,
                  postedBy, true, now))
  }

  lemma TrimIdempotent(s: string)
    ensures Trim(Trim(s)) == Trim(s)
  {
    var t := Trim(s);
    if t != [] {
      assert TrimStart(t) == t;
      assert TrimEnd(t) == t;
    } else {
      assert TrimStart(t) == t;
    }
  }

  // --------------------------------------------------------- applications

  datatype Status = Pending | Reviewed | Shortlisted | Rejected | Accepted

  function StatusName(s: Status): string {
    match s
    case Pending => "pending"
    case Reviewed => "reviewed"
    case Shortlisted => "shortlisted"
    case Rejected => "rejected"
    case Accepted => "accepted"
  }

  /** The status enum check (the same five names the status handler accepts). */
  function ParseStatus(s: string): (r: Option<Status>)
    ensures forall st :: r == Some(st) <==> StatusName(st) == s
  {
    if s == "pending" then Some(Pending)
    else if s == "reviewed" then Some(Reviewed)
    else if s == "shortlisted" then Some(Shortlisted)
    else if s == "rejected" then Some(Rejected)
    else if s == "accepted" then Some(Accepted)
    else None
  }

  const DefaultStatus: Status := Pending

  datatype Application = Application(
    id: Id,
    job: Id,
    applicant: Id,
    coverLetter: string,
    resumeUrl: string,
    resumePublicId: string,
    status: Status,
    appliedAt: int,
    createdAt: int)

  function AppIdOf(a: Application): Id { a.id }

  /** Required fields: job and applicant are typed ids; resumeUrl must be non-empty. */
  predicate ValidApplication(a: Application) {
    a.resumeUrl != ""
  }

  /** The compound unique index on (job, applicant). */
  predicate UniquePairs(apps: seq<Application>) {
    forall i, j :: 0 <= i < j < |apps| ==> (apps[i].job, apps[i].applicant) != (apps[j].job, apps[j].applicant)
  }

  predicate HasPair(apps: seq<Application>, job: Id, applicant: Id) {
    exists i :: 0 <= i < |apps| && apps[i].job == job && apps[i].applicant == applicant
  }

  /** The application collection: valid documents, unique ids, unique (job, applicant). */
  predicate ValidApplications(apps: seq<Application>) {
    && (forall i :: 0 <= i < |apps| ==> ValidApplication(apps[i]))
    && (forall i, j :: 0 <= i < j < |apps| ==> apps[i].id != apps[j].id)
    && UniquePairs(apps)
  }

  /** Creates an application document: status defaults to pending and
      appliedAt to the creation time; a missing resume URL fails validation. */
  function NewApplication(id: Id, job: Id, applicant: Id, coverLetter: string,
                          resumeUrl: string, resumePublicId: string, now: int): (r: Option<Application>)
    ensures r.Some? <==> resumeUrl != ""
    ensures r.Some? ==> r.value.status == DefaultStatus && r.value.appliedAt == now && r.value.createdAt == now
    ensures r.Some? ==> ValidApplication(r.value) && r.value.job == job && r.value.applicant == applicant && r.value.id == id
    ensures r.Some? ==> && r.value.coverLetter == coverLetter && r.value.resumeUrl == resumeUrl
                        && r.value.resumePublicId == resumePublicId
  {
    if resumeUrl == "" then None
    else Some(Application(id, job, applicant, coverLetter, resumeUrl, resumePublicId, DefaultStatus, now, now))
  }

  // --------------------------------------------------------- team members

  datatype TeamMember = TeamMember(
    id: Id,
    name: string,
    role: string,
    bio: string,
    photoUrl: string,
    linkedIn: string,
    github: string,
    twitter: string,
    order: int,
    isActive: bool,
    createdAt: int)

  function MemberIdOf(m: TeamMember): Id { m.id }

  const TeamBioMax: nat := 500

  /** The team member schema: name and role required and stored trimmed, bio at most 500 characters. */
  predicate ValidMember(m: TeamMember) {
    && m.name != "" && Trim(m.name) == m.name
    && m.role != "" && Trim(m.role) == m.role
    && |m.bio| <= TeamBioMax
  }

  /** Saves a team member document: trims name and role, then checks the
      validators; None is a validation error. */
  function SaveMember(m: TeamMember): (r: Option<TeamMember>)
    ensures r.Some? ==> ValidMember(r.value)
    ensures r.Some? ==> r.value == m.(name := Trim(m.name), role := Trim(m.role))
    ensures r.None? <==> Trim(m.name) == "" || Trim(m.role) == "" || |m.bio| > TeamBioMax
  {
    TrimIdempotent(m.name);
    TrimIdempotent(m.role);
    var t := m.(name := Trim(m.name), role := Trim(m.role));
    if t.name == "" || t.role == "" || |t.bio| > TeamBioMax then None else Some(t)
  }

  /** Creates a team member document: bio, photoUrl, linkedIn, github and
      twitter default to "", order to 0, isActive to true. */
  function NewMember(id: Id, name: string, role: string, bio: Option<string>, photoUrl: string,
                     linkedIn: Option<string>, github: Option<string>, twitter: Option<string>,
                     order: int, now: int): (r: Option<TeamMember>)
    ensures r.Some? ==> ValidMember(r.value) && r.value.isActive && r.value.id == id
    ensures r.Some? ==> r.value.bio == bio.GetOr("") && r.value.linkedIn == linkedIn.GetOr("")
    ensures r.Some? ==> r.value.github == github.GetOr("") && r.value.twitter == twitter.GetOr("")
    ensures r.Some? ==> r.value.order == order && r.value.photoUrl == photoUrl
    ensures r.None? <==> Trim(name) == "" || Trim(role) == "" || |bio.GetOr("")| > TeamBioMax
  {
    SaveMember(TeamMember(id, name, role, bio.GetOr(""), photoUrl, linkedIn.GetOr(""),
                          github.GetOr(""), twitter.GetOr(""), order, true, now))
  }
}

=== FILE: scorer.dfy ===
/** The heuristic job matcher behind the AI-match endpoint: a character
    filter tokenizer, four sub-scores (skill overlap, country substring,
    linear recency decay, a "remote" hint), their fixed-weight sum rounded
    to four decimals, a stable descending sort and a top-20 cut. Scores are
    exact reals; the clock is the parameter `now` (milliseconds). */
module Scorer {
  import opened Common
  import opened Text
  import opened Sorting
  import opened Schema

  const SkillsWeight: real := 0.6
  const LocationWeight: real := 0.2
  const RecencyWeight: real := 0.15
  const JobTypeWeight: real := 0.05

  const MsPerDay: int := 1000 * 60 * 60 * 24
  /** The recency score falls linearly to 0 over this many days. */
  const RecencyDays: int := 30
  /** The candidate query keeps at most this many jobs. */
  const FetchLimit: nat := 200
  /** The reply keeps at most this many matches. */
  const ResultLimit: nat := 20

  // ------------------------------------------------------------ tokenizer

  /** The characters a token may contain: a-z, 0-9, '+', '#', '.', '-'. */
  predicate TokenChar(c: char) {
    IsLowerLetter(c) || '0' <= c <= '9' || c == '+' || c == '#' || c == '.' || c == '-'
  }

  /** One character of `text.toLowerCase()` followed by the replacement of
      every character outside the token alphabet and `\s` by a space. */
  function NormChar(c: char): (r: char)
    ensures TokenChar(r) || IsSpace(r)
    ensures TokenChar(LowerChar(c)) ==> r == LowerChar(c)
    ensures IsSpace(r) <==> !TokenChar(LowerChar(c))
  {
    var l := LowerChar(c);
    if TokenChar(l) || IsSpace(l) then l else ' '
  }

  function Normalize(s: string): (r: string)
    ensures |r| == |s|
    ensures forall i :: 0 <= i < |s| ==> r[i] == NormChar(s[i])
  {
    if s == [] then [] else [NormChar(s[0])] + Normalize(s[1..])
  }

  lemma NormalizeAppend(a: string, b: string)
    ensures Normalize(a + b) == Normalize(a) + Normalize(b)
  {
    assert forall i :: 0 <= i < |a + b| ==> Normalize(a + b)[i] == (Normalize(a) + Normalize(b))[i];
  }

  /** `extractTokens(text)`: lower-case, replace foreign characters by
      spaces, split on whitespace and drop empty pieces. Every token is
      non-empty and spelled over the token alphabet. */
  function ExtractTokens(text: string): (r: seq<string>)
    ensures text == "" ==> r == []
    ensures forall i :: 0 <= i < |r| ==> r[i] != ""
    ensures forall i, k :: 0 <= i < |r| && 0 <= k < |r[i]| ==> TokenChar(r[i][k])
  {
    if text == "" then []
    else
      var n := Normalize(text);
      var w := Words(n);
      assert forall i, k :: 0 <= i < |w| && 0 <= k < |w[i]| ==> TokenChar(w[i][k]) by {
        forall i, k | 0 <= i < |w| && 0 <= k < |w[i]|
          ensures TokenChar(w[i][k])
        {
          var j :| 0 <= j < |n| && n[j] == w[i][k];
        }
      }
      w
  }

  /** Tokens do not span a separator: a character outside the token
      alphabet (punctuation such as ',' '/' '(' as well as a space, tab or
      newline) splits the text, and the tokens of `a + [c] + b` are those of
      `a` followed by those of `b`. */
  lemma TokensSplit(a: string, c: char, b: string)
    requires !TokenChar(LowerChar(c))
    ensures ExtractTokens(a + [c] + b) == ExtractTokens(a) + ExtractTokens(b)
  {
    NormalizeAppend(a + [c], b);
    NormalizeAppend(a, [c]);
    assert Normalize([c]) == [NormChar(c)];
    assert Normalize(a + [c] + b) == Normalize(a) + [NormChar(c)] + Normalize(b);
    WordsJoin(Normalize(a), NormChar(c), Normalize(b));
    if a == "" {
      assert Words(Normalize(a)) == [];
    }
    if b == "" {
      assert Words(Normalize(b)) == [];
    }
  }

  /** The handler's job text joins its three parts with spaces, so its
      tokens are those of the parts in turn. */
  lemma TokensJoin(a: string, b: string)
    ensures ExtractTokens(a + " " + b) == ExtractTokens(a) + ExtractTokens(b)
  {
    assert a + " " + b == a + [' '] + b;
    TokensSplit(a, ' ', b);
  }

  /** A word spelled over the token alphabet (after lower-casing) is one
      token: its lower-case form. */
  lemma TokensOfWord(w: string)
    requires w != ""
    requires forall k :: 0 <= k < |w| ==> TokenChar(LowerChar(w[k]))
    ensures ExtractTokens(w) == [Lower(w)]
  {
    var l := Lower(w);
    assert ExtractTokens(w) == Words(Normalize(w));
    assert forall k :: 0 <= k < |w| ==> Normalize(w)[k] == l[k];
    assert Normalize(w) == l;
    assert forall k :: 0 <= k < |l| ==> !IsSpace(l[k]);
    WordsSingle(l);
  }

  /** A skill is found only as a whole token: one containing a space or a
      character outside the token alphabet is never found. */
  lemma OnlyWholeTokensMatch(skill: string, text: string, k: nat)
    requires k < |skill| && !TokenChar(LowerChar(skill[k]))
    ensures Lower(skill) !in ExtractTokens(text)
  {
    assert Lower(skill)[k] == LowerChar(skill[k]);
  }

  // ----------------------------------------------------------- sub-scores

  /** The skill test: the lower-cased skill is one of the tokens. */
  predicate SkillFound(skill: string, tokens: seq<string>) {
    Lower(skill) in tokens
  }

  /** Number of profile skills found among the tokens; duplicates in the
      profile count once each. */
  function MatchCount(skills: seq<string>, tokens: seq<string>): (n: nat)
    ensures n <= |skills|
    ensures n == |skills| <==> forall i :: 0 <= i < |skills| ==> SkillFound(skills[i], tokens)
    ensures n == 0 <==> forall i :: 0 <= i < |skills| ==> !SkillFound(skills[i], tokens)
  {
    if skills == [] then 0
    else
      assert forall i :: 1 <= i < |skills| ==> skills[i] == skills[1..][i - 1];
      (if SkillFound(skills[0], tokens) then 1 else 0) + MatchCount(skills[1..], tokens)
  }

  /** Counting over the already lower-cased skills, as the handler does, gives the same number. */
  lemma {:induction false} MatchCountLowered(skills: seq<string>, tokens: seq<string>)
    ensures MatchCount(Map(skills, Lower), tokens) == MatchCount(skills, tokens)
  {
    if skills != [] {
      LowerIdempotent(skills[0]);
      assert Map(skills, Lower)[1..] == Map(skills[1..], Lower);
      MatchCountLowered(skills[1..], tokens);
    }
  }

  /** A larger token set finds at least as many skills. */
  lemma {:induction false} MatchCountMonotone(skills: seq<string>, t1: seq<string>, t2: seq<string>)
    requires forall x :: x in t1 ==> x in t2
    ensures MatchCount(skills, t1) <= MatchCount(skills, t2)
  {
    if skills != [] {
      MatchCountMonotone(skills[1..], t1, t2);
    }
  }

  /** `m / n` for a count `m` out of `n`. */
  function Frac(m: nat, n: nat): (r: real)
    requires 0 < n && m <= n
    ensures 0.0 <= r <= 1.0
    ensures r * n as real == m as real
    ensures r == 1.0 <==> m == n
    ensures r == 0.0 <==> m == 0
  {
    m as real / n as real
  }

  lemma FracMonotone(m1: nat, m2: nat, n: nat)
    requires 0 < n && m1 <= m2 <= n
    ensures Frac(m1, n) <= Frac(m2, n)
  {
    DivMonotone(m1 as real, m2 as real, n as real);
  }

  lemma DivMonotone(x: real, y: real, d: real)
    requires x <= y && 0.0 < d
    ensures x / d <= y / d
  {
    assert y / d - x / d == (y - x) / d;
    assert (y - x) / d >= 0.0;
  }

  /** The skill sub-score: matched skills over all skills, 0 for an empty profile. */
  function SkillScore(skills: seq<string>, tokens: seq<string>): (r: real)
    ensures 0.0 <= r <= 1.0
    ensures skills == [] ==> r == 0.0
    ensures skills != [] ==> r == Frac(MatchCount(skills, tokens), |skills|)
    ensures r == 1.0 <==> skills != [] && forall i :: 0 <= i < |skills| ==> SkillFound(skills[i], tokens)
    ensures r == 0.0 <==> forall i :: 0 <= i < |skills| ==> !SkillFound(skills[i], tokens)
  {
    var userSkills := Map(skills, Lower);
    var matches := MatchCount(userSkills, tokens);
    MatchCountLowered(skills, tokens);
    if |userSkills| > 0 then Frac(matches, Max(|userSkills|, 1)) else 0.0
  }

  /** More tokens never lower the skill score. */
  lemma SkillScoreMonotone(skills: seq<string>, t1: seq<string>, t2: seq<string>)
    requires forall x :: x in t1 ==> x in t2
    ensures SkillScore(skills, t1) <= SkillScore(skills, t2)
  {
    MatchCountMonotone(skills, t1, t2);
    if skills != [] {
      FracMonotone(MatchCount(skills, t1), MatchCount(skills, t2), |skills|);
    }
  }

  /** The location sub-score: 1 exactly when the user has a country, the
      job has a location, and the lower-cased location contains the
      lower-cased country. */
  function LocationScore(country: string, location: string): (r: real)
    ensures r == 0.0 || r == 1.0
    ensures r == 1.0 <==> country != "" && location != "" && Contains(Lower(location), Lower(country))
  {
    var userCountry := Lower(country);
    if userCountry != "" && location != "" && Contains(Lower(location), userCountry) then 1.0 else 0.0
  }

  /** `Math.max(0, Math.min(1, x))`. */
  function Clamp(x: real): (r: real)
    ensures 0.0 <= r <= 1.0
    ensures 0.0 <= x <= 1.0 ==> r == x
  {
    if x < 0.0 then 0.0 else if x > 1.0 then 1.0 else x
  }

  /** The recency sub-score: 1 for a job created at or after `now`, falling
      linearly with age to 0 at 30 days. */
  function Recency(createdAt: int, now: int): (r: real)
    ensures 0.0 <= r <= 1.0
    ensures createdAt >= now ==> r == 1.0
    ensures now - createdAt >= RecencyDays * MsPerDay ==> r == 0.0
    ensures 0 < now - createdAt < RecencyDays * MsPerDay ==> 0.0 < r < 1.0
  {
    var daysOld := (now - createdAt) as real / MsPerDay as real;
    Clamp(1.0 - daysOld / RecencyDays as real)
  }

  /** Older jobs never score higher on recency. */
  lemma RecencyMonotone(older: int, newer: int, now: int)
    requires older <= newer
    ensures Recency(older, now) <= Recency(newer, now)
  {
  }

  lemma FullTimeNotRemote() ensures !Contains(Lower(JobTypeName(FullTime)), "remote") {
    assert Lower("Full-Time") == "full-time";
    MissingChar("full-time", "remote", 0);
  }

  lemma PartTimeNotRemote() ensures !Contains(Lower(JobTypeName(PartTime)), "remote") {
    assert Lower("Part-Time") == "part-time";
    MissingChar("part-time", "remote", 3);
  }

  lemma ContractNotRemote() ensures !Contains(Lower(JobTypeName(Contract)), "remote") {
    assert Lower("Contract") == "contract";
    MissingChar("contract", "remote", 1);
  }

  lemma InternshipNotRemote() ensures !Contains(Lower(JobTypeName(Internship)), "remote") {
    assert Lower("Internship") == "internship";
    MissingChar("internship", "remote", 3);
  }

  lemma RemoteIsRemote() ensures Contains(Lower(JobTypeName(Remote)), "remote") {
    assert Lower("Remote") == "remote";
    ContainsPrefix("remote", "");
    assert "remote" + "" == "remote";
  }

  /** Of the five job types only "Remote" contains "remote" once lower-cased. */
  lemma RemoteOnly(t: JobType)
    ensures Contains(Lower(JobTypeName(t)), "remote") <==> t == Remote
  {
    match t
    case FullTime => FullTimeNotRemote();
    case PartTime => PartTimeNotRemote();
    case Contract => ContractNotRemote();
    case Internship => InternshipNotRemote();
    case Remote => RemoteIsRemote();
  }

  /** The job-type sub-score: 1 exactly when the bio mentions "remote" and
      the job is a Remote job. */
  function JobTypeScore(bio: string, jobType: JobType): (r: real)
    ensures r == 0.0 || r == 1.0
    ensures r == 1.0 <==> Contains(Lower(bio), "remote") && jobType == Remote
  {
    RemoteOnly(jobType);
    if Contains(Lower(bio), "remote") && Contains(Lower(JobTypeName(jobType)), "remote") then 1.0 else 0.0
  }

  // ---------------------------------------------------------------- total

  predicate UnitInterval(x: real) { 0.0 <= x <= 1.0 }

  /** The weighted sum. The weights are positive and sum to 1, so the total
      lies in [0, 1] and reaches 1 only when every sub-score is 1. */
  function Total(skill: real, location: real, recency: real, jobType: real): (r: real)
    requires UnitInterval(skill) && UnitInterval(location) && UnitInterval(recency) && UnitInterval(jobType)
    ensures 0.0 <= r <= 1.0
    ensures r == 1.0 <==> skill == 1.0 && location == 1.0 && recency == 1.0 && jobType == 1.0
    ensures r == 0.0 <==> skill == 0.0 && location == 0.0 && recency == 0.0 && jobType == 0.0
  {
    SkillsWeight * skill + LocationWeight * location + RecencyWeight * recency + JobTypeWeight * jobType
  }

  /** Raising any sub-score never lowers the total. */
  lemma TotalMonotone(s1: real, l1: real, r1: real, j1: real, s2: real, l2: real, r2: real, j2: real)
    requires UnitInterval(s1) && UnitInterval(l1) && UnitInterval(r1) && UnitInterval(j1)
    requires UnitInterval(s2) && UnitInterval(l2) && UnitInterval(r2) && UnitInterval(j2)
    requires s1 <= s2 && l1 <= l2 && r1 <= r2 && j1 <= j2
    ensures Total(s1, l1, r1, j1) <= Total(s2, l2, r2, j2)
  {
  }

  /** `Number(x.toFixed(4))` on exact reals: round half up to four decimals. */
  function Round4(x: real): (r: real)
    ensures -1.0 / 20000.0 < r - x <= 1.0 / 20000.0
    ensures (r * 10000.0).Floor as real == r * 10000.0
    ensures 0.0 <= x <= 1.0 ==> 0.0 <= r <= 1.0
  {
    (x * 10000.0 + 0.5).Floor as real / 10000.0
  }

  lemma Round4Monotone(x: real, y: real)
    requires x <= y
    ensures Round4(x) <= Round4(y)
  {
    assert (x * 10000.0 + 0.5).Floor <= (y * 10000.0 + 0.5).Floor;
  }

  /** The text the skill test reads: title, description and requirements
      joined by spaces. */
  function JobText(j: Job): string {
    j.title + " " + j.description + " " + j.requirements
  }

  /** The score of one job for one user, before rounding. */
  function Score(u: User, j: Job, now: int): (r: real)
    ensures 0.0 <= r <= 1.0
  {
    Total(SkillScore(u.skills, ExtractTokens(JobText(j))), LocationScore(u.country, j.location),
          Recency(j.createdAt, now), JobTypeScore(u.bio, j.jobType))
  }

  /** Every skill found, the country found, posted now, not a Remote job:
      the score is 0.95, and rounding keeps it. */
  lemma AllButRemoteScore(u: User, j: Job, now: int)
    requires u.skills != [] && forall i :: 0 <= i < |u.skills| ==> SkillFound(u.skills[i], ExtractTokens(JobText(j)))
    requires u.country != "" && j.location != "" && Contains(Lower(j.location), Lower(u.country))
    requires j.createdAt == now && j.jobType != Remote
    ensures Score(u, j, now) == 0.95
    ensures Round4(Score(u, j, now)) == 0.95
  {
    assert (0.95 * 10000.0 + 0.5).Floor == 9500;
  }

  // -------------------------------------------------------------- ranking

  datatype Match = Match(job: Job, score: real)

  /** The candidate query's filter: approved and not yet expired. */
  predicate Active(j: Job, now: int) {
    j.isApproved && j.expiryDate.Some? && j.expiryDate.value >= now
  }

  function NewerFirst(): (Job, Job) -> bool {
    (a: Job, b: Job) => a.createdAt >= b.createdAt
  }

  function ByScore(): (Match, Match) -> bool {
    (a: Match, b: Match) => a.score >= b.score
  }

  function ActiveAt(now: int): Job -> bool {
    (j: Job) => Active(j, now)
  }

  /** The candidate fetch: the 200 newest active jobs, newest first; no
      active job left out is newer than one kept. */
  function Candidates(store: seq<Job>, now: int): (r: seq<Job>)
    ensures |r| == Min(FetchLimit, Count(store, ActiveAt(now)))
    ensures forall i :: 0 <= i < |r| ==> Active(r[i], now)
    ensures multiset(r) <= multiset(Filter(store, ActiveAt(now))) && multiset(r) <= multiset(store)
    ensures Sorted(r, NewerFirst())
    ensures forall x :: x in multiset(Filter(store, ActiveAt(now))) - multiset(r) ==>
              forall i :: 0 <= i < |r| ==> x.createdAt <= r[i].createdAt
  {
    var active := Filter(store, ActiveAt(now));
    NewerFirstTotal();
    var sorted := Sort(active, NewerFirst());
    var r := Take(sorted, FetchLimit);
    NewestKept(store, active, sorted, r, now);
    r
  }

  lemma NewerFirstTotal()
    ensures TotalPreorder(NewerFirst())
  {
  }

  /** The first 200 of the sorted active jobs are active jobs of the store,
      and none of the rest is newer than any of them. */
  lemma NewestKept(store: seq<Job>, active: seq<Job>, sorted: seq<Job>, r: seq<Job>, now: int)
    requires active == Filter(store, ActiveAt(now))
    requires multiset(sorted) == multiset(active) && Sorted(sorted, NewerFirst())
    requires r == Take(sorted, FetchLimit)
    ensures forall i :: 0 <= i < |r| ==> Active(r[i], now)
    ensures multiset(r) <= multiset(active) && multiset(r) <= multiset(store)
    ensures forall x :: x in multiset(active) - multiset(r) ==>
              forall i :: 0 <= i < |r| ==> x.createdAt <= r[i].createdAt
  {
    assert r == sorted[..|r|];
    PrefixBeatsRest(sorted, |r|, NewerFirst());
    forall i | 0 <= i < |r|
      ensures Active(r[i], now)
    {
      assert r[i] in multiset(active);
    }
  }

  function ScoreAll(u: User, jobs: seq<Job>, now: int): (r: seq<Match>)
    ensures |r| == |jobs|
    ensures forall i :: 0 <= i < |r| ==> r[i].job == jobs[i] && r[i].score == Round4(Score(u, jobs[i], now))
  {
    Map(jobs, j => Match(j, Round4(Score(u, j, now))))
  }

  lemma ByScoreTotal()
    ensures TotalPreorder(ByScore())
  {
  }

  /** `.sort((a, b) => b.score - a.score).slice(0, 20)`: the 20 best scores,
      best first; nothing left out scores higher than anything kept. */
  function TopMatches(scored: seq<Match>): (r: seq<Match>)
    ensures |r| == Min(ResultLimit, |scored|)
    ensures multiset(r) <= multiset(scored)
    ensures Sorted(r, ByScore())
    ensures forall x :: x in multiset(scored) - multiset(r) ==> forall i :: 0 <= i < |r| ==> x.score <= r[i].score
  {
    ByScoreTotal();
    var ranked := Sort(scored, ByScore());
    var r := Take(ranked, ResultLimit);
    assert r == ranked[..|r|];
    PrefixBeatsRest(ranked, |r|, ByScore());
    r
  }

  /** Ties keep their input order: the matches tied with any `y` appear in
      the result in the order they had in the input. */
  lemma TopMatchesStable(scored: seq<Match>, y: Match)
    ensures TieClass(TopMatches(scored), y, ByScore()) <= TieClass(scored, y, ByScore())
  {
    assert TotalPreorder(ByScore());
    var ranked := Sort(scored, ByScore());
    SortStable(scored, y, ByScore());
    TieClassOfPrefix(ranked, Min(ResultLimit, |ranked|), y, ByScore());
    assert TopMatches(scored) == ranked[..Min(ResultLimit, |ranked|)];
  }

  /** The match handler. No user: 401. A user who is not a job seeker: an
      empty list. A job seeker: up to 20 of the candidate jobs, each with
      its rounded score, best first. */
  function GetAiMatches(user: Option<User>, store: seq<Job>, now: int): (r: Reply<seq<Match>>)
    ensures user.None? ==> r == Fail(401, "Unauthorized")
    ensures user.Some? && user.value.role != JobSeeker ==> r == Ok(200, [])
    ensures user.Some? && user.value.role == JobSeeker ==>
      && r.Ok? && r.code == 200
      && |r.body| == Min(ResultLimit, |Candidates(store, now)|)
      && multiset(r.body) <= multiset(ScoreAll(user.value, Candidates(store, now), now))
      && Sorted(r.body, ByScore())
      && forall x :: x in multiset(ScoreAll(user.value, Candidates(store, now), now)) - multiset(r.body) ==>
           forall i :: 0 <= i < |r.body| ==> x.score <= r.body[i].score
  {
    match user
    case None => Fail(401, "Unauthorized")
    case Some(u) =>
      if u.role != JobSeeker then Ok(200, [])
      else Ok(200, TopMatches(ScoreAll(u, Candidates(store, now), now)))
  }

  /** Every returned match carries an active job from the store with its
      own rounded score. */
  lemma MatchesComeFromStore(u: User, store: seq<Job>, now: int, m: Match)
    requires u.role == JobSeeker
    requires m in GetAiMatches(Some(u), store, now).body
    ensures m.job in store && Active(m.job, now)
    ensures m.score == Round4(Score(u, m.job, now))
  {
    var cands := Candidates(store, now);
    var all := ScoreAll(u, cands, now);
    var r := GetAiMatches(Some(u), store, now).body;
    assert m in multiset(r);
    assert m in multiset(all);
    var k :| 0 <= k < |all| && all[k] == m;
    assert cands[k] in multiset(cands);
  }
}

=== FILE: sorting.dfy ===
/** A stable sort by a comparator, as `Array.prototype.sort` behaves in
    current JavaScript engines. `before(a, b)` means "a may stay ahead of b";
    it must be a total preorder. Stability is stated per tie class: the
    elements equivalent to any given `y` keep their input order. */
module Sorting {

  ghost predicate TotalPreorder<T(!new)>(before: (T, T) -> bool) {
    && (forall a, b :: before(a, b) || before(b, a))
    && (forall a, b, c :: before(a, b) && before(b, c) ==> before(a, c))
  }

  predicate Sorted<T>(s: seq<T>, before: (T, T) -> bool) {
    forall i, j :: 0 <= i < j < |s| ==> before(s[i], s[j])
  }

  /** `a` and `b` compare equal: neither must go ahead of the other. */
  predicate Tied<T>(a: T, b: T, before: (T, T) -> bool) {
    before(a, b) && before(b, a)
  }

  /** The elements of `s` tied with `y`, in order. */
  function TieClass<T>(s: seq<T>, y: T, before: (T, T) -> bool): (r: seq<T>)
    ensures |r| <= |s|
  {
    if s == [] then []
    else if Tied(s[0], y, before) then [s[0]] + TieClass(s[1..], y, before)
    else TieClass(s[1..], y, before)
  }

  lemma MultisetHead<T>(s: seq<T>)
    requires s != []
    ensures multiset(s) == multiset{s[0]} + multiset(s[1..])
  {
    assert s == [s[0]] + s[1..];
  }

  /** Places `x` ahead of the first element it may precede. */
  function Insert<T(!new)>(x: T, s: seq<T>, before: (T, T) -> bool): (r: seq<T>)
    requires TotalPreorder(before)
    requires Sorted(s, before)
    ensures |r| == |s| + 1
    ensures multiset(r) == multiset(s) + multiset{x}
    ensures Sorted(r, before)
  {
    if s == [] || before(x, s[0]) then
      assert forall j :: 0 <= j < |s| ==> before(x, s[j]) by {
        if s != [] {
          assert forall j :: 0 <= j < |s| ==> before(s[0], s[j]) || j == 0;
        }
      }
      [x] + s
    else
      var t := Insert(x, s[1..], before);
      MultisetHead(s);
      assert before(s[0], x);
      assert forall j :: 0 <= j < |t| ==> before(s[0], t[j]) by {
        forall j | 0 <= j < |t|
          ensures before(s[0], t[j])
        {
          assert t[j] in multiset(t);
          if t[j] != x {
            assert t[j] in multiset(s[1..]);
            var k :| 0 <= k < |s[1..]| && s[1..][k] == t[j];
            assert before(s[0], s[k + 1]);
          }
        }
      }
      [s[0]] + t
  }

  /** Insertion sort: a stable sort by `before`. */
  function Sort<T(!new)>(s: seq<T>, before: (T, T) -> bool): (r: seq<T>)
    requires TotalPreorder(before)
    ensures |r| == |s|
    ensures multiset(r) == multiset(s)
    ensures Sorted(r, before)
  {
    if s == [] then []
    else
      MultisetHead(s);
      Insert(s[0], Sort(s[1..], before), before)
  }

  lemma {:induction false} InsertTieClass<T(!new)>(x: T, s: seq<T>, y: T, before: (T, T) -> bool)
    requires TotalPreorder(before)
    requires Sorted(s, before)
    ensures TieClass(Insert(x, s, before), y, before)
         == (if Tied(x, y, before) then [x] else []) + TieClass(s, y, before)
  {
    if s == [] || before(x, s[0]) {
      assert Insert(x, s, before) == [x] + s;
      assert ([x] + s)[1..] == s;
    } else {
      var t := Insert(x, s[1..], before);
      assert Insert(x, s, before) == [s[0]] + t;
      assert ([s[0]] + t)[1..] == t;
      InsertTieClass(x, s[1..], y, before);
    }
  }

  /** Stability: every tie class keeps its input order. */
  lemma {:induction false} SortStable<T(!new)>(s: seq<T>, y: T, before: (T, T) -> bool)
    requires TotalPreorder(before)
    ensures TieClass(Sort(s, before), y, before) == TieClass(s, y, before)
  {
    if s != [] {
      SortStable(s[1..], y, before);
      InsertTieClass(s[0], Sort(s[1..], before), y, before);
    }
  }

  lemma {:induction false} TieClassOfPrefix<T>(s: seq<T>, n: nat, y: T, before: (T, T) -> bool)
    requires n <= |s|
    ensures TieClass(s[..n], y, before) <= TieClass(s, y, before)
  {
    if n > 0 {
      assert s[..n][1..] == s[1..][..n - 1];
      TieClassOfPrefix(s[1..], n - 1, y, before);
    }
  }

  /** Cutting a sorted sequence after `n` elements keeps a best `n`:
      everything cut off may go after everything kept. */
  lemma PrefixBeatsRest<T>(s: seq<T>, n: nat, before: (T, T) -> bool)
    requires Sorted(s, before) && n <= |s|
    ensures multiset(s[..n]) <= multiset(s)
    ensures forall x :: x in multiset(s) - multiset(s[..n]) ==> forall i :: 0 <= i < n ==> before(s[i], x)
  {
    var rest := s[n..];
    assert s == s[..n] + rest;
    assert multiset(s) == multiset(s[..n]) + multiset(rest);
    forall x | x in multiset(s) - multiset(s[..n])
      ensures forall i :: 0 <= i < n ==> before(s[i], x)
    {
      assert x in multiset(rest);
      var k :| 0 <= k < |rest| && rest[k] == x;
      assert s[n + k] == x;
    }
  }
}

=== FILE: statusview.dfy ===
/** The status screens: the employer dashboard (its access rule, the list
    of the employer's jobs, the four status buttons, the status label and
    badge) and the applicant's "my applications" page (the Interviews tab,
    its labels and the tab captions). */
module StatusView {
  import opened Common
  import opened Text
  import opened Schema
  import Jobs
  import Applications

  // ------------------------------------------------------- shared display

  /** The status label: the status name with its first letter upper-cased. */
  function StatusLabel(status: string): (r: string)
    ensures |r| == |status|
    ensures status != [] ==> r[0] == UpperChar(status[0]) && r[1..] == status[1..]
  {
    Capitalize(status)
  }

  /** The five labels a stored status can show. */
  lemma StatusLabels()
    ensures StatusLabel(StatusName(Pending)) == "Pending"
    ensures StatusLabel(StatusName(Reviewed)) == "Reviewed"
    ensures StatusLabel(StatusName(Shortlisted)) == "Shortlisted"
    ensures StatusLabel(StatusName(Rejected)) == "Rejected"
    ensures StatusLabel(StatusName(Accepted)) == "Accepted"
  {
  }

  /** Labels are as distinct as the statuses they show. */
  lemma {:induction false} StatusLabelInjective(a: Status, b: Status)
    requires StatusLabel(StatusName(a)) == StatusLabel(StatusName(b))
    ensures a == b
  {
    var la := StatusLabel(StatusName(a));
    assert la[1..] == StatusName(a)[1..] && la[1..] == StatusName(b)[1..];
    assert |StatusName(a)| == |StatusName(b)|;
  }

  datatype Colour = Green | Blue | Red | Yellow | Gray

  /** The badge colour of a status string; anything unrecognised is gray. */
  function Badge(status: string): (r: Colour)
    ensures r == Green <==> status == "shortlisted"
    ensures r == Blue <==> status == "accepted"
    ensures r == Red <==> status == "rejected"
    ensures r == Yellow <==> status == "reviewed"
    ensures r == Gray <==> ParseStatus(status).None? || status == "pending"
  {
    if status == "shortlisted" then Green
    else if status == "accepted" then Blue
    else if status == "rejected" then Red
    else if status == "reviewed" then Yellow
    else Gray
  }

  // ------------------------------------------------- employer dashboard

  /** The dashboard renders only for a signed-in employer. */
  predicate DashboardAllowed(user: Option<User>) {
    user.Some? && user.value.role == Employer
  }

  /** The dashboard and the post-a-job page admit the same users: signed-in
      employers; an admin is turned away by both. */
  lemma EmployerPagesAgree(user: Option<User>)
    ensures DashboardAllowed(user) <==> Jobs.ShowsForm(user)
    ensures user.Some? && user.value.role == Admin ==> !DashboardAllowed(user)
  {
  }

  /** A job as the listing endpoint sends it: `postedBy` populated, and no
      `employer` field, which the schema does not have. */
  datatype JobJson = JobJson(id: Id, title: string, postedBy: Id, employer: Option<Id>)

  function ToJson(j: Job): (r: JobJson)
    ensures r.id == j.id && r.postedBy == j.postedBy && r.employer.None?
  {
    JobJson(j.id, j.title, j.postedBy, None)
  }

  function ToJsonAll(jobs: seq<Job>): (r: seq<JobJson>)
    ensures |r| == |jobs|
    ensures forall i :: 0 <= i < |jobs| ==> r[i] == ToJson(jobs[i])
  {
    if jobs == [] then [] else [ToJson(jobs[0])] + ToJsonAll(jobs[1..])
  }

  function EmployerIs(userId: Id): JobJson -> bool {
    (j: JobJson) => j.employer == Some(userId)
  }

  /** The dashboard's job filter as written: keeps jobs whose `employer` is the user. */
  function MyJobsAsWritten(jobs: seq<JobJson>, userId: Id): (r: seq<JobJson>)
    ensures forall i :: 0 <= i < |r| ==> r[i].employer == Some(userId) && r[i] in jobs
    ensures forall i :: 0 <= i < |jobs| && jobs[i].employer == Some(userId) ==> jobs[i] in r
  {
    Filter(jobs, EmployerIs(userId))
  }

  /** Against anything the listing sends, the filter as written keeps nothing. */
  lemma AsWrittenAlwaysEmpty(jobs: seq<Job>, userId: Id)
    ensures MyJobsAsWritten(ToJsonAll(jobs), userId) == []
  {
    var json := ToJsonAll(jobs);
    assert forall k :: 0 <= k < |json| ==> !EmployerIs(userId)(json[k]);
    CountNone(json, EmployerIs(userId));
  }

  /** An employer with a posted, listed job still sees an empty list. */
  lemma PostedJobNotShown(j: Job, userId: Id)
    requires j.postedBy == userId
    ensures MyJobsAsWritten(ToJsonAll([j]), userId) == []
    ensures exists k :: 0 <= k < |ToJsonAll([j])| && ToJsonAll([j])[k].postedBy == userId
  {
    AsWrittenAlwaysEmpty([j], userId);
    assert ToJsonAll([j])[0].postedBy == userId;
  }

  /** The corrected filter: the jobs of the given sequence that the user
      posted, in their order. */
  function MyJobs(jobs: seq<JobJson>, userId: Id): (r: seq<JobJson>)
    ensures IsSubsequence(r, jobs)
    ensures forall i :: 0 <= i < |r| ==> r[i].postedBy == userId
    ensures forall i :: 0 <= i < |jobs| && jobs[i].postedBy == userId ==> jobs[i] in r
  {
    FilterIsSubsequence(jobs, (j: JobJson) => j.postedBy == userId);
    Filter(jobs, (j: JobJson) => j.postedBy == userId)
  }

  predicate UniqueJobIds(jobs: seq<Job>) {
    forall i, k :: 0 <= i < k < |jobs| ==> jobs[i].id != jobs[k].id
  }

  /** For any job collection with distinct ids, rendered as the listing
      renders it (not only the unexpired jobs the listing sends), the
      corrected filter keeps a job exactly when the server grants this
      employer its updates. */
  lemma MyJobsAreOwned(jobs: seq<Job>, userId: Id, i: nat)
    requires UniqueJobIds(jobs) && i < |jobs|
    ensures ToJson(jobs[i]) in MyJobs(ToJsonAll(jobs), userId) <==>
              Jobs.Owned(jobs, jobs[i].id, userId, "update").Ok?
  {
    var json := ToJsonAll(jobs);
    var r := MyJobs(json, userId);
    assert json[i] == ToJson(jobs[i]);
    if ToJson(jobs[i]) in r {
      var k :| 0 <= k < |r| && r[k] == ToJson(jobs[i]);
      assert r[k].postedBy == userId;
      assert jobs[i].postedBy == userId;
    }
    if Jobs.Owned(jobs, jobs[i].id, userId, "update").Ok? {
      var o := Jobs.Owned(jobs, jobs[i].id, userId, "update").body;
      assert jobs[o].id == jobs[i].id;
      assert o == i;
    }
  }

  /** The four status buttons of an application card. */
  datatype Action = MarkReviewed | Shortlist | Accept | Reject

  /** The status each button requests. */
  function Requests(a: Action): Status {
    match a
    case MarkReviewed => Reviewed
    case Shortlist => Shortlisted
    case Accept => Accepted
    case Reject => Rejected
  }

  /** The colour of each button. */
  function ButtonColour(a: Action): Colour {
    match a
    case MarkReviewed => Yellow
    case Shortlist => Green
    case Accept => Blue
    case Reject => Red
  }

  /** Button enablement: each button is disabled on the status it sets;
      Shortlist is also disabled once accepted. */
  function Disabled(a: Action, status: Status): (r: bool)
    ensures a == MarkReviewed ==> (r <==> status == Reviewed)
    ensures a == Shortlist ==> (r <==> status == Shortlisted || status == Accepted)
    ensures a == Accept ==> (r <==> status == Accepted)
    ensures a == Reject ==> (r <==> status == Rejected)
  {
    match a
    case MarkReviewed => status == Reviewed
    case Shortlist => status == Shortlisted || status == Accepted
    case Accept => status == Accepted
    case Reject => status == Rejected
  }

  /** An enabled button always changes the status, to one the status
      handler accepts, and the badge then takes the button's colour. */
  lemma EnabledButtonsChangeStatus(a: Action, status: Status)
    requires !Disabled(a, status)
    ensures Requests(a) != status
    ensures ParseStatus(StatusName(Requests(a))) == Some(Requests(a))
    ensures Badge(StatusName(Requests(a))) == ButtonColour(a)
  {
  }

  /** A button is disabled exactly when pressing it would change nothing,
      except Shortlist, which also refuses to demote an accepted application. */
  lemma DisabledMeansNoChange(a: Action, status: Status)
    ensures a != Shortlist ==> (Disabled(a, status) <==> Requests(a) == status)
    ensures a == Shortlist ==> (Disabled(a, status) <==> Requests(a) == status || status == Accepted)
  {
  }

  /** The enabled buttons of a card, in display order; a pending application has all four. */
  function EnabledActions(status: Status): (r: seq<Action>)
    ensures MarkReviewed in r <==> !Disabled(MarkReviewed, status)
    ensures Shortlist in r <==> !Disabled(Shortlist, status)
    ensures Accept in r <==> !Disabled(Accept, status)
    ensures Reject in r <==> !Disabled(Reject, status)
    ensures status == Pending ==> |r| == 4
  {
    (if !Disabled(MarkReviewed, status) then [MarkReviewed] else [])
      + (if !Disabled(Shortlist, status) then [Shortlist] else [])
      + (if !Disabled(Accept, status) then [Accept] else [])
      + (if !Disabled(Reject, status) then [Reject] else [])
  }

  /** Whatever the status, at least two buttons stay enabled; only an
      accepted application is down to two (Mark Reviewed and Reject). */
  lemma EnabledCount(status: Status)
    ensures |EnabledActions(status)| >= 2
    ensures |EnabledActions(status)| == 2 <==> status == Accepted
  {
    match status
    case Pending => assert EnabledActions(status) == [MarkReviewed, Shortlist, Accept, Reject];
    case Reviewed => assert EnabledActions(status) == [Shortlist, Accept, Reject];
    case Shortlisted => assert EnabledActions(status) == [MarkReviewed, Accept, Reject];
    case Rejected => assert EnabledActions(status) == [MarkReviewed, Shortlist, Accept];
    case Accepted => assert EnabledActions(status) == [MarkReviewed, Reject];
  }

  // ---------------------------------------------------- my applications

  predicate IsInterview(a: Application) {
    a.status == Shortlisted || a.status == Accepted
  }

  /** The Interviews tab: the shortlisted and accepted applications, in order. */
  function Interviews(apps: seq<Application>): (r: seq<Application>)
    ensures IsSubsequence(r, apps)
    ensures forall i :: 0 <= i < |r| ==> IsInterview(r[i])
    ensures forall i :: 0 <= i < |apps| && IsInterview(apps[i]) ==> apps[i] in r
  {
    FilterIsSubsequence(apps, IsInterview);
    Filter(apps, IsInterview)
  }

  /** The status line of an interview entry. */
  function InterviewLabel(status: Status): string {
    if status == Shortlisted then "Shortlisted" else "Accepted"
  }

  /** On the Interviews tab, the entry's own label agrees with the status badge label. */
  lemma InterviewLabelAgrees(apps: seq<Application>, i: nat)
    requires i < |Interviews(apps)|
    ensures InterviewLabel(Interviews(apps)[i].status) == StatusLabel(StatusName(Interviews(apps)[i].status))
  {
    StatusLabels();
  }

  /** The empty-state message of the Interviews tab shows iff nothing qualifies. */
  lemma InterviewsEmptyIff(apps: seq<Application>)
    ensures Interviews(apps) == [] <==> forall i :: 0 <= i < |apps| ==> !IsInterview(apps[i])
  {
    CountNone(apps, IsInterview);
  }

  /** The three tab counts. */
  datatype TabCounts = TabCounts(applied: nat, saved: nat, interviews: nat)

  /** The counts as written: Saved and Interviews are constants. */
  function CountsAsWritten(apps: seq<Application>): (r: TabCounts)
    ensures r.applied == |apps| && r.saved == 0 && r.interviews == 1
  {
    TabCounts(|apps|, 0, 1)
  }

  /** With no application at all, the Interviews tab still claims one. */
  lemma InterviewsCountWrong()
    ensures CountsAsWritten([]).interviews == 1 && Interviews([]) == []
  {
  }

  /** The corrected counts: the Interviews caption counts the Interviews tab. */
  function Counts(apps: seq<Application>): (r: TabCounts)
    ensures r.applied == |apps| && r.saved == 0
    ensures r.interviews == |Interviews(apps)|
    ensures r.interviews <= r.applied
    ensures r.interviews == 0 <==> forall i :: 0 <= i < |apps| ==> !IsInterview(apps[i])
  {
    InterviewsEmptyIff(apps);
    TabCounts(|apps|, 0, |Interviews(apps)|)
  }

  /** The applications an applicant's page shows are the ones the server
      lists for them, so the Interviews count is bounded by their applications. */
  lemma InterviewsAreMine(db: Applications.Db, caller: Id, i: nat)
    requires i < |Interviews(Applications.MyApplications(db, caller))|
    ensures Interviews(Applications.MyApplications(db, caller))[i].applicant == caller
    ensures Interviews(Applications.MyApplications(db, caller))[i] in db.apps
  {
    var mine := Applications.MyApplications(db, caller);
    var r := Interviews(mine);
    assert r[i] in mine;
  }
}

=== FILE: team.dfy ===
/** The team directory: the public listing of active members, lookup,
    creation with an optional photo upload, the update merge, and deletion.
    The upload itself is abstract: its outcome is an input. */
module Team {
  import opened Common
  import opened Text
  import opened Sorting
  import opened Schema

  /** The photo part of a request: no file, a file the store accepted
      (with its secure URL), or a file whose upload failed. */
  datatype Photo = NoFile | Uploaded(url: string) | UploadFailed

  /** Member ids are unique in the collection. */
  predicate UniqueMemberIds(members: seq<TeamMember>) {
    forall i, j :: 0 <= i < j < |members| ==> members[i].id != members[j].id
  }

  predicate HasMember(members: seq<TeamMember>, id: Id) {
    exists i :: 0 <= i < |members| && members[i].id == id
  }

  function MemberIndex(members: seq<TeamMember>, id: Id): (r: Option<nat>)
    ensures r.Some? ==> r.value < |members| && members[r.value].id == id
    ensures r.None? <==> !HasMember(members, id)
  {
    FindIndex(members, (m: TeamMember) => m.id == id)
  }

  // --------------------------------------------------------------- listing

  /** Ascending by `order`, then by creation time. */
  function ByDisplayOrder(): (TeamMember, TeamMember) -> bool {
    (a: TeamMember, b: TeamMember) => a.order < b.order || (a.order == b.order && a.createdAt <= b.createdAt)
  }

  function IsActive(m: TeamMember): bool { m.isActive }

  /** `getTeamMembers`: exactly the active members, ordered by (order, createdAt). */
  function TeamList(members: seq<TeamMember>): (r: seq<TeamMember>)
    ensures multiset(r) == multiset(Filter(members, IsActive))
    ensures forall i :: 0 <= i < |r| ==> r[i].isActive && r[i] in members
    ensures forall i :: 0 <= i < |members| && members[i].isActive ==> members[i] in r
    ensures forall i, j :: 0 <= i < j < |r| ==>
              r[i].order < r[j].order || (r[i].order == r[j].order && r[i].createdAt <= r[j].createdAt)
  {
    ByDisplayOrderTotal();
    var r := Sort(Filter(members, IsActive), ByDisplayOrder());
    ActiveMembers(members, r);
    DisplayOrdered(r);
    r
  }

  /** Display order is a total preorder, so sorting by it is defined. */
  lemma ByDisplayOrderTotal()
    ensures TotalPreorder(ByDisplayOrder())
  {
  }

  /** Any permutation of the active members holds exactly the active members. */
  lemma ActiveMembers(members: seq<TeamMember>, r: seq<TeamMember>)
    requires multiset(r) == multiset(Filter(members, IsActive))
    ensures forall i :: 0 <= i < |r| ==> r[i].isActive && r[i] in members
    ensures forall i :: 0 <= i < |members| && members[i].isActive ==> members[i] in r
  {
    var active := Filter(members, IsActive);
    forall i | 0 <= i < |r|
      ensures r[i].isActive && r[i] in members
    {
      assert r[i] in multiset(active);
      assert r[i] in active;
    }
    forall i | 0 <= i < |members| && members[i].isActive
      ensures members[i] in r
    {
      assert IsActive(members[i]);
      assert members[i] in active;
      assert members[i] in multiset(active);
      assert members[i] in multiset(r);
    }
  }

  /** Sorted by display order, spelled out field by field. */
  lemma DisplayOrdered(r: seq<TeamMember>)
    requires Sorted(r, ByDisplayOrder())
    ensures forall i, j :: 0 <= i < j < |r| ==>
              r[i].order < r[j].order || (r[i].order == r[j].order && r[i].createdAt <= r[j].createdAt)
  {
    forall i, j | 0 <= i < j < |r|
      ensures r[i].order < r[j].order || (r[i].order == r[j].order && r[i].createdAt <= r[j].createdAt)
    {
      assert ByDisplayOrder()(r[i], r[j]);
    }
  }

  /** `getTeamMemberById`: 404 for an unknown id. */
  function GetMember(id: Id, members: seq<TeamMember>): (r: Reply<TeamMember>)
    ensures r.Ok? <==> HasMember(members, id)
    ensures r.Ok? ==> r.code == 200 && r.body.id == id && r.body in members
    ensures !r.Ok? ==> r == Fail(404, "Team member not found")
  {
    var i := MemberIndex(members, id);
    if i.None? then Fail(404, "Team member not found") else Ok(200, members[i.value])
  }

  // -------------------------------------------------------------- creation

  datatype CreateBody = CreateBody(name: Option<string>, role: Option<string>, bio: Option<string>,
                                   linkedIn: Option<string>, github: Option<string>, twitter: Option<string>,
                                   order: Option<int>)

  /** `createTeamMember`: 400 for a missing name or role before any upload,
      500 when the photo upload fails; `order || 0` and the schema defaults. */
  function CreateMember(body: CreateBody, photo: Photo, members: seq<TeamMember>, now: int)
    : (r: Response<TeamMember, seq<TeamMember>>)
    ensures !Truthy(body.name) || !Truthy(body.role) ==> r.reply == Fail(400, "Please provide name and role")
    ensures Truthy(body.name) && Truthy(body.role) && photo.UploadFailed? ==> r.reply == Fail(500, "Photo upload failed")
    ensures !r.reply.Ok? ==> r.store == members
    ensures r.reply.Ok? <==>
              && Truthy(body.name) && Truthy(body.role) && !photo.UploadFailed?
              && Trim(body.name.value) != "" && Trim(body.role.value) != "" && |body.bio.GetOr("")| <= TeamBioMax
    ensures r.reply.Ok? ==>
              && r.reply.code == 201 && r.store == members + [r.reply.body]
              && var m := r.reply.body;
              && ValidMember(m) && m.isActive && !HasMember(members, m.id)
              && m.name == Trim(body.name.value) && m.role == Trim(body.role.value)
              && m.order == body.order.GetOr(0)
              && m.photoUrl == (if photo.Uploaded? then photo.url else "")
              && m.bio == body.bio.GetOr("") && m.linkedIn == body.linkedIn.GetOr("")
              && m.github == body.github.GetOr("") && m.twitter == body.twitter.GetOr("")
  {
    if !Truthy(body.name) || !Truthy(body.role) then Response(Fail(400, "Please provide name and role"), members)
    else if photo.UploadFailed? then Response(Fail(500, "Photo upload failed"), members)
    else
      var photoUrl := if photo.Uploaded? then photo.url else "";
      var id := FreshId(members, MemberIdOf);
      var m := NewMember(id, body.name.value, body.role.value, body.bio, photoUrl, body.linkedIn, body.github,
                         body.twitter, body.order.GetOr(0), now);
      if m.None? then Response(Invalid("TeamMember validation failed"), members)
      else Response(Ok(201, m.value), members + [m.value])
  }

  /** Creation keeps member ids unique. */
  lemma CreatePreservesUnique(body: CreateBody, photo: Photo, members: seq<TeamMember>, now: int)
    requires UniqueMemberIds(members)
    ensures UniqueMemberIds(CreateMember(body, photo, members, now).store)
  {
    var r := CreateMember(body, photo, members, now);
    if r.reply.Ok? {
      AppendUnique(members, r.reply.body);
    }
  }

  /** Appending a member whose id is not in use keeps ids unique. */
  lemma AppendUnique(members: seq<TeamMember>, m: TeamMember)
    requires UniqueMemberIds(members) && !HasMember(members, m.id)
    ensures UniqueMemberIds(members + [m])
  {
    var s := members + [m];
    forall i, j | 0 <= i < j < |s|
      ensures s[i].id != s[j].id
    {
      assert s[i] == members[i];
      if j == |members| {
        assert s[j] == m;
      } else {
        assert s[j] == members[j];
      }
    }
  }

  // ---------------------------------------------------------------- update

  datatype UpdateBody = UpdateBody(name: Option<string>, role: Option<string>, bio: Option<string>,
                                   linkedIn: Option<string>, github: Option<string>, twitter: Option<string>,
                                   order: Option<int>, isActive: Option<bool>)

  const NoChanges: UpdateBody := UpdateBody(None, None, None, None, None, None, None, None)

  /** The update merge before the save: name and role only from truthy
      values, the other six fields whenever present, the photo when one was
      uploaded. */
  function MergeMember(m: TeamMember, body: UpdateBody, photo: Photo): (r: TeamMember)
    ensures r.id == m.id && r.createdAt == m.createdAt
    ensures r.name == OrElse(body.name, m.name) && r.role == OrElse(body.role, m.role)
    ensures && r.bio == IfDefined(body.bio, m.bio) && r.linkedIn == IfDefined(body.linkedIn, m.linkedIn)
            && r.github == IfDefined(body.github, m.github) && r.twitter == IfDefined(body.twitter, m.twitter)
            && r.order == IfDefined(body.order, m.order) && r.isActive == IfDefined(body.isActive, m.isActive)
    ensures r.photoUrl == (if photo.Uploaded? then photo.url else m.photoUrl)
  {
    m.(photoUrl := if photo.Uploaded? then photo.url else m.photoUrl,
       name := OrElse(body.name, m.name),
       role := OrElse(body.role, m.role),
       bio := IfDefined(body.bio, m.bio),
       linkedIn := IfDefined(body.linkedIn, m.linkedIn),
       github := IfDefined(body.github, m.github),
       twitter := IfDefined(body.twitter, m.twitter),
       order := IfDefined(body.order, m.order),
       isActive := IfDefined(body.isActive, m.isActive))
  }

  /** `updateTeamMember`: 404 for an unknown id, then 500 for a failed
      upload, then the merge and the validating save. */
  function UpdateMember(id: Id, body: UpdateBody, photo: Photo, members: seq<TeamMember>)
    : (r: Response<TeamMember, seq<TeamMember>>)
    ensures !HasMember(members, id) ==> r.reply == Fail(404, "Team member not found")
    ensures HasMember(members, id) && photo.UploadFailed? ==> r.reply == Fail(500, "Photo upload failed")
    ensures !r.reply.Ok? ==> r.store == members
    ensures r.reply.Ok? <==>
              && HasMember(members, id) && !photo.UploadFailed?
              && SaveMember(MergeMember(members[MemberIndex(members, id).value], body, photo)).Some?
    ensures r.reply.Ok? ==>
              var i := MemberIndex(members, id).value;
              && r.reply.body == SaveMember(MergeMember(members[i], body, photo)).value
              && r.store == members[i := r.reply.body] && ValidMember(r.reply.body)
  {
    var i := MemberIndex(members, id);
    if i.None? then Response(Fail(404, "Team member not found"), members)
    else if photo.UploadFailed? then Response(Fail(500, "Photo upload failed"), members)
    else
      var saved := SaveMember(MergeMember(members[i.value], body, photo));
      if saved.None? then Response(Invalid("TeamMember validation failed"), members)
      else Response(Ok(200, saved.value), members[i.value := saved.value])
  }

  /** The two merge disciplines side by side: an empty bio clears the bio,
      while an empty name leaves the name as it was. */
  lemma ClearBioButNotName(id: Id, members: seq<TeamMember>, i: nat)
    requires i < |members| && members[i].id == id && UniqueMemberIds(members) && ValidMember(members[i])
    ensures var r := UpdateMember(id, NoChanges.(name := Some(""), bio := Some("")), NoFile, members);
            && r.reply.Ok? && r.reply.body.bio == "" && r.reply.body.name == members[i].name
  {
    assert HasMember(members, id);
    assert MemberIndex(members, id).value == i;
    TrimIdempotent(members[i].name);
    TrimIdempotent(members[i].role);
  }

  /** An update that sends nothing leaves a valid member, and the store, unchanged. */
  lemma EmptyUpdateIsIdentity(id: Id, members: seq<TeamMember>, i: nat)
    requires i < |members| && members[i].id == id && UniqueMemberIds(members) && ValidMember(members[i])
    ensures UpdateMember(id, NoChanges, NoFile, members) == Response(Ok(200, members[i]), members)
  {
    assert HasMember(members, id);
    assert MemberIndex(members, id).value == i;
    assert MergeMember(members[i], NoChanges, NoFile) == members[i];
    assert members[i := members[i]] == members;
  }

  /** Members that are inactive never reach the public list. */
  lemma InactiveNotListed(store: seq<TeamMember>, id: Id)
    requires forall k :: 0 <= k < |store| && store[k].id == id ==> !store[k].isActive
    ensures forall j :: 0 <= j < |TeamList(store)| ==> TeamList(store)[j].id != id
  {
    var shown := TeamList(store);
    forall j | 0 <= j < |shown| ensures shown[j].id != id {
      assert shown[j] in store && shown[j].isActive;
    }
  }

  /** Deactivating a member removes it from the public list. */
  lemma DeactivateHides(id: Id, members: seq<TeamMember>)
    requires UniqueMemberIds(members)
    requires UpdateMember(id, NoChanges.(isActive := Some(false)), NoFile, members).reply.Ok?
    ensures var shown := TeamList(UpdateMember(id, NoChanges.(isActive := Some(false)), NoFile, members).store);
            forall j :: 0 <= j < |shown| ==> shown[j].id != id
  {
    var r := UpdateMember(id, NoChanges.(isActive := Some(false)), NoFile, members);
    var i := MemberIndex(members, id).value;
    assert r.reply.body.id == id && !r.reply.body.isActive;
    ReplaceWithInactive(members, i, r.reply.body, r.store);
    InactiveNotListed(r.store, id);
  }

  /** Replacing a member by an inactive copy with the same id leaves no
      active member with that id, since ids are unique. */
  lemma ReplaceWithInactive(members: seq<TeamMember>, i: nat, m: TeamMember, s: seq<TeamMember>)
    requires UniqueMemberIds(members) && i < |members| && m.id == members[i].id && !m.isActive
    requires s == members[i := m]
    ensures forall k :: 0 <= k < |s| && s[k].id == m.id ==> !s[k].isActive
  {
    forall k | 0 <= k < |s| && s[k].id == m.id
      ensures !s[k].isActive
    {
      if k != i {
        assert false;
      }
    }
  }

  // -------------------------------------------------------------- deletion

  /** `deleteTeamMember`: 404 for an unknown id, otherwise that one member is removed. */
  function DeleteMember(id: Id, members: seq<TeamMember>): (r: Response<string, seq<TeamMember>>)
    ensures !HasMember(members, id) ==> r.reply == Fail(404, "Team member not found") && r.store == members
    ensures HasMember(members, id) ==>
              && r.reply == Ok(200, "Team member removed")
              && var i := MemberIndex(members, id).value;
              && r.store == RemoveAt(members, i)
              && multiset(r.store) == multiset(members) - multiset{members[i]}
  {
    var i := MemberIndex(members, id);
    if i.None? then Response(Fail(404, "Team member not found"), members)
    else Response(Ok(200, "Team member removed"), RemoveAt(members, i.value))
  }

  /** With unique ids, a delete leaves no member with that id and keeps every other one. */
  lemma DeleteRemovesOnlyThatId(id: Id, members: seq<TeamMember>)
    requires UniqueMemberIds(members) && HasMember(members, id)
    ensures !HasMember(DeleteMember(id, members).store, id)
    ensures forall m :: m in members && m.id != id ==> m in DeleteMember(id, members).store
  {
    var i := MemberIndex(members, id).value;
    var store := DeleteMember(id, members).store;
    forall k | 0 <= k < |store| ensures store[k].id != id {
      if k < i { assert store[k] == members[k]; } else { assert store[k] == members[k + 1]; }
    }
    forall m | m in members && m.id != id ensures m in store {
      var k :| 0 <= k < |members| && members[k] == m;
      if k < i { assert store[k] == m; } else { assert k != i; assert store[k - 1] == m; }
    }
  }
}

=== FILE: text.dfy ===
/** The string operations the JavaScript code relies on, over ASCII:
    `toLowerCase`, `includes`, `trim`, `split(/\s+/)`, and upper-casing the
    first character. */
module Text {

  /** The characters the regular-expression class `\s` matches, restricted
      to ASCII: space, tab, line feed, vertical tab, form feed, carriage return. */
  predicate IsSpace(c: char) {
    c == ' ' || c == '\t' || c == '\n' || c == '\r' || c as int == 11 || c as int == 12
  }

  predicate IsUpper(c: char) { 'A' <= c <= 'Z' }

  predicate IsLowerLetter(c: char) { 'a' <= c <= 'z' }

  /** ASCII `toLowerCase` of one character. */
  function LowerChar(c: char): (r: char)
    ensures !IsUpper(r)
    ensures IsUpper(c) ==> IsLowerLetter(r)
    ensures !IsUpper(c) ==> r == c
    ensures IsSpace(r) <==> IsSpace(c)
  {
    if IsUpper(c) then (c as int + 32) as char else c
  }

  /** ASCII `toUpperCase` of one character. */
  function UpperChar(c: char): (r: char)
    ensures !IsLowerLetter(r)
    ensures IsLowerLetter(c) ==> IsUpper(r)
    ensures !IsLowerLetter(c) ==> r == c
  {
    if IsLowerLetter(c) then (c as int - 32) as char else c
  }

  /** `s.toLowerCase()`. */
  function Lower(s: string): (r: string)
    ensures |r| == |s|
    ensures forall i :: 0 <= i < |s| ==> r[i] == LowerChar(s[i])
  {
    seq(|s|, i requires 0 <= i < |s| => LowerChar(s[i]))
  }

  /** `s.charAt(0).toUpperCase() + s.slice(1)`. */
  function Capitalize(s: string): (r: string)
    ensures |r| == |s|
    ensures s != [] ==> r[0] == UpperChar(s[0]) && r[1..] == s[1..]
  {
    if s == [] then [] else [UpperChar(s[0])] + s[1..]
  }

  lemma LowerAppend(a: string, b: string)
    ensures Lower(a + b) == Lower(a) + Lower(b)
  {
    assert forall i :: 0 <= i < |a + b| ==> Lower(a + b)[i] == (Lower(a) + Lower(b))[i];
  }

  lemma LowerIdempotent(s: string)
    ensures Lower(Lower(s)) == Lower(s)
  {
  }

  predicate StartsWith(s: string, p: string) {
    |p| <= |s| && s[..|p|] == p
  }

  /** `s.includes(sub)`. Every string includes "". */
  predicate Contains(s: string, sub: string)
    decreases |s|
  {
    StartsWith(s, sub) || (|s| > 0 && Contains(s[1..], sub))
  }

  /** `sub` occurs in `s` starting at offset `i`. */
  predicate OccursAt(s: string, sub: string, i: int) {
    0 <= i && i + |sub| <= |s| && s[i..i + |sub|] == sub
  }

  /** `Contains` is exactly "occurs at some offset". */
  lemma {:induction false} ContainsIff(s: string, sub: string)
    ensures Contains(s, sub) <==> exists i :: OccursAt(s, sub, i)
    decreases |s|
  {
    if StartsWith(s, sub) {
      assert OccursAt(s, sub, 0);
    }
    if |s| > 0 {
      ContainsIff(s[1..], sub);
      if Contains(s[1..], sub) {
        var i :| OccursAt(s[1..], sub, i);
        assert s[i + 1..i + 1 + |sub|] == s[1..][i..i + |sub|];
        assert OccursAt(s, sub, i + 1);
      }
      if exists i :: OccursAt(s, sub, i) {
        var i :| OccursAt(s, sub, i);
        if i > 0 {
          assert s[1..][i - 1..i - 1 + |sub|] == s[i..i + |sub|];
          assert OccursAt(s[1..], sub, i - 1);
        }
      }
    } else if exists i :: OccursAt(s, sub, i) {
      var i :| OccursAt(s, sub, i);
      assert StartsWith(s, sub);
    }
  }

  lemma ContainsAt(s: string, sub: string, i: nat)
    requires OccursAt(s, sub, i)
    ensures Contains(s, sub)
  {
    ContainsIff(s, sub);
  }

  lemma ContainsShorter(s: string, sub: string)
    requires Contains(s, sub)
    ensures |sub| <= |s|
  {
    ContainsIff(s, sub);
  }

  lemma ContainsSuffix(a: string, b: string)
    ensures Contains(a + b, b)
  {
    assert OccursAt(a + b, b, |a|);
    ContainsAt(a + b, b, |a|);
  }

  lemma ContainsPrefix(a: string, b: string)
    ensures Contains(a + b, a)
  {
    assert OccursAt(a + b, a, 0);
    ContainsAt(a + b, a, 0);
  }

  /** Every character of a string that occurs inside `s` occurs in `s`. */
  lemma ContainsChars(s: string, sub: string)
    requires Contains(s, sub)
    ensures forall k :: 0 <= k < |sub| ==> sub[k] in s
  {
    ContainsIff(s, sub);
    var i :| OccursAt(s, sub, i);
    forall k | 0 <= k < |sub|
      ensures sub[k] in s
    {
      assert sub[k] == s[i + k];
    }
  }

  /** A string lacking one of `sub`'s characters does not include `sub`. */
  lemma MissingChar(s: string, sub: string, k: nat)
    requires k < |sub| && sub[k] !in s
    ensures !Contains(s, sub)
  {
    if Contains(s, sub) {
      ContainsChars(s, sub);
    }
  }

  /** An occurrence of `sub` in `a + [x] + b` lies in `a`, lies in `b`, or uses `x`. */
  lemma OccursSplit(a: string, x: char, b: string, sub: string, i: int)
    requires OccursAt(a + [x] + b, sub, i)
    ensures OccursAt(a, sub, i) || OccursAt(b, sub, i - |a| - 1) || x in sub
  {
    var s := a + [x] + b;
    if i + |sub| <= |a| {
      assert s[i..i + |sub|] == a[i..i + |sub|];
    } else if i > |a| {
      assert s[i..i + |sub|] == b[i - |a| - 1..i - |a| - 1 + |sub|];
    } else {
      assert sub[|a| - i] == s[i..i + |sub|][|a| - i] == x;
    }
  }

  /** An occurrence of `sub` in `a + [x] + b` that does not use `x` lies in `a` or in `b`. */
  lemma NotContainsSplit(a: string, x: char, b: string, sub: string)
    requires x !in sub
    requires !Contains(a, sub) && !Contains(b, sub)
    ensures !Contains(a + [x] + b, sub)
  {
    var s := a + [x] + b;
    ContainsIff(s, sub);
    ContainsIff(a, sub);
    ContainsIff(b, sub);
    if exists i :: OccursAt(s, sub, i) {
      var i :| OccursAt(s, sub, i);
      OccursSplit(a, x, b, sub, i);
    }
  }

  lemma ContainsMiddle(a: string, b: string, c: string)
    ensures Contains(a + b + c, b)
  {
    assert (a + b + c)[|a|..|a| + |b|] == b;
    assert OccursAt(a + b + c, b, |a|);
    ContainsAt(a + b + c, b, |a|);
  }

  lemma ContainsSelf(s: string)
    ensures Contains(s, s)
  {
    assert OccursAt(s, s, 0);
    ContainsAt(s, s, 0);
  }

  lemma NotShorter(s: string, sub: string)
    requires |s| < |sub|
    ensures !Contains(s, sub)
  {
    if Contains(s, sub) {
      ContainsShorter(s, sub);
    }
  }

  /** Lower-casing produces a character `c` only from `c` or its upper-case form. */
  lemma LowerLacks(s: string, c: char)
    requires !IsUpper(c) && c !in s && UpperChar(c) !in s
    ensures c !in Lower(s)
  {
  }

  /** The case-insensitive test fails when one of `sub`'s letters, in
      either case, is absent from `s`. */
  lemma LowerMissingChar(s: string, sub: string, k: nat)
    requires k < |sub|
    requires LowerChar(sub[k]) !in s && UpperChar(LowerChar(sub[k])) !in s
    ensures !Contains(Lower(s), Lower(sub))
  {
    LowerLacks(s, LowerChar(sub[k]));
    MissingChar(Lower(s), Lower(sub), k);
  }

  /** Splitting the case-insensitive test on `s == a + [x] + b` at a
      character whose lower-case form `sub` lacks. */
  lemma LowerNotContainsSplit(s: string, a: string, x: char, b: string, sub: string)
    requires s == a + [x] + b
    requires LowerChar(x) !in Lower(sub)
    requires !Contains(Lower(a), Lower(sub)) && !Contains(Lower(b), Lower(sub))
    ensures !Contains(Lower(s), Lower(sub))
  {
    LowerAppend(a + [x], b);
    LowerAppend(a, [x]);
    assert Lower([x]) == [LowerChar(x)];
    NotContainsSplit(Lower(a), LowerChar(x), Lower(b), Lower(sub));
  }

  /** `s.trimStart()`. */
  function TrimStart(s: string): (r: string)
    ensures |r| <= |s| && r == s[|s| - |r|..]
    ensures r == [] || !IsSpace(r[0])
    ensures forall k :: 0 <= k < |s| - |r| ==> IsSpace(s[k])
  {
    if s != [] && IsSpace(s[0]) then TrimStart(s[1..]) else s
  }

  /** `s.trimEnd()`. */
  function TrimEnd(s: string): (r: string)
    ensures |r| <= |s| && r == s[..|r|]
    ensures r == [] || !IsSpace(r[|r| - 1])
    ensures forall k :: |r| <= k < |s| ==> IsSpace(s[k])
  {
    if s != [] && IsSpace(s[|s| - 1]) then TrimEnd(s[..|s| - 1]) else s
  }

  predicate AllSpace(s: string) {
    forall k :: 0 <= k < |s| ==> IsSpace(s[k])
  }

  /** `s.trim()`. */
  function Trim(s: string): (r: string)
    ensures r == [] || (!IsSpace(r[0]) && !IsSpace(r[|r| - 1]))
    ensures r == [] <==> AllSpace(s)
  {
    var t := TrimStart(s);
    var r := TrimEnd(t);
    assert forall k :: 0 <= k < |t| ==> t[k] == s[|s| - |t| + k];
    r
  }

  /** Length of the leading run of non-space characters. */
  function TokenLen(s: string): (n: nat)
    ensures n <= |s|
    ensures forall k :: 0 <= k < n ==> !IsSpace(s[k])
    ensures n < |s| ==> IsSpace(s[n])
  {
    if s == [] || IsSpace(s[0]) then 0 else 1 + TokenLen(s[1..])
  }

  /** `s.split(/\s+/).filter(Boolean)`: the maximal runs of non-space
      characters, in order. */
  function Words(s: string): (r: seq<string>)
    ensures forall i :: 0 <= i < |r| ==> r[i] != []
    ensures forall i, k :: 0 <= i < |r| && 0 <= k < |r[i]| ==> !IsSpace(r[i][k]) && r[i][k] in s
    decreases |s|
  {
    if s == [] then []
    else if IsSpace(s[0]) then Words(s[1..])
    else
      var n := TokenLen(s);
      assert forall k :: 0 <= k < |s[n..]| ==> s[n..][k] in s;
      [s[..n]] + Words(s[n..])
  }

  lemma {:induction false} TokenLenJoin(a: string, c: char, b: string)
    requires IsSpace(c)
    ensures TokenLen(a + [c] + b) == TokenLen(a)
    ensures TokenLen(a) <= |a|
    decreases |a|
  {
    var s := a + [c] + b;
    if a != [] && !IsSpace(a[0]) {
      assert s[1..] == a[1..] + [c] + b;
      TokenLenJoin(a[1..], c, b);
    }
  }

  /** Splitting at a space character splits the word list. */
  lemma {:induction false} WordsJoin(a: string, c: char, b: string)
    requires IsSpace(c)
    ensures Words(a + [c] + b) == Words(a) + Words(b)
    decreases |a|
  {
    var s := a + [c] + b;
    if a == [] {
      assert s[1..] == b;
    } else if IsSpace(a[0]) {
      assert s[1..] == a[1..] + [c] + b;
      WordsJoin(a[1..], c, b);
    } else {
      var n := TokenLen(a);
      TokenLenJoin(a, c, b);
      assert s[..n] == a[..n];
      assert s[n..] == a[n..] + [c] + b;
      WordsJoin(a[n..], c, b);
    }
  }

  lemma {:induction false} TokenLenWhole(w: string)
    requires forall k :: 0 <= k < |w| ==> !IsSpace(w[k])
    ensures TokenLen(w) == |w|
  {
    if w != [] {
      TokenLenWhole(w[1..]);
    }
  }

  /** A non-empty run of non-space characters is a single word. */
  lemma WordsSingle(w: string)
    requires w != []
    requires forall k :: 0 <= k < |w| ==> !IsSpace(w[k])
    ensures Words(w) == [w]
  {
    TokenLenWhole(w);
    assert !IsSpace(w[0]);
    assert w[..TokenLen(w)] == w;
    assert Words(w[TokenLen(w)..]) == [];
  }
}

=== FILE: useradmin.dfy ===
/** User administration: the admin listing's projection, the role update
    handler, and the promote/demote buttons of the user management page. */
module UserAdmin {
  import opened Common
  import opened Schema
  import Auth

  // --------------------------------------------------------------- listing

  /** The four fields the listing selects; the password is never among them. */
  datatype Listed = Listed(id: Id, name: string, email: string, role: Role, createdAt: int)

  /** `getAllUsers`: every user, in store order, projected to its listed fields. */
  function AllUsers(users: seq<User>): (r: seq<Listed>)
    ensures |r| == |users|
    ensures forall i :: 0 <= i < |users| ==>
              r[i] == Listed(users[i].id, users[i].name, users[i].email, users[i].role, users[i].createdAt)
  {
    if users == [] then []
    else [Listed(users[0].id, users[0].name, users[0].email, users[0].role, users[0].createdAt)] + AllUsers(users[1..])
  }

  /** The listing does not depend on the stored passwords. */
  lemma {:induction false} ListingHidesPasswords(users: seq<User>, users': seq<User>)
    requires |users| == |users'|
    requires forall i :: 0 <= i < |users| ==> users'[i] == users[i].(password := users'[i].password)
    ensures AllUsers(users) == AllUsers(users')
  {
    if users != [] {
      assert users'[0] == users[0].(password := users'[0].password);
      ListingHidesPasswords(users[1..], users'[1..]);
    }
  }

  // ----------------------------------------------------------- role update

  /** `updateUserRole`: 400 for a missing or unknown role (before the
      lookup), 404 for an unknown id; otherwise only the role is set, with
      no protected account and no last-admin check. The save still runs the
      schema validators, so an employer without a company name is refused.
      The reply carries the user's id, name, e-mail and new role. */
  function UpdateRole(id: Id, role: Option<string>, users: seq<User>): (r: Response<Auth.Identity, seq<User>>)
    ensures !Truthy(role) || ParseRole(role.value).None? ==> r.reply == Fail(400, "Invalid role")
    ensures Truthy(role) && ParseRole(role.value).Some? && !HasUserId(users, id) ==>
              r.reply == Fail(404, "User not found")
    ensures !r.reply.Ok? ==> r.store == users
    ensures r.reply.Ok? <==>
              && Truthy(role) && ParseRole(role.value).Some? && HasUserId(users, id)
              && (ParseRole(role.value) == Some(Employer) ==>
                    users[Auth.UserIndex(users, id).value].companyName != "")
    ensures r.reply.Ok? ==>
              var i := Auth.UserIndex(users, id).value;
              && r.store == users[i := users[i].(role := ParseRole(role.value).value)]
              && r.reply.code == 200 && RoleName(r.reply.body.role) == role.value
              && r.reply.body == Auth.IdentityOf(r.store[i])
  {
    if !Truthy(role) || ParseRole(role.value).None? then Response(Fail(400, "Invalid role"), users)
    else
      var i := Auth.UserIndex(users, id);
      if i.None? then Response(Fail(404, "User not found"), users)
      else
        var u := users[i.value].(role := ParseRole(role.value).value);
        if u.role == Employer && u.companyName == "" then
          Response(Invalid("User validation failed: companyName"), users)
        else Response(Ok(200, Auth.IdentityOf(u)), users[i.value := u])
  }

  /** A role update keeps the user collection valid. */
  lemma UpdateRolePreservesValid(id: Id, role: Option<string>, users: seq<User>)
    requires ValidUsers(users)
    ensures ValidUsers(UpdateRole(id, role, users).store)
  {
    var r := UpdateRole(id, role, users);
    if r.reply.Ok? {
      var i := Auth.UserIndex(users, id).value;
      assert ValidUser(users[i]);
      assert forall k :: 0 <= k < |users| && k != i ==> r.store[k] == users[k];
    }
  }

  /** Nothing stops the last admin from being demoted; the bootstrap
      endpoint then works again. */
  lemma LastAdminDemotable(id: Id, users: seq<User>, i: nat)
    requires i < |users| && users[i].id == id && users[i].role == Admin
    requires forall k :: 0 <= k < |users| && k != i ==> users[k].role != Admin
    requires forall k :: 0 <= k < |users| && k != i ==> users[k].id != id
    ensures UpdateRole(id, Some("job_seeker"), users).reply.Ok?
    ensures !Auth.HasAdmin(UpdateRole(id, Some("job_seeker"), users).store)
  {
    assert HasUserId(users, id);
    var j := Auth.UserIndex(users, id).value;
    assert j == i;
    var store := UpdateRole(id, Some("job_seeker"), users).store;
    assert store[i].role == JobSeeker;
    assert forall k :: 0 <= k < |store| ==> store[k].role != Admin;
  }

  // --------------------------------------------------------------- buttons

  const ProtectedEmail: string := "info@jobbridgeafrica.org"

  /** A row action: its caption, the role it requests, and whether it is disabled. */
  datatype Button = Button(caption: string, requests: string, disabled: bool)

  const Promote: Button := Button("Promote to Admin", "admin", false)

  /** The buttons of one row of the user table, given the row's role and e-mail. */
  function RowButtons(role: string, email: string): (r: seq<Button>)
    ensures |r| == 1
    ensures role != "admin" <==> r[0] == Promote
    ensures role == "admin" <==> r[0].caption == "Demote to User" && r[0].requests == "job_seeker"
    ensures r[0].disabled <==> role == "admin" && email == ProtectedEmail
  {
    (if role != "admin" then [Promote] else [])
      + (if role == "admin" then [Button("Demote to User", "job_seeker", email == ProtectedEmail)] else [])
  }

  /** Clicking the row's button: the role update request it sends, or none when disabled. */
  function Click(u: Listed): (r: Option<string>)
    ensures r.None? <==> u.role == Admin && u.email == ProtectedEmail
    ensures r.Some? ==> ParseRole(r.value).Some? && ParseRole(r.value).value != u.role
  {
    var b := RowButtons(RoleName(u.role), u.email)[0];
    if b.disabled then None else Some(b.requests)
  }

  /** The protected account's row offers no request at all. */
  lemma ProtectedButtonDisabled(users: seq<User>, i: nat)
    requires i < |users| && users[i].email == ProtectedEmail && users[i].role == Admin
    ensures Click(AllUsers(users)[i]).None?
  {
  }

  /** The protected account is protected only by that disabled button: the
      server demotes it like any other admin. */
  lemma ProtectedDemotableOnServer(users: seq<User>, i: nat)
    requires i < |users| && users[i].email == ProtectedEmail && users[i].role == Admin
    requires forall k :: 0 <= k < |users| && k != i ==> users[k].id != users[i].id
    ensures UpdateRole(users[i].id, Some("job_seeker"), users).reply.Ok?
    ensures UpdateRole(users[i].id, Some("job_seeker"), users).store[i].role == JobSeeker
  {
    assert HasUserId(users, users[i].id);
    assert Auth.UserIndex(users, users[i].id).value == i;
  }

  /** Promote followed by demote lands on job_seeker whatever the starting
      role, so it restores a job seeker but not an employer. */
  lemma PromoteThenDemote(users: seq<User>, i: nat)
    requires i < |users| && users[i].role != Admin
    requires forall k :: 0 <= k < |users| && k != i ==> users[k].id != users[i].id
    ensures var once := UpdateRole(users[i].id, Some("admin"), users);
            && once.reply.Ok?
            && var twice := UpdateRole(users[i].id, Some("job_seeker"), once.store);
            && twice.reply.Ok? && twice.store[i].role == JobSeeker
            && (users[i].role == JobSeeker ==> twice.store == users)
  {
    var id := users[i].id;
    assert HasUserId(users, id);
    assert Auth.UserIndex(users, id).value == i;
    var once := UpdateRole(id, Some("admin"), users);
    assert once.store[i].id == id;
    assert forall k :: 0 <= k < |users| && k != i ==> once.store[k].id != id;
    assert HasUserId(once.store, id);
    assert Auth.UserIndex(once.store, id).value == i;
    var twice := UpdateRole(id, Some("job_seeker"), once.store);
    if users[i].role == JobSeeker {
      assert twice.store[i] == users[i];
      assert twice.store == users;
    }
  }
}
